=== FILE: README.md ===
# Asset register (gestao_patrimonio) in Dafny

This project models the core of a small machine-asset register.

The backend is an Express service with two routers:

- `backend/routes/assets.js` lists, reads, creates, updates and deletes assets and appends history entries. It keeps a PostgreSQL sequence, an assets table and a history table.
- `backend/routes/auth.js` holds the bearer-token middleware, the admin check, login and admin-only user creation.

The client is a React application:

- `App.tsx` keeps the in-memory asset list, the stored session, the scan lookup and the route guard.
- Four screens: the asset list, the asset detail, the scanner and the asset form.
- Two administration panels: categories and users.
- `types.ts` and `constants.ts` supply the enums and the seed data.

Each backend handler is a pure function from a store (sequence counter, asset rows, history rows, history serial, database clock) and a request body to a reply and the store it leaves behind. Each client handler is a pure function from the screen state, and the server's answer given as a parameter, to the requests it sends and the new state. Library effects are function parameters, never assumptions:

- JWT signing and verification;
- bcrypt hashing and comparison;
- the date-to-ISO conversion;
- store failures.

Modules, one per source concern:

- `Wrappers`: `Option`, JavaScript truthiness, `||` on strings.
- `Http`: replies and the error handler's fallback.
- `Text`: ASCII case mapping, `trim`, `includes`, `split`, `padStart`, decimals.
- `Sequences`: filter, insertion sort, reverse, code-point string order.
- `Types`: `types.ts`.
- `AssetIds`: the `MAKEDIST-MAQ-#####` identifier format.
- `AssetRoutes`: `assets.js`.
- `AssetStore`: the store invariant, id allocation and routing.
- `AuthRoutes`: `auth.js`.
- `App`: `App.tsx`.
- `AssetListScreen`, `AssetDetailScreen`, `ScanScreen`, `AssetForm`, `CategoryManagement`, `UserManagement`: the screens and panels.
- `Constants`: `constants.ts`.

## Model

| member | source | states |
|---|---|---|
| AssetRoutes.Lookup | backend/routes/assets.js:22-25 | a `WHERE id = $1` lookup finds a row exactly when some row has the id, and the row found carries that id |
| AssetRoutes.IdAscendingIsTotalPreorder | backend/routes/assets.js:10 | `ORDER BY id` compares every pair of ids and is transitive, so the listing is well defined |
| AssetRoutes.NewestFirstIsTotalPreorder | backend/routes/assets.js:27 | `ORDER BY "timestamp" DESC` is a total preorder on history rows |
| AssetRoutes.ListAll | backend/routes/assets.js:7-15 | a failing SELECT answers 500 with the server's fallback message; otherwise GET / returns 200 with every stored asset exactly once, in ascending id order |
| AssetRoutes.GetOne | backend/routes/assets.js:18-36 | a failing asset SELECT answers 500; otherwise 404 "Ativo não encontrado" exactly for an unknown id; a failing history SELECT on a known id answers 500; success, exactly when neither fails and the id is known, is the stored row with a permutation of exactly its own history rows, newest first |
| AssetRoutes.Create | backend/routes/assets.js:39-62 | a missing required field gives 400 and draws no number; a failing `nextval` answers 500 and changes nothing; otherwise the counter advances by one, and a failing INSERT answers 500 leaving the table alone; success is a 201 whose row gets the formatted id of the drawn number, appended to the table, and that id was not in use; history and clock never change |
| AssetRoutes.UpdateRows | backend/routes/assets.js:76-79 | the UPDATE rewrites the rows with the id and keeps every other row |
| AssetRoutes.Update | backend/routes/assets.js:65-87 | 400 without nome or status; a failing UPDATE answers 500 before any row test; 404 for an unknown id; success exactly for a valid body on a known id with no store error, and it changes exactly nome, descricao, localizacao, status, utilizador and the update time of that asset; the failures change nothing; counter, clock and history are untouched |
| AssetRoutes.Touch | backend/routes/assets.js:110 | only the appended-to asset's update time moves |
| AssetRoutes.AppendHistory | backend/routes/assets.js:90-116 | the body is validated (400) before the asset check; a failing check answers 500 and changes nothing; 404 for an unknown asset; a failing INSERT answers 500 and stores no entry, while a failing touch answers 500 after the entry for that asset, stamped with the clock, is stored, with the asset rows unchanged; success exactly for a valid body on a live asset with no store error, inserting one entry for that asset stamped with the clock and touching that asset |
| AssetRoutes.Delete | backend/routes/assets.js:120-131 | a failing DELETE answers 500 and changes nothing; 404 for an unknown id; success exactly for a known id with no store error, echoing the deleted row and removing exactly that id's rows and, through the foreign-key cascade, its history |
| AssetRoutes.Tick | backend/routes/assets.js:55 | the database clock never runs backwards and nothing else changes |
| AssetStore.EmptyWf | backend/routes/assets.js:48-58 | a fresh database satisfies the store invariant: unique issued ids, no orphan history, no entry stamped after the clock |
| AssetStore.CreateNeverCollides | backend/routes/assets.js:48-58 | under the invariant the id a valid create draws is always fresh, so the insert succeeds with that id |
| AssetStore.CreatePreservesWf | backend/routes/assets.js:39-62 | every create outcome, a failed draw or a failed insert included, keeps the invariant |
| AssetStore.WfAfterDraw | backend/routes/assets.js:48 | drawing a number without inserting keeps the invariant |
| AssetStore.WfAfterInsert | backend/routes/assets.js:53-58 | inserting a fresh row under the drawn id keeps the invariant |
| AssetStore.UpdatePreservesWf | backend/routes/assets.js:65-87 | every update outcome keeps the invariant |
| AssetStore.AppendHistoryPreservesWf | backend/routes/assets.js:90-116 | every append outcome, including an insert that lands before a failed touch, keeps every history row attached to a live asset |
| AssetStore.DeletePreservesWf | backend/routes/assets.js:120-131 | deleting with the cascade keeps ids unique and issued and leaves no orphan history |
| AssetStore.DeleteKeepsOwner | backend/routes/assets.js:123 | a history row that survives the cascade still has its asset |
| AssetStore.SubsequenceUnique | backend/routes/assets.js:123 | removing rows never creates a duplicate id |
| AssetStore.InsertFailureBurnsNumber | backend/routes/assets.js:48-61 | a valid create whose insert fails answers 500 with its sequence number already drawn and nothing else changed |
| AssetStore.CreateDrawsOnce | backend/routes/assets.js:43-50 | a validated create whose draw succeeds consumes exactly one sequence value whatever happens next; a rejected create or a failed draw consumes none |
| AssetStore.SuccessiveCreatesIncrease | backend/routes/assets.js:48-50 | two successful creates in a row hand out distinct ids whose parsed numbers increase |
| AssetStore.FailedInsertLeavesGap | backend/routes/assets.js:48-61 | a create whose insert fails still burns its number: the next create skips it and no asset ever carries the skipped id |
| AssetStore.AppendAddsOneEntry | backend/routes/assets.js:105-110 | a valid append to a live asset succeeds, adds exactly one entry to that asset's history, leaves every other asset's history and row alone, and stamps only that asset |
| AssetStore.AppendedEntryListedFirst | backend/routes/assets.js:26-31 | for a valid append to a live asset, once the clock is past the asset's earlier entries, the appended entry is the first one GET /:id lists |
| AssetStore.FilterKeepsStamped | backend/routes/assets.js:123 | the cascade leaves every surviving history row stamped no later than the clock |
| AssetStore.TickPreservesWf | backend/routes/assets.js:55 | the clock moving forward keeps the invariant, no entry then lying in the future |
| AssetStore.TickedAppendListedFirst | backend/routes/assets.js:26-31 | under the invariant, a valid append to a live asset made after the clock has moved forward is the first entry GET /:id lists for its asset |
| AssetStore.Dispatch | backend/routes/assets.js:3-120 | each handler is picked exactly for its method and path shape: GET with no segment or one, POST with none or `<id>/history` (the literal in any letter case, as `express.Router()` ignores case), PUT and DELETE with one; every other request reaches no handler |
| AssetStore.HistoryPathIgnoresCase | backend/routes/assets.js:3-90 | a history POST reaches its handler whether the path says "history" or "HISTORY" |
| AssetStore.CategoryCallsFail | backend/routes/assets.js:18-25 | GET /api/assets/categories is read as asset "categories" and answers 404 (or 500 when its SELECT fails), since no issued id can be that; POST, PUT and DELETE on category paths match no route |
| AssetIds.FormatAssetId | backend/routes/assets.js:50 | an id is the fixed prefix followed only by digits, at least five of them |
| AssetIds.ParseFormatRoundTrip | backend/routes/assets.js:50 | reading the number back from a formatted id gives the drawn number, so zero padding loses nothing |
| AssetIds.FormatInjective | backend/routes/assets.js:50 | distinct numbers give distinct ids |
| AssetIds.FiveDigitSuffix | backend/routes/assets.js:50 | below 100000 every id has the five-digit shape |
| AssetIds.NoTruncation | backend/routes/assets.js:50 | from 100000 on, `padStart` leaves the numeral whole and the id grows past the five-digit shape |
| AssetIds.IdOrderFollowsNumbers | backend/routes/assets.js:10 | below 100000, `ORDER BY id` lists assets in creation-number order |
| AssetIds.OrderBreaksPastFiveDigits | backend/routes/assets.js:10 | at the five-digit boundary the listing order departs from number order: asset 100000 sorts before asset 99999 |
| AuthRoutes.BearerToken | backend/routes/auth.js:15-16 | `authHeader && authHeader.split(' ')[1]`: no token without a header, the empty string for an empty header, and otherwise the second space-separated word, present exactly when the header contains a space |
| AuthRoutes.BearerRoundTrip | backend/routes/auth.js:16 | any scheme word, then a space, then a space-free token, yields that token; the scheme is never checked |
| AuthRoutes.Authenticate | backend/routes/auth.js:14-30 | 401 exactly when there is no token; with a token the request passes exactly when the verifier accepts it, carrying the decoded claims, and is otherwise refused with 403 |
| AuthRoutes.MissingTokenSkipsVerify | backend/routes/auth.js:18-20 | without a token the verifier's answer is irrelevant |
| AuthRoutes.EmptyHeaderReachesVerify | backend/routes/auth.js:16-22 | an empty Authorization header is not treated as missing: the empty token goes to the verifier |
| AuthRoutes.AuthorizeAdmin | backend/routes/auth.js:33-38 | passes exactly a present user whose role is `admin`; everyone else gets 403 |
| AuthRoutes.FindUser | backend/routes/auth.js:45-46 | finds a row exactly when some row has the username, and an absent username finds none |
| AuthRoutes.Login | backend/routes/auth.js:41-67 | a failing SELECT answers 500; an unknown username answers the shared 400; a known one without a password answers 500 (the comparison throws); a wrong password answers the shared 400; success exactly for a stored user whose hash the password matches, and the reply holds the token signed over id, username and role for one hour, never the hash |
| AuthRoutes.LoginFailuresAlike | backend/routes/auth.js:48-57 | an unknown username and a wrong password get the identical reply |
| AuthRoutes.LoginSucceedsIffCredentialsMatch | backend/routes/auth.js:45-63 | with unique usernames, login succeeds exactly when the named row's hash matches, and the token names that row |
| AuthRoutes.UsernameTaken | backend/routes/auth.js:79-80 | the 409 check holds exactly when some row carries the name |
| AuthRoutes.CreateUser | backend/routes/auth.js:70-96 | the middlewares run first (401, 403, 403 for non-admins); then 400 for a missing field; a failing name check answers 500 before the 409 for a taken name; a failing hash or INSERT answers 500; success, exactly when none fails, is a 201 naming the next serial, the username and the role, with exactly one row appended; every failure leaves the rows alone, and only a failing INSERT, which runs after the name check and the hash, also consumes the next serial value |
| AuthRoutes.CreateUserPreservesWf | backend/routes/auth.js:79-91 | usernames stay unique and ids stay increasing after any create |
| AuthRoutes.FailedUserInsertLeavesGap | backend/routes/auth.js:79-91 | after an INSERT that fails for a valid body and a free name, no row is added and the next user created is numbered two past the old serial, so the number the failed insert drew is never reused |
| AuthRoutes.AnyRoleAccepted | backend/routes/auth.js:73-91 | the role is stored as sent: an admin can create a user with any non-empty role |
| AuthRoutes.Dispatch | backend/routes/auth.js:7-70 | exactly POST on the single segment "login" or "users", in any letter case as `express.Router()` ignores case, has a handler |
| AuthRoutes.RoutesIgnoreCase | backend/routes/auth.js:7-70 | POST /login and POST /users reach their handlers in lower case and in capitals alike |
| AuthRoutes.UserAdminCallsUnrouted | backend/routes/auth.js:41-96 | listing, editing, re-passwording and deleting users have no backend route |
| App.Merge | App.tsx:145-151 | `{ ...asset, ...server }`: the server's columns win, and the history, the internal id and the category fields keep their local values |
| App.MergeOwnColumns | App.tsx:145-151 | merging an asset's own columns back is the identity |
| App.UpdateById | App.tsx:145-151 | after a successful PUT only the assets with that id change, they take the server's columns, and the list keeps its length, order and ids |
| App.UpdateByIdIdempotent | App.tsx:145-151 | applying the same PUT reply twice equals applying it once |
| App.FromServer | App.tsx:178-180 | a created asset enters the list with the server's columns and an empty history |
| App.AppendAsset | App.tsx:180 | the created asset goes at the end and the old list is kept as its prefix |
| App.PrependHistory | App.tsx:238-248 | a new entry goes in front of the history of the assets with that id; every other asset is unchanged |
| App.PrependThenDeleteForgetsEntry | App.tsx:238-248 | adding a history entry to an asset and then deleting that asset leaves exactly the list that deleting alone leaves |
| App.DeleteById | App.tsx:285 | after a delete no asset has the id; every other asset keeps its multiplicity and the order is kept; an unknown id changes nothing |
| App.AddThenDelete | App.tsx:180-285 | deleting an asset just added under a fresh id restores the list |
| App.FindIgnoringCase | App.tsx:72 | `find` returns the first asset whose id equals the scanned one ignoring case, and none exactly when no id matches |
| App.HandleScan | App.tsx:71-79 | opens `/asset/<stored id>` exactly when some loaded id matches ignoring case; otherwise it alerts with the scanned text and returns to `/scan` |
| App.GetAuthHeaders | App.tsx:117-123 | an Authorization header exactly when a non-empty token is stored, and then it is `Bearer <token>` |
| App.HeadersReachGate | App.tsx:117-123 | the header the client builds is the one the server parses: no token gives 401, a space-free token reaches the verifier unchanged |
| App.Restore | App.tsx:61-66 | the user is restored exactly when both a token and a user are stored |
| App.SignIn | App.tsx:99-101 | a successful login stores the token and the user and shows the user |
| App.Logout | App.tsx:110-115 | clears both stored values and the shown user and goes to /login |
| App.OnMutationFailure | App.tsx:138 | a 401 or 403 answer logs out, clearing the stored token, the stored user and the shown user; any other failure keeps the session |
| App.SessionLifecycle | App.tsx:61-123 | a signed-in session survives a reload; after a logout the next request carries no header and a reload restores no one |
| App.PrivateRoute | App.tsx:299-314 | renders exactly for a signed-in user whose role is listed, or any signed-in user when no roles are given; an anonymous visitor is sent to /login, anyone else home |
| App.AdminGuardMatchesServer | App.tsx:397 | the client's /admin guard lets in exactly the users the server's admin check passes |
| AssetListScreen.FilterAssets | components/screens/AssetListScreen.tsx:19-28 | the whole list for an empty term; otherwise exactly the assets whose name, id, model or location contains the term ignoring case, each with its multiplicity, in list order |
| AssetListScreen.EmptyTermShortcutAgrees | components/screens/AssetListScreen.tsx:20 | the empty-term shortcut gives what the filter itself would give |
| AssetListScreen.SearchIgnoresCase | components/screens/AssetListScreen.tsx:23-26 | lower-casing the term never changes the result |
| AssetListScreen.View | components/screens/AssetListScreen.tsx:43-66 | the total counts all loaded assets; an empty-list text appears exactly when no row is shown, and it says "no match" for a search and "none registered" otherwise |
| AssetListScreen.ViewMessagesAreTruthful | components/screens/AssetListScreen.tsx:43-66 | "none registered" shows only when there are no assets, and the total never depends on the search |
| ScanScreen.SubmitManual | components/screens/ScanScreen.tsx:18-23 | a blank input sends nothing; otherwise the trimmed input is sent, non-empty and without white space at either end |
| ScanScreen.SubmitManualStable | components/screens/ScanScreen.tsx:20-21 | submitting the submitted id again sends the same id |
| ScanScreen.ScanRequest | components/screens/ScanScreen.tsx:18-28 | the camera's text goes out untouched; only the manual form trims |
| ScanScreen.CameraDoesNotTrim | components/screens/ScanScreen.tsx:25-28 | a padded id from the camera stays padded, while the same text typed in is trimmed |
| ScanScreen.CameraErrorMessage | components/screens/ScanScreen.tsx:30-41 | each named camera error has its own message, any other error the generic one, always followed by the HTTPS hint |
| ScanScreen.CameraMessagesDistinct | components/screens/ScanScreen.tsx:32-40 | the named errors' messages differ, so the text identifies the case |
| AssetDetailScreen.CurrentAssetId | components/screens/AssetDetailScreen.tsx:54 | in add mode the route parameter is ignored; otherwise it is the id |
| AssetDetailScreen.AddModeNeverFetches | components/screens/AssetDetailScreen.tsx:54-72 | adding never loads an asset, whatever the URL holds |
| AssetDetailScreen.NewerOrSameIsTotalPreorder | components/screens/AssetDetailScreen.tsx:222 | the comparator `b - a` on timestamps orders every pair, transitively |
| AssetDetailScreen.SortedHistory | components/screens/AssetDetailScreen.tsx:222 | the shown history is a permutation of the asset's history, newest first |
| AssetDetailScreen.OldestFirstShownReversed | components/screens/AssetDetailScreen.tsx:222 | a history kept oldest first with distinct instants is shown exactly reversed |
| AssetDetailScreen.HistoryPreview | components/screens/AssetDetailScreen.tsx:223 | the preview is the first three shown entries, or all of them when fewer |
| AssetDetailScreen.PreviewIsNewest | components/screens/AssetDetailScreen.tsx:222-328 | no hidden entry is newer than a previewed one, and something is hidden exactly when the full-history button shows |
| AssetDetailScreen.FormOf | components/screens/AssetDetailScreen.tsx:86-91 | the edit form loads the asset's name, description, location and status |
| AssetDetailScreen.EditToggle | components/screens/AssetDetailScreen.tsx:105-115 | toggling flips editing, and leaving editing with an asset loaded reloads the form from it |
| AssetDetailScreen.CancelDiscardsEdits | components/screens/AssetDetailScreen.tsx:105-115 | whatever was typed, cancelling shows the asset's own values again |
| AssetDetailScreen.SavePayloadAsWritten | components/screens/AssetDetailScreen.tsx:127-138 | the save sends the edited name and status or the asset's own, the edited location or the empty string, the edited description, the remaining stored fields, and no user |
| AssetDetailScreen.SavePayload | components/screens/AssetDetailScreen.tsx:127-138 | the save payload with the asset's user carried along, every other field as written |
| AssetDetailScreen.ToUpdateBody | backend/routes/assets.js:68 | the PUT route reads name, description, location, status and user from the payload |
| AssetDetailScreen.SaveAsWrittenClearsUser | components/screens/AssetDetailScreen.tsx:127-140 | saving as written erases the asset's stored user, even when only the name was edited |
| AssetDetailScreen.SaveKeepsUser | components/screens/AssetDetailScreen.tsx:127-140 | with the user carried along, the stored user survives and the stored fields are the ones sent |
| AssetDetailScreen.InfoValue | components/screens/AssetDetailScreen.tsx:370-378 | the value itself, or "N/A" for null, undefined or empty |
| AssetDetailScreen.InfoValuePlaceholder | components/screens/AssetDetailScreen.tsx:376 | "N/A" shows exactly for a blank value or a value that is literally "N/A" |
| AssetForm.DateField | components/features/AssetForm.tsx:41 | the date input gets the stored date up to its first 'T', or empty without a date |
| AssetForm.Initial | components/features/AssetForm.tsx:36-47 | the form starts from the asset's fields, or empty with status "Em Operação" and event type "Observacao" |
| AssetForm.Effect | components/features/AssetForm.tsx:49-74 | editing loads the asset, adding an asset clears the asset fields, adding history clears the history fields, and editing without an asset changes nothing |
| AssetForm.IsoDate | components/features/AssetForm.tsx:86 | an empty date is sent as empty, any other as its ISO form |
| AssetForm.PayloadOf | components/features/AssetForm.tsx:79-89 | each submitted field is the matching form field, the user included |
| AssetForm.Submit | components/features/AssetForm.tsx:76-108 | an update is sent exactly when an asset is being edited; history sends only type and text; adding sends the asset fields |
| AssetForm.ToCreateBody | backend/routes/assets.js:41 | the POST route reads the required fields from the payload |
| AssetForm.NewAssetIdComesFromServer | components/features/AssetForm.tsx:95-127 | the add form sends an asset exactly when its required fields are filled, and the server then accepts it under its next sequence id, so POST's 400 is unreachable from the form |
| AssetForm.Save | components/features/AssetForm.tsx:111-143 | the browser sends nothing while a `required` field is empty; whatever is sent carries a name, model, location and date, or a history description |
| AssetForm.AddedRowHasNoNullText | components/features/AssetForm.tsx:95-106 | an asset added through the form is stored with name, model, location, serial number and warranty text exactly as typed, none of them NULL |
| AssetForm.UntouchedEditResubmits | components/features/AssetForm.tsx:49-89 | saving an untouched edit form sends the asset's own values back |
| AssetForm.UntouchedAddSendsNothing | components/features/AssetForm.tsx:60-127 | saving the add form as it opens sends nothing, as its required fields are empty; `handleSubmit` reached anyway would meet the server's 400 |
| CategoryManagement.NormalizePrefix | components/features/CategoryManagement.tsx:86 | the submitted prefix has no lower-case letter, no white space at either end, is no longer than the input, and is empty for a blank input |
| CategoryManagement.NormalizePrefixIdempotent | components/features/CategoryManagement.tsx:86-187 | normalising twice equals normalising once |
| CategoryManagement.TypedPrefix | components/features/CategoryManagement.tsx:187 | the prefix field holds at most four characters, none of them lower-case, and is already normal |
| CategoryManagement.CloseModal | components/features/CategoryManagement.tsx:53-59 | every modal closed, selection and error cleared, typed fields and list kept |
| CategoryManagement.OpenAddModal | components/features/CategoryManagement.tsx:61-65 | empty fields and the add modal open, nothing else touched |
| CategoryManagement.OpenEditModal | components/features/CategoryManagement.tsx:67-71 | the category selected with its name loaded and the edit modal open, nothing else touched |
| CategoryManagement.OpenDeleteModal | components/features/CategoryManagement.tsx:73-76 | the category selected and the delete modal open, nothing else touched |
| CategoryManagement.TypeName | components/features/CategoryManagement.tsx:186 | typing a name changes only the name |
| CategoryManagement.TypePrefix | components/features/CategoryManagement.tsx:187 | typing a prefix stores its capped, normalised form and changes nothing else |
| CategoryManagement.AddRequest | components/features/CategoryManagement.tsx:83-87 | a POST of the typed name and the normalised prefix |
| CategoryManagement.EditRequest | components/features/CategoryManagement.tsx:103-111 | nothing without a selection, otherwise a PUT of the name alone to the selected category |
| CategoryManagement.DeleteRequest | components/features/CategoryManagement.tsx:126-133 | nothing without a selection, otherwise a DELETE of the selected category |
| CategoryManagement.AddSendsTypedPrefix | components/features/CategoryManagement.tsx:86-187 | the prefix submitted is the one shown in the field, at most four characters |
| CategoryManagement.EditNeverSendsPrefix | components/features/CategoryManagement.tsx:107-110 | editing renames only and targets the category the modal was opened on |
| CategoryManagement.ClosedModalSubmitsNothing | components/features/CategoryManagement.tsx:57-126 | after a close no edit or delete can be sent |
| CategoryManagement.HandleAdd | components/features/CategoryManagement.tsx:78-99 | always one POST; success closes the modals; failure keeps the screen and shows a non-empty error |
| CategoryManagement.HandleEdit | components/features/CategoryManagement.tsx:101-123 | nothing at all without a selection; otherwise one PUT, then close on success or a non-empty error on failure |
| CategoryManagement.HandleDelete | components/features/CategoryManagement.tsx:125-145 | nothing at all without a selection; otherwise one DELETE, then close on success or a non-empty error on failure |
| CategoryManagement.SubmitAdd | components/features/CategoryManagement.tsx:184-187 | nothing is sent while the name or prefix is empty; a POST always carries a name |
| CategoryManagement.SubmitEdit | components/features/CategoryManagement.tsx:198-199 | nothing is sent while the name is empty; a rename always carries a name |
| CategoryManagement.FormFailureNeverReachesBanner | components/features/CategoryManagement.tsx:158 | with any modal open, a failed add (with or without a selection), and a failed edit or delete of a selection, keeps the error inside the open modal, out of the banner, and closing the modal clears it |
| CategoryManagement.AddFailureFromClosedPanelStaysInModal | components/features/CategoryManagement.tsx:53-65 | the add modal opened after a close has nothing selected, and a failed POST from it shows its error, or the fallback message, inside the still open modal and not in the banner |
| CategoryManagement.OnFetch | components/features/CategoryManagement.tsx:31-47 | a list replaces the categories and clears the error; a refusal keeps the list, shows the status text, and logs out exactly on 401 or 403 |
| CategoryManagement.PanelFindsNoBackend | components/features/CategoryManagement.tsx:35-133 | against the real router the list request meets the single-asset handler's 404, so the panel shows an error over an empty table and stays signed in; add, edit and delete reach no handler |
| UserManagement.OpenEditModal | components/features/UserManagement.tsx:63-70 | the user selected, name and role loaded, both password fields emptied, the edit modal open |
| UserManagement.OpenDeleteModal | components/features/UserManagement.tsx:72-75 | the user selected and the delete modal open, nothing else touched |
| UserManagement.OpenAddModal | components/features/UserManagement.tsx:77-83 | the add fields emptied, the role back to "user", nothing else touched |
| UserManagement.CloseModal | components/features/UserManagement.tsx:85-91 | every modal closed and the selection and error cleared, nothing else touched |
| UserManagement.ApplyEdit | components/features/UserManagement.tsx:250-261 | a role change takes effect exactly when the select is enabled, and no edit moves the selection |
| UserManagement.SelfRoleFixed | components/features/UserManagement.tsx:257 | while the selection is the signed-in user, no sequence of edits changes the role |
| UserManagement.HandleUpdate | components/features/UserManagement.tsx:93-132 | the name and role go first; a second request with the password goes exactly when the first succeeded and a confirmed non-empty password was typed; the modal closes exactly when everything sent succeeded and no mismatch was found |
| UserManagement.MismatchReportedAfterProfileSent | components/features/UserManagement.tsx:100-113 | a mismatched new password is reported only after the new name and role were already sent |
| UserManagement.SelfEditCannotChangeRole | components/features/UserManagement.tsx:100-104 | whatever an admin does in the edit modal on their own row, the request carries their current role |
| UserManagement.HandleDelete | components/features/UserManagement.tsx:134-154 | nothing without a selection; otherwise one DELETE of that user, then close or the error |
| UserManagement.ClickDelete | components/features/UserManagement.tsx:216 | the button of the signed-in user's own row is disabled and leaves the panel unchanged; any other row opens the delete modal on it, so a new selection is never the signed-in user |
| UserManagement.SelfDeleteNeverSent | components/features/UserManagement.tsx:216 | from a panel selecting no one or someone else, a row click followed by the confirmation sends nothing or the DELETE of a user who is not the signed-in one; clicking one's own row with nothing selected sends nothing |
| UserManagement.DeleteFailureReachesBanner | components/features/UserManagement.tsx:198 | unlike the category panel, a failed delete's error also shows in the banner behind the open modal |
| UserManagement.HandleAdd | components/features/UserManagement.tsx:156-185 | a mismatch is reported before anything is sent; otherwise one POST with name, password and role, then close or the error |
| UserManagement.ToNewUserBody | backend/routes/auth.js:71 | the create route reads the three typed fields |
| UserManagement.AddFormReachesCreateUser | components/features/UserManagement.tsx:156-236 | the add form sends a request exactly when its required fields are filled and the passwords agree; it reaches the create-user handler, never meets its 400, and for an administrator and a free name stores exactly the typed name and role |
| UserManagement.SubmitAdd | components/features/UserManagement.tsx:225-236 | nothing is sent while a required add field is empty; what is sent is one new-user body with name, password and role all non-empty |
| UserManagement.SubmitEdit | components/features/UserManagement.tsx:249-250 | nothing is sent while the edit name is empty; a profile request always carries a name |
| UserManagement.OnlyAddIsRouted | components/features/UserManagement.tsx:45-141 | the list, edit, password and delete requests reach no handler |
| UserManagement.OnFetch | components/features/UserManagement.tsx:41-57 | a list replaces the users and clears the error; a refusal keeps the list, shows the status text, and logs out exactly on 401 or 403 |
| UserManagement.MountedPanelShowsFetchError | components/features/UserManagement.tsx:45-53 | on mount the unrouted list request leaves the banner showing the error over an empty table |
| Types.StatusFromValue | types.ts:2-7 | reading a status from a string gives the member whose value it is |
| Types.StatusValueRoundTrip | types.ts:2-7 | every status reads back from its own value |
| Types.StatusValueInjective | types.ts:2-7 | distinct statuses have distinct values |
| Types.EventTypeFromValue | types.ts:9-15 | reading an event type from a string gives the member whose value it is |
| Types.EventTypeValueRoundTrip | types.ts:9-15 | every event type reads back from its own value |
| Types.EventTypeValueInjective | types.ts:9-15 | distinct event types have distinct values |
| Constants.OptionsListEveryValue | constants.ts:10-11 | each option list offers every enum member, with pairwise distinct values that read back as their members |
| Constants.SeedIdsAreServerIds | constants.ts:15-49 | each seed id is the id the server would format from the seed's number |
| Constants.SeedIdsDistinct | constants.ts:15-49 | the seed ids have the five-digit shape and are pairwise distinct |
| Constants.SeedInternalIds | constants.ts:16-50 | each seed's internal id repeats its id |
| Constants.SeedHistoriesShownReversed | constants.ts:25-62 | every seed history is kept oldest first, so the detail screen shows it back to front |
| Constants.TypedSeedIdOpensAsset | constants.ts:32 | a seed id typed in lower case, with white space around it, opens that seed's page under its stored spelling |
| Text.Trim | components/screens/ScanScreen.tsx:20 | `trim` returns the input with its leading and trailing white space removed and no white space left at either end |
| Text.TrimEmptyIffAllSpace | components/screens/ScanScreen.tsx:20 | the trimmed text is empty exactly for an all-white-space input |
| Text.Split | backend/routes/auth.js:16 | `split` with one separator gives separator-free fields that join back to the input |
| Text.SplitUnique | backend/routes/auth.js:16 | splitting joined separator-free fields gives those fields back |
| Text.PadStart | backend/routes/assets.js:50 | `padStart` keeps the numeral as the suffix and fills only the missing width with the pad character |
| Text.Includes | components/screens/AssetListScreen.tsx:23-26 | `includes` holds exactly when the term occurs at some position |
| Text.ToLower | App.tsx:72 | lower-casing keeps the length and changes only ASCII capitals, one character at a time, so two ids equal ignoring case have the same length |
| Text.TrimIdempotent | components/screens/ScanScreen.tsx:20 | trimming an already trimmed id changes nothing |
| Sequences.SortBy | backend/routes/assets.js:10 | sorting returns a permutation, sorted under any total preorder |
| Sequences.SortByReversesAntiSorted | components/screens/AssetDetailScreen.tsx:222 | sorting a strictly anti-ordered sequence reverses it |
| Sequences.Filter | App.tsx:285 | filtering keeps exactly the elements satisfying the predicate, each with its multiplicity, in order |
| Sequences.FilterAppend | backend/routes/assets.js:105-107 | filtering an appended table equals appending the filtered parts |
| Wrappers.OrElse | components/features/UserManagement.tsx:107 | `message \|\| fallback` yields the message when it is non-empty, else the fallback |

## Left out

- Database I/O, connection pooling and concurrency: each handler runs to completion on one store value, with no interleaving of the history insert and the touch.
- Password hashing and comparison (bcrypt), and token signing and verification (jsonwebtoken): these are function parameters; the secret, the token contents and the expiry check are not modelled.
- Http.MsgInternal: the error handler of backend/server.js:25-28 sends the error's own message when it has one. The model always sends the fallback text, because store and library error texts are not modelled.
- Dates and locale: timestamps are naturals (the seed data uses YYYYMMDDhhmm). `toISOString` of a locally-built date depends on the browser's time zone, so seed dates are taken at midnight UTC, and date conversion in the asset form is a parameter. `formatDate` and the status pill colours are presentational and left out.
- Case mapping covers ASCII letters only; `toLowerCase`/`toUpperCase` on other scripts are not modelled.
- Presentational components, the QR generator and scanner libraries, `alert`, `console` and navigation history (`navigate(-1)`) are left out, as are all loading and submitting flags and the refetch after each successful panel action.
- A failure reply whose body is not JSON (such as Express's own 404 page) makes `response.json()` throw with a parser message. The model takes the failure message as an optional parameter instead.
- App `fetchAssets` (App.tsx:27-44) and App `fetchCategories` (App.tsx:46-59) only store what the server sends, or one fixed error text, so they are not modelled separately; the category URL's 404 is covered by CategoryManagement.PanelFindsNoBackend.
- App `addCategory` (App.tsx:189-215) posts to the same unrouted category URL as the panel's add form, covered by AssetStore.CategoryCallsFail.
- App `handleLogin` failure texts (App.tsx:92-96, 103-106) are not modelled; its success path is App.SignIn.
- App `updateAsset`, `addAsset`, `addHistoryEntry` and `deleteAsset` are modelled by their list reducers and App.OnMutationFailure. Their fetch plumbing and error strings are not.
- AssetDetailScreen `fetchAssetDetails` error texts and the add and history submit callbacks (AssetDetailScreen.tsx:67-175) are left out beyond the form they load and the payload they send.
- App.FromServer: the client's asset type has plain strings where the table has nullable `numero_serie`, `localizacao` and `info_garantia` columns. A NULL there comes only from writers other than this client: its add form stores all three as typed (AssetForm.AddedRowHasNoNullText), and its edit screen's PUT always sends a location (AssetDetailScreen.SaveKeepsUser). So the model does not carry a NULL into the list.
- AssetListScreen.FilterAssets: `localizacao.toLowerCase()` would throw on such a NULL location once a search term is typed. That throw is not modelled, for the same reason.
- The scan form's `required` gate is not modelled separately: an empty input fails it, and ScanScreen.SubmitManual already sends nothing for any blank input.
- JSON values of the wrong type (a number sent as `nome`, a status string outside the enum) are not modelled: bodies are optional strings, and the stored status is whatever string was sent.
- types.ts declares no `User` type, although App.tsx and the user panel import one. Types.User is `(id, username, role)` as the login reply shapes it.
- AssetRoutes.Tick: the database clock is an explicit store field advanced by the caller. `CURRENT_TIMESTAMP` of a real transaction is not modelled.
- Constants: the listing order of the seeds under `ORDER BY id` is not stated for the seed literals themselves. AssetIds.IdOrderFollowsNumbers states it for every formatted id below 100000.
- Unrouted requests end in Express's default 404 page; the model stops at `NoRoute`.
- The category routes themselves are not part of this model, because backend/routes/assets.js declares none.

## Findings

| source | as written | input that shows it | evidently intended | confidence | as-written member | corrected member |
|---|---|---|---|---|---|---|
| components/screens/AssetDetailScreen.tsx:127-138 | the save payload lists every asset field except `utilizador`, and the PUT route (backend/routes/assets.js:68-78) writes `utilizador` from the body, so it becomes NULL | an asset with `utilizador = "Ana"` whose name alone is edited and saved | keep the asset's user, as the update form of components/features/AssetForm.tsx:88 sends it | not executed | AssetDetailScreen.SavePayloadAsWritten (AssetDetailScreen.SaveAsWrittenClearsUser) | AssetDetailScreen.SavePayload (AssetDetailScreen.SaveKeepsUser) |

=== FILE: app.dfy ===
/** The client shell (App.tsx): the in-memory asset list and how each server
    reply updates it, the scan lookup, the bearer header, the stored session
    and the route guard. Fetching, storage and navigation are side effects of
    the source; here each handler returns the new value it would store or the
    path it would navigate to. */
module App {
  import opened Wrappers
  import opened Text
  import opened Sequences
  import opened Types
  import AuthRoutes

  /** The columns an asset route sends back (`RETURNING *`), read with the
      client's field types. The server never sends `historico`, `id_interno`
      or the category fields. */
  datatype ServerAsset = ServerAsset(
    id: string,
    nome: string,
    descricao: Option<string>,
    numero_serie: string,
    modelo: string,
    localizacao: string,
    status: AssetStatus,
    data_aquisicao: string,
    info_garantia: string,
    ultima_atualizacao: nat,
    atualizado_por: Option<string>,
    utilizador: Option<string>)

  /** The server columns of a client asset. */
  function Columns(a: Asset): ServerAsset {
    ServerAsset(a.id, a.nome, a.descricao, a.numero_serie, a.modelo, a.localizacao, a.status,
                a.data_aquisicao, a.info_garantia, a.ultima_atualizacao, a.atualizado_por, a.utilizador)
  }

  predicate HasId(assets: seq<Asset>, id: string) {
    exists i :: 0 <= i < |assets| && assets[i].id == id
  }

  // ---------------------------------------------------------------------
  // The asset list reducers

  /** `{ ...asset, ...server }`: every key the server sent wins, every key it
      never sends keeps the local value. */
  function Merge(local: Asset, server: ServerAsset): (r: Asset)
    ensures Columns(r) == server
    ensures r.historico == local.historico && r.id_interno == local.id_interno
    ensures r.category_id == local.category_id && r.category_name == local.category_name
    ensures r.category_prefix == local.category_prefix
  {
    local.(id := server.id, nome := server.nome, descricao := server.descricao,
           numero_serie := server.numero_serie, modelo := server.modelo,
           localizacao := server.localizacao, status := server.status,
           data_aquisicao := server.data_aquisicao, info_garantia := server.info_garantia,
           ultima_atualizacao := server.ultima_atualizacao, atualizado_por := server.atualizado_por,
           utilizador := server.utilizador)
  }

  /** Merging an asset's own columns back changes nothing: the merge only
      ever replaces the server's part. */
  lemma MergeOwnColumns(a: Asset)
    ensures Merge(a, Columns(a)) == a
  {
  }

  /** After a successful PUT: the asset with the server's id is merged, every
      other asset is left alone, and the list keeps its length and order. */
  function UpdateById(assets: seq<Asset>, server: ServerAsset): (r: seq<Asset>)
    ensures |r| == |assets|
    ensures forall i :: 0 <= i < |assets| && assets[i].id != server.id ==> r[i] == assets[i]
    ensures forall i :: 0 <= i < |assets| && assets[i].id == server.id ==>
              && Columns(r[i]) == server
              && r[i].historico == assets[i].historico
              && r[i].id_interno == assets[i].id_interno
    ensures forall i :: 0 <= i < |assets| ==> r[i].id == assets[i].id
  {
    seq(|assets|, i requires 0 <= i < |assets| => if assets[i].id == server.id then Merge(assets[i], server) else assets[i])
  }

  /** Applying the same reply twice is the same as applying it once. */
  lemma UpdateByIdIdempotent(assets: seq<Asset>, server: ServerAsset)
    ensures UpdateById(UpdateById(assets, server), server) == UpdateById(assets, server)
  {
    var once := UpdateById(assets, server);
    var twice := UpdateById(once, server);
    forall i | 0 <= i < |assets| ensures twice[i] == once[i] {
      if assets[i].id == server.id {
        assert Merge(once[i], server) == once[i] by {
          assert Columns(once[i]) == server;
          MergeOwnColumns(once[i]);
        }
      }
    }
  }

  /** The asset a POST returns, as it enters the list: only server columns
      and an empty history. */
  function FromServer(server: ServerAsset): (a: Asset)
    ensures Columns(a) == server && a.historico == []
    ensures a.id_interno.None? && a.category_id.None? && a.category_name.None? && a.category_prefix.None?
  {
    Asset(server.id, None, server.nome, server.descricao, server.numero_serie, server.modelo,
          server.localizacao, server.status, server.data_aquisicao, server.info_garantia,
          server.ultima_atualizacao, server.atualizado_por, [], server.utilizador, None, None, None)
  }

  /** After a successful POST: the new asset goes at the end. */
  function AppendAsset(assets: seq<Asset>, server: ServerAsset): (r: seq<Asset>)
    ensures |r| == |assets| + 1 && r[..|assets|] == assets
    ensures r[|assets|] == FromServer(server)
  {
    assets + [FromServer(server)]
  }

  /** After a successful history POST: the entry goes in front of the history
      of every asset with that id; every other asset is left alone. */
  function PrependHistory(assets: seq<Asset>, assetId: string, entry: HistoryEntry): (r: seq<Asset>)
    ensures |r| == |assets|
    ensures forall i :: 0 <= i < |assets| && assets[i].id != assetId ==> r[i] == assets[i]
    ensures forall i :: 0 <= i < |assets| && assets[i].id == assetId ==>
              r[i] == assets[i].(historico := [entry] + assets[i].historico)
  {
    seq(|assets|, i requires 0 <= i < |assets| =>
      if assets[i].id == assetId then assets[i].(historico := [entry] + assets[i].historico) else assets[i])
  }

  /** After a successful DELETE: exactly the assets with another id, in their
      order. */
  function DeleteById(assets: seq<Asset>, id: string): (r: seq<Asset>)
    ensures !HasId(r, id)
    ensures forall a :: multiset(r)[a] == if a.id != id then multiset(assets)[a] else 0
    ensures SubsequenceOf(r, assets)
    ensures !HasId(assets, id) ==> r == assets
  {
    var r := Filter(assets, (a: Asset) => a.id != id);
    if !HasId(assets, id) then
      FilterAll(assets, (a: Asset) => a.id != id);
      r
    else
      r
  }

  /** A history entry added to an asset that is then deleted leaves no
      trace: the other assets are exactly what deleting alone leaves. */
  lemma {:induction false} PrependThenDeleteForgetsEntry(assets: seq<Asset>, assetId: string, entry: HistoryEntry)
    ensures DeleteById(PrependHistory(assets, assetId, entry), assetId) == DeleteById(assets, assetId)
    decreases |assets|
  {
    if |assets| > 0 {
      var r := PrependHistory(assets, assetId, entry);
      assert r[1..] == PrependHistory(assets[1..], assetId, entry);
      PrependThenDeleteForgetsEntry(assets[1..], assetId, entry);
      assert r[0].id == assets[0].id;
      assert assets[0].id != assetId ==> r[0] == assets[0];
    }
  }

  /** Deleting an asset just added with a fresh id restores the list. */
  lemma AddThenDelete(assets: seq<Asset>, server: ServerAsset)
    requires !HasId(assets, server.id)
    ensures DeleteById(AppendAsset(assets, server), server.id) == assets
  {
    var p := (a: Asset) => a.id != server.id;
    FilterAppend(assets, [FromServer(server)], p);
    FilterAll(assets, p);
  }

  // ---------------------------------------------------------------------
  // handleScan

  datatype ScanOutcome =
    | OpenAsset(path: string)
    /** The alert shown, then a replacing navigation back to the scanner. */
    | NotFound(alert: string, path: string)

  /** `assets.find`: the first asset whose id equals `id` ignoring case. */
  function FindIgnoringCase(assets: seq<Asset>, id: string): (r: Option<nat>)
    ensures r.Some? ==> r.value < |assets| && ToLower(assets[r.value].id) == ToLower(id)
    ensures r.Some? ==> forall j :: 0 <= j < r.value ==> ToLower(assets[j].id) != ToLower(id)
    ensures r.None? <==> forall j :: 0 <= j < |assets| ==> ToLower(assets[j].id) != ToLower(id)
  {
    if |assets| == 0 then None
    else if ToLower(assets[0].id) == ToLower(id) then Some(0)
    else
      match FindIgnoringCase(assets[1..], id)
      case None => None
      case Some(k) => Some(k + 1)
  }

  /** Opens the asset page under the asset's own spelling of the id when some
      loaded asset matches ignoring case; otherwise alerts and goes back. */
  function HandleScan(assets: seq<Asset>, id: string): (r: ScanOutcome)
    ensures r.OpenAsset? <==> exists i :: 0 <= i < |assets| && ToLower(assets[i].id) == ToLower(id)
    ensures r.OpenAsset? ==> exists i :: 0 <= i < |assets| && ToLower(assets[i].id) == ToLower(id)
                                          && r.path == "/asset/" + assets[i].id
    ensures r.NotFound? ==> r.path == "/scan"
                            && r.alert == "Máquina com ID \"" + id + "\" não encontrada na lista carregada."
  {
    match FindIgnoringCase(assets, id)
    case Some(k) => OpenAsset("/asset/" + assets[k].id)
    case None => NotFound("Máquina com ID \"" + id + "\" não encontrada na lista carregada.", "/scan")
  }

  // ---------------------------------------------------------------------
  // getAuthHeaders

  const AuthorizationKey: string := "Authorization"

  /** A bearer header exactly when a token is stored (and not empty). */
  function GetAuthHeaders(token: Option<string>): (r: map<string, string>)
    ensures AuthorizationKey in r <==> Truthy(token)
    ensures Truthy(token) ==> r == map[AuthorizationKey := "Bearer " + token.value]
    ensures !Truthy(token) ==> r == map[]
  {
    if Truthy(token) then map[AuthorizationKey := "Bearer " + token.value] else map[]
  }

  /** The header the server reads from such a request. */
  function AuthorizationOf(headers: map<string, string>): Option<string> {
    if AuthorizationKey in headers then Some(headers[AuthorizationKey]) else None
  }

  /** The header the client builds is the header the server's middleware
      parses: without a token the server answers 401, and with a token (which
      a signed token never contains spaces) it verifies exactly that token. */
  lemma HeadersReachGate(token: Option<string>, verify: string -> Option<AuthRoutes.Claims>)
    requires Truthy(token) ==> ' ' !in token.value
    ensures var gate := AuthRoutes.Authenticate(AuthorizationOf(GetAuthHeaders(token)), verify);
            && (!Truthy(token) ==> gate == AuthRoutes.Deny(401, AuthRoutes.MsgTokenMissing))
            && (Truthy(token) ==> AuthRoutes.BearerToken(AuthorizationOf(GetAuthHeaders(token))) == Some(token.value))
            && (Truthy(token) ==> (gate.Pass? <==> verify(token.value).Some?))
  {
    if Truthy(token) {
      AuthRoutes.BearerRoundTrip("Bearer", token.value);
    }
  }

  // ---------------------------------------------------------------------
  // The session

  /** The two stored values and the user shown as signed in; the stored user
      is kept already parsed. */
  datatype Session = Session(storedToken: Option<string>, storedUser: Option<User>, currentUser: Option<User>)

  /** On start-up the user is restored only when both values are stored. */
  function Restore(storedToken: Option<string>, storedUser: Option<User>): (r: Session)
    ensures r.currentUser.Some? <==> Truthy(storedToken) && storedUser.Some?
    ensures r.currentUser.Some? ==> r.currentUser == storedUser
    ensures r.storedToken == storedToken && r.storedUser == storedUser
  {
    Session(storedToken, storedUser, if Truthy(storedToken) && storedUser.Some? then storedUser else None)
  }

  /** A successful login stores the token and the user and shows the user. */
  function SignIn(s: Session, accessToken: string, user: User): (r: Session)
    ensures r.storedToken == Some(accessToken) && r.storedUser == Some(user) && r.currentUser == Some(user)
  {
    Session(Some(accessToken), Some(user), Some(user))
  }

  datatype LogoutResult = LogoutResult(session: Session, path: string)

  /** Clears both stored values and the shown user, then goes to /login. */
  function Logout(s: Session): (r: LogoutResult)
    ensures r.session.storedToken.None? && r.session.storedUser.None? && r.session.currentUser.None?
    ensures r.path == "/login"
  {
    LogoutResult(Session(None, None, None), "/login")
  }

  /** A mutation answered 401 or 403 logs out; any other failure keeps the
      session. */
  function OnMutationFailure(s: Session, status: nat): (r: Session)
    ensures status == 401 || status == 403 ==> r.storedToken.None? && r.storedUser.None? && r.currentUser.None?
    ensures status != 401 && status != 403 ==> r == s
  {
    if status == 401 || status == 403 then Logout(s).session else s
  }

  /** A signed-in session survives a reload; after a logout the next request
      carries no header and a reload restores no one. */
  lemma SessionLifecycle(s: Session, accessToken: string, user: User)
    requires accessToken != ""
    ensures var signed := SignIn(s, accessToken, user);
            Restore(signed.storedToken, signed.storedUser).currentUser == Some(user)
    ensures var out := Logout(SignIn(s, accessToken, user)).session;
            && GetAuthHeaders(out.storedToken) == map[]
            && Restore(out.storedToken, out.storedUser).currentUser.None?
  {
  }

  // ---------------------------------------------------------------------
  // PrivateRoute

  datatype Guard = Render | RedirectToLogin | RedirectHome

  /** Renders for a signed-in user when no roles are required or the user's
      role is listed; an empty list is still a list, so it lets no one in. */
  function PrivateRoute(currentUser: Option<User>, roles: Option<seq<string>>): (r: Guard)
    ensures r == Render <==> currentUser.Some? && (roles.None? || currentUser.value.role in roles.value)
    ensures r == RedirectToLogin <==> currentUser.None?
  {
    if currentUser.None? then RedirectToLogin
    else if roles.Some? && currentUser.value.role !in roles.value then RedirectHome
    else Render
  }

  /** The /admin guard and the server's admin check agree on who is let in. */
  lemma AdminGuardMatchesServer(u: User)
    requires u.id >= 0
    ensures PrivateRoute(Some(u), Some([AuthRoutes.AdminRole])) == Render
        <==> AuthRoutes.AuthorizeAdmin(Some(AuthRoutes.Claims(u.id, u.username, u.role))).Pass?
  {
  }
}

=== FILE: asset_detail_screen.dfy ===
/** The asset detail screen (components/screens/AssetDetailScreen.tsx):
    which asset it loads, the newest-first history with its three-entry
    preview, the inline edit form, the update it sends on save, and the
    "N/A" placeholder. */
module AssetDetailScreen {
  import opened Wrappers
  import opened Sequences
  import opened Types
  import AssetRoutes

  datatype Mode = ViewMode | UpdateMode | AddMode

  /** `currentAssetId`: the route parameter, except when adding. */
  function CurrentAssetId(mode: Mode, param: Option<string>): (r: Option<string>)
    ensures mode == AddMode ==> r.None?
    ensures mode != AddMode ==> r == param
  {
    if mode == AddMode then None else param
  }

  /** `fetchAssetDetails` fetches only for a non-empty current id. */
  predicate Fetches(mode: Mode, param: Option<string>) {
    Truthy(CurrentAssetId(mode, param))
  }

  /** Adding never loads an asset, whatever the URL holds. */
  lemma AddModeNeverFetches(param: Option<string>)
    ensures !Fetches(AddMode, param)
  {
  }

  // ---------------------------------------------------------------------
  // History

  /** The comparator `b.timestamp - a.timestamp`: `a` may come first when it
      is at least as new. */
  predicate NewerOrSame(a: HistoryEntry, b: HistoryEntry) {
    a.timestamp >= b.timestamp
  }

  lemma NewerOrSameIsTotalPreorder()
    ensures Total(NewerOrSame) && Transitive(NewerOrSame)
  {
  }

  /** `sortedHistory`: a sorted copy, newest first; the asset's own list is
      a value here and is never reordered. */
  function SortedHistory(h: seq<HistoryEntry>): (r: seq<HistoryEntry>)
    ensures multiset(r) == multiset(h) && |r| == |h|
    ensures forall i, j :: 0 <= i < j < |r| ==> r[i].timestamp >= r[j].timestamp
  {
    NewerOrSameIsTotalPreorder();
    var r := SortBy(h, NewerOrSame);
    assert SortedBy(r, NewerOrSame);
    r
  }

  /** A history kept oldest first, with no two entries at the same instant,
      is shown exactly back to front. */
  lemma OldestFirstShownReversed(h: seq<HistoryEntry>)
    requires forall i, j :: 0 <= i < j < |h| ==> h[i].timestamp < h[j].timestamp
    ensures SortedHistory(h) == Reverse(h)
  {
    SortByReversesAntiSorted(h, NewerOrSame);
  }

  const PreviewSize: nat := 3

  /** `sortedHistory.slice(0, 3)`. */
  function HistoryPreview(sorted: seq<HistoryEntry>): (r: seq<HistoryEntry>)
    ensures |r| == if |sorted| < PreviewSize then |sorted| else PreviewSize
    ensures r == sorted[..|r|]
  {
    if |sorted| < PreviewSize then sorted else sorted[..PreviewSize]
  }

  /** The "full history" button. */
  predicate ShowsFullHistoryButton(sorted: seq<HistoryEntry>) {
    |sorted| > PreviewSize
  }

  /** The preview holds the newest entries, and it hides something exactly
      when the full-history button is offered. */
  lemma PreviewIsNewest(h: seq<HistoryEntry>)
    ensures var s := SortedHistory(h);
            var p := HistoryPreview(s);
            && (forall i, j :: 0 <= i < |p| <= j < |s| ==> p[i].timestamp >= s[j].timestamp)
            && (|p| < |s| <==> ShowsFullHistoryButton(s))
  {
  }

  // ---------------------------------------------------------------------
  // The inline edit form

  /** `editFormData`: the four editable fields, each possibly unset. */
  datatype EditForm = EditForm(
    nome: Option<string>,
    descricao: Option<string>,
    localizacao: Option<string>,
    status: Option<AssetStatus>)

  /** The form as loaded from an asset (after a fetch, and on cancel). */
  function FormOf(a: Asset): (f: EditForm)
    ensures f.nome == Some(a.nome) && f.descricao == a.descricao
    ensures f.localizacao == Some(a.localizacao) && f.status == Some(a.status)
  {
    EditForm(Some(a.nome), a.descricao, Some(a.localizacao), Some(a.status))
  }

  datatype EditState = EditState(isEditing: bool, form: EditForm)

  /** `handleEditToggle`: flips editing; leaving editing with an asset loaded
      throws the edits away. */
  function EditToggle(st: EditState, asset: Option<Asset>): (r: EditState)
    ensures r.isEditing == !st.isEditing
    ensures st.isEditing && asset.Some? ==> r.form == FormOf(asset.value)
    ensures !(st.isEditing && asset.Some?) ==> r.form == st.form
  {
    EditState(!st.isEditing, if st.isEditing && asset.Some? then FormOf(asset.value) else st.form)
  }

  /** Whatever was typed, cancelling shows the asset's own values again. */
  lemma CancelDiscardsEdits(a: Asset, typed: EditForm)
    ensures var editing := EditToggle(EditState(false, FormOf(a)), Some(a)).(form := typed);
            EditToggle(editing, Some(a)) == EditState(false, FormOf(a))
  {
  }

  // ---------------------------------------------------------------------
  // handleSaveChanges

  /** The update a screen sends: the asset minus its history and last update
      time. `utilizador` is absent when the screen leaves it out. */
  datatype UpdatePayload = UpdatePayload(
    id: string,
    nome: string,
    descricao: Option<string>,
    localizacao: string,
    status: AssetStatus,
    data_aquisicao: string,
    id_interno: Option<string>,
    info_garantia: string,
    modelo: string,
    numero_serie: string,
    utilizador: Option<string>)

  /** The payload as the screen builds it: name and status fall back to the
      asset's own, location falls back to the empty string, the description
      is sent as edited, the remaining fields are copied, and the user field
      is not included at all. */
  function SavePayloadAsWritten(a: Asset, f: EditForm): (p: UpdatePayload)
    ensures p.nome == (if Truthy(f.nome) then f.nome.value else a.nome)
    ensures p.status == (if f.status.Some? then f.status.value else a.status)
    ensures p.localizacao == (if Truthy(f.localizacao) then f.localizacao.value else "")
    ensures p.descricao == f.descricao
    ensures p.id == a.id && p.data_aquisicao == a.data_aquisicao && p.id_interno == a.id_interno
    ensures p.info_garantia == a.info_garantia && p.modelo == a.modelo && p.numero_serie == a.numero_serie
    ensures p.utilizador.None?
  {
    UpdatePayload(a.id, OrElse(f.nome, a.nome), f.descricao, OrElse(f.localizacao, ""),
                  f.status.GetOr(a.status), a.data_aquisicao, a.id_interno, a.info_garantia,
                  a.modelo, a.numero_serie, None)
  }

  /** The save payload carrying the asset's current user along, as the
      update form of components/features/AssetForm.tsx does; every other
      field is as the screen builds it. */
  function SavePayload(a: Asset, f: EditForm): (p: UpdatePayload)
    ensures p.utilizador == a.utilizador
    ensures p.(utilizador := None) == SavePayloadAsWritten(a, f)
  {
    SavePayloadAsWritten(a, f).(utilizador := a.utilizador)
  }

  /** The body the PUT route reads from a payload. */
  function ToUpdateBody(p: UpdatePayload): (b: AssetRoutes.UpdateBody)
    ensures b.nome == Some(p.nome) && b.status == Some(p.status.Value())
    ensures b.descricao == p.descricao && b.localizacao == Some(p.localizacao)
    ensures b.utilizador == p.utilizador
  {
    AssetRoutes.UpdateBody(Some(p.nome), p.descricao, Some(p.localizacao), Some(p.status.Value()), p.utilizador)
  }

  /** Saving from this screen as written erases the asset's user on the
      server, even when only the name was edited. */
  lemma SaveAsWrittenClearsUser(st: AssetRoutes.Store, a: Asset, f: EditForm)
    requires AssetRoutes.HasId(st.assets, a.id) && a.nome != ""
    ensures var r := AssetRoutes.Update(st, a.id, ToUpdateBody(SavePayloadAsWritten(a, f)), false);
            r.reply.Success? && r.reply.value.utilizador.None?
  {
  }

  /** Saving with the user carried along keeps it, and the server's reply
      then holds exactly what the screen sent for the edited fields. */
  lemma SaveKeepsUser(st: AssetRoutes.Store, a: Asset, f: EditForm)
    requires AssetRoutes.HasId(st.assets, a.id) && a.nome != ""
    ensures var p := SavePayload(a, f);
            var r := AssetRoutes.Update(st, a.id, ToUpdateBody(p), false);
            && r.reply.Success?
            && r.reply.value.utilizador == a.utilizador
            && r.reply.value.nome == p.nome
            && r.reply.value.status == p.status.Value()
            && r.reply.value.localizacao == Some(p.localizacao)
  {
  }

  // ---------------------------------------------------------------------
  // InfoItem

  /** The shown value: the value itself, or "N/A" for null, undefined or the
      empty string. */
  function InfoValue(v: Option<string>): (r: string)
    ensures r != ""
    ensures !Truthy(v) ==> r == "N/A"
    ensures Truthy(v) ==> r == v.value
  {
    OrElse(v, "N/A")
  }

  /** "N/A" shows exactly for blank values, or a value that is itself "N/A". */
  lemma InfoValuePlaceholder(v: Option<string>)
    ensures InfoValue(v) == "N/A" <==> !Truthy(v) || v.value == "N/A"
  {
  }
}

=== FILE: asset_form.dfy ===
/** The asset form (components/features/AssetForm.tsx) in its three modes:
    the fields it starts with, what its effect loads into them, and the
    payload each mode submits. Converting the picked date to an ISO string
    is a parameter (`toIso`), as date handling is not modelled. */
module AssetForm {
  import opened Wrappers
  import opened Text
  import opened Types
  import AssetRoutes
  import AssetStore
  import AssetIds
  import Http

  datatype Mode = UpdateAsset | AddHistory | AddAsset

  /** The form's state variables. */
  datatype Fields = Fields(
    nome: string,
    numeroSerie: string,
    modelo: string,
    localizacao: string,
    status: AssetStatus,
    dataAquisicao: string,
    infoGarantia: string,
    descricaoAsset: string,
    utilizador: string,
    tipoEvento: HistoryEventType,
    descricaoHistory: string)

  /** The date input's value for a stored date: the part before the first
      'T' (`split('T')[0]`), or empty when there is no date. */
  function DateField(dataAquisicao: string): (r: string)
    ensures dataAquisicao == "" ==> r == ""
    ensures dataAquisicao != "" ==> r == Split(dataAquisicao, 'T')[0]
    ensures 'T' !in r && r <= dataAquisicao
  {
    BeforeFirstIsFirstField(dataAquisicao, 'T');
    if dataAquisicao != "" then BeforeFirst(dataAquisicao, 'T') else ""
  }

  /** The `useState` initial values: the asset's fields when there is one,
      otherwise empty, with status `EmOperacao` and event type `Observacao`. */
  function Initial(asset: Option<Asset>): (f: Fields)
    ensures asset.None? ==> f == Fields("", "", "", "", EmOperacao, "", "", "", "", Observacao, "")
    ensures asset.Some? ==> var a := asset.value;
              && f.nome == a.nome && f.numeroSerie == a.numero_serie && f.modelo == a.modelo
              && f.localizacao == a.localizacao && f.status == a.status
              && f.dataAquisicao == DateField(a.data_aquisicao) && f.infoGarantia == a.info_garantia
              && f.descricaoAsset == a.descricao.GetOr("") && f.utilizador == a.utilizador.GetOr("")
    ensures f.tipoEvento == Observacao && f.descricaoHistory == ""
  {
    match asset
    case None => Fields("", "", "", "", EmOperacao, "", "", "", "", Observacao, "")
    case Some(a) =>
      Fields(a.nome, a.numero_serie, a.modelo, a.localizacao, a.status, DateField(a.data_aquisicao),
             a.info_garantia, a.descricao.GetOr(""), a.utilizador.GetOr(""), Observacao, "")
  }

  /** The effect on `[asset, mode]`: editing loads the asset, adding an asset
      clears the asset fields, adding history clears the history fields, and
      editing without an asset changes nothing. */
  function Effect(mode: Mode, asset: Option<Asset>, f: Fields): (r: Fields)
    ensures mode == UpdateAsset && asset.Some? ==>
              r == Initial(asset).(tipoEvento := f.tipoEvento, descricaoHistory := f.descricaoHistory)
    ensures mode == UpdateAsset && asset.None? ==> r == f
    ensures mode == AddAsset ==>
              r == Initial(None).(tipoEvento := f.tipoEvento, descricaoHistory := f.descricaoHistory)
    ensures mode == AddHistory ==> r == f.(tipoEvento := Observacao, descricaoHistory := "")
  {
    match mode
    case UpdateAsset =>
      if asset.Some? then
        var a := asset.value;
        f.(nome := a.nome, numeroSerie := a.numero_serie, modelo := a.modelo, localizacao := a.localizacao,
           status := a.status, dataAquisicao := DateField(a.data_aquisicao), infoGarantia := a.info_garantia,
           descricaoAsset := a.descricao.GetOr(""), utilizador := a.utilizador.GetOr(""))
      else f
    case AddAsset =>
      f.(nome := "", numeroSerie := "", modelo := "", localizacao := "", status := EmOperacao,
         dataAquisicao := "", infoGarantia := "", descricaoAsset := "", utilizador := "")
    case AddHistory => f.(tipoEvento := Observacao, descricaoHistory := "")
  }

  /** The asset fields a submit sends; there is no id, internal id, update
      time or updater among them, so the server assigns those. */
  datatype AssetPayload = AssetPayload(
    nome: string,
    descricao: string,
    numero_serie: string,
    modelo: string,
    localizacao: string,
    status: AssetStatus,
    data_aquisicao: string,
    info_garantia: string,
    utilizador: string)

  datatype Submission =
    | NothingSent
    | SendUpdate(update: AssetPayload)
    | SendHistory(tipo_evento: HistoryEventType, descricao: string)
    | SendNewAsset(asset: AssetPayload)

  /** The ISO form of the picked date, or empty when none was picked. */
  function IsoDate(date: string, toIso: string -> string): (r: string)
    ensures date == "" ==> r == ""
    ensures date != "" ==> r == toIso(date)
  {
    if date != "" then toIso(date) else ""
  }

  function PayloadOf(f: Fields, toIso: string -> string): (p: AssetPayload)
    ensures p.nome == f.nome && p.descricao == f.descricaoAsset && p.numero_serie == f.numeroSerie
    ensures p.modelo == f.modelo && p.localizacao == f.localizacao && p.status == f.status
    ensures p.data_aquisicao == IsoDate(f.dataAquisicao, toIso)
    ensures p.info_garantia == f.infoGarantia && p.utilizador == f.utilizador
  {
    AssetPayload(f.nome, f.descricaoAsset, f.numeroSerie, f.modelo, f.localizacao, f.status,
                 IsoDate(f.dataAquisicao, toIso), f.infoGarantia, f.utilizador)
  }

  /** `handleSubmit`: an update only with an asset; a history entry carries
      just its type and text; a new asset carries the asset fields. */
  function Submit(mode: Mode, asset: Option<Asset>, f: Fields, toIso: string -> string): (r: Submission)
    ensures mode == UpdateAsset ==> (r.NothingSent? <==> asset.None?)
    ensures mode == UpdateAsset && asset.Some? ==> r == SendUpdate(PayloadOf(f, toIso))
    ensures mode == AddHistory ==> r == SendHistory(f.tipoEvento, f.descricaoHistory)
    ensures mode == AddAsset ==> r == SendNewAsset(PayloadOf(f, toIso))
  {
    match mode
    case UpdateAsset => if asset.Some? then SendUpdate(PayloadOf(f, toIso)) else NothingSent
    case AddHistory => SendHistory(f.tipoEvento, f.descricaoHistory)
    case AddAsset => SendNewAsset(PayloadOf(f, toIso))
  }

  /** The browser's constraint validation: the form fires `submit` only when
      every `required` control it renders holds a value. The asset modes
      require the name, model, location and date inputs; the history mode
      requires the description. The status and event-type selects always
      hold one of their options. */
  predicate RequiredFilled(mode: Mode, f: Fields) {
    if mode == AddHistory then f.descricaoHistory != ""
    else f.nome != "" && f.modelo != "" && f.localizacao != "" && f.dataAquisicao != ""
  }

  /** Pressing "Salvar": nothing leaves the browser while a required field
      is empty, otherwise `handleSubmit` runs. Whatever is sent therefore
      carries a name, model, location and date, or a history description. */
  function Save(mode: Mode, asset: Option<Asset>, f: Fields, toIso: string -> string): (r: Submission)
    ensures r.NothingSent? <==> !RequiredFilled(mode, f) || (mode == UpdateAsset && asset.None?)
    ensures !r.NothingSent? ==> r == Submit(mode, asset, f, toIso)
    ensures r.SendNewAsset? || r.SendUpdate? ==>
              var p := if r.SendNewAsset? then r.asset else r.update;
              p.nome != "" && p.modelo != "" && p.localizacao != "" && p.data_aquisicao == toIso(f.dataAquisicao)
    ensures r.SendHistory? ==> r.descricao != ""
  {
    if RequiredFilled(mode, f) then Submit(mode, asset, f, toIso) else NothingSent
  }

  /** The body POST /api/assets reads from a new-asset payload. */
  function ToCreateBody(p: AssetPayload): (b: AssetRoutes.CreateBody)
    ensures b.nome == Some(p.nome) && b.modelo == Some(p.modelo) && b.localizacao == Some(p.localizacao)
    ensures b.status == Some(p.status.Value()) && b.data_aquisicao == Some(p.data_aquisicao)
  {
    AssetRoutes.CreateBody(Some(p.nome), Some(p.descricao), Some(p.numero_serie), Some(p.modelo),
                           Some(p.localizacao), Some(p.status.Value()), Some(p.data_aquisicao),
                           Some(p.info_garantia), Some(p.utilizador))
  }

  /** The add form sends an asset exactly when its required fields are
      filled, and then, whatever else it holds, the server accepts it under
      its next sequence id: the 400 of POST /api/assets cannot be reached
      from this form. A picked date's ISO text is never empty. */
  lemma NewAssetIdComesFromServer(st: AssetRoutes.Store, f: Fields, toIso: string -> string)
    requires AssetStore.Wf(st)
    requires f.dataAquisicao != "" ==> toIso(f.dataAquisicao) != ""
    ensures var sub := Save(AddAsset, None, f, toIso);
            && (sub.SendNewAsset? <==> RequiredFilled(AddAsset, f))
            && (sub.SendNewAsset? ==>
                  var r := AssetRoutes.Create(st, ToCreateBody(sub.asset), AssetRoutes.CreateOk);
                  r.reply.Success? && r.reply.value.id == AssetIds.FormatAssetId(st.counter + 1))
  {
    var sub := Save(AddAsset, None, f, toIso);
    if sub.SendNewAsset? {
      AssetStore.CreateNeverCollides(st, ToCreateBody(sub.asset));
    }
  }

  /** Opening the edit form on an asset and saving without touching it sends
      the asset's own values back, provided the date conversion inverts the
      date cut (as it does for midnight UTC dates). */
  lemma UntouchedEditResubmits(a: Asset, f0: Fields, toIso: string -> string)
    requires a.data_aquisicao != "" ==> toIso(DateField(a.data_aquisicao)) == a.data_aquisicao
    requires a.data_aquisicao != "" ==> DateField(a.data_aquisicao) != ""
    ensures Submit(UpdateAsset, Some(a), Effect(UpdateAsset, Some(a), f0), toIso)
         == SendUpdate(AssetPayload(a.nome, a.descricao.GetOr(""), a.numero_serie, a.modelo, a.localizacao,
                                    a.status, a.data_aquisicao, a.info_garantia, a.utilizador.GetOr("")))
  {
  }

  /** An asset added through the form is stored with every text column the
      list screen reads set, to exactly what was typed: NULL never comes from
      this client. */
  lemma AddedRowHasNoNullText(st: AssetRoutes.Store, f: Fields, toIso: string -> string, fault: AssetRoutes.CreateFault)
    ensures var sub := Save(AddAsset, None, f, toIso);
            sub.SendNewAsset? ==>
              var r := AssetRoutes.Create(st, ToCreateBody(sub.asset), fault);
              r.reply.Success? ==> && r.reply.value.nome == f.nome && r.reply.value.modelo == f.modelo
                                   && r.reply.value.localizacao == Some(f.localizacao)
                                   && r.reply.value.numero_serie == Some(f.numeroSerie)
                                   && r.reply.value.info_garantia == Some(f.infoGarantia)
  {
  }

  /** A new-asset form saved as it opens sends nothing: the browser stops
      it, as its required fields are empty. Were `handleSubmit` reached
      anyway, the server would refuse the payload with 400. */
  lemma UntouchedAddSendsNothing(st: AssetRoutes.Store, f0: Fields, toIso: string -> string)
    ensures Save(AddAsset, None, Effect(AddAsset, None, f0), toIso) == NothingSent
    ensures var sub := Submit(AddAsset, None, Effect(AddAsset, None, f0), toIso);
            && sub.SendNewAsset?
            && AssetRoutes.Create(st, ToCreateBody(sub.asset), AssetRoutes.CreateOk).reply == Http.Failure(400, AssetRoutes.MsgCreateRequired)
  {
  }
}

=== FILE: asset_ids.dfy ===
/** The asset identifier format of backend/routes/assets.js: the fixed text
    `MAKEDIST-MAQ-` followed by the drawn sequence number, left-padded with
    '0' to at least five characters. */
module AssetIds {
  import opened Wrappers
  import opened Text
  import opened Sequences

  const IdPrefix: string := "MAKEDIST-MAQ-"
  const SuffixWidth: nat := 5

  /** `MAKEDIST-MAQ-${String(n).padStart(5, '0')}`. */
  function FormatAssetId(n: nat): (id: string)
    ensures IdPrefix <= id
    ensures AllDigits(id[|IdPrefix|..])
    ensures |id| == |IdPrefix| + if |Decimal(n)| >= SuffixWidth then |Decimal(n)| else SuffixWidth
  {
    var digits := PadStart(Decimal(n), SuffixWidth, '0');
    assert AllDigits(digits) by {
      forall i | 0 <= i < |digits| ensures IsDigit(digits[i]) {
        var k := |digits| - |Decimal(n)|;
        if i >= k {
          assert digits[k..][i - k] == digits[i];
        }
      }
    }
    assert (IdPrefix + digits)[|IdPrefix|..] == digits;
    IdPrefix + digits
  }

  /** The number an identifier of this format carries: the prefix followed by
      one or more decimal digits. */
  function ParseAssetId(id: string): (r: Option<nat>)
    ensures r.Some? ==> IdPrefix <= id
  {
    if IdPrefix <= id && |id| > |IdPrefix| && AllDigits(id[|IdPrefix|..]) then
      Some(DecimalValue(id[|IdPrefix|..]))
    else
      None
  }

  /** A three-digit number gets two leading zeros. */
  lemma FormatThreeDigits(n: nat)
    requires |Decimal(n)| == 3
    ensures FormatAssetId(n) == IdPrefix + "00" + Decimal(n)
  {
    var d := Decimal(n);
    var p := PadStart(d, SuffixWidth, '0');
    assert p[..2] == "00";
    assert p == p[..2] + p[2..];
  }

  /** Parsing a formatted identifier gives back the number: padding with
      zeros never changes the value. */
  lemma ParseFormatRoundTrip(n: nat)
    ensures ParseAssetId(FormatAssetId(n)) == Some(n)
  {
    var d := Decimal(n);
    var digits := PadStart(d, SuffixWidth, '0');
    var id := FormatAssetId(n);
    assert id[|IdPrefix|..] == digits;
    var z := digits[..|digits| - |d|];
    assert digits == z + d;
    LeadingZeros(z, d);
  }

  /** Distinct numbers give distinct identifiers. */
  lemma FormatInjective(m: nat, n: nat)
    ensures FormatAssetId(m) == FormatAssetId(n) ==> m == n
  {
    ParseFormatRoundTrip(m);
    ParseFormatRoundTrip(n);
  }

  /** Below 100000 the suffix is exactly five digits. */
  lemma FiveDigitSuffix(n: nat)
    requires n < 100000
    ensures |FormatAssetId(n)| == |IdPrefix| + SuffixWidth
  {
    DecimalLength(n, 5);
  }

  /** From 100000 on the suffix is the plain numeral: padding never truncates,
      so the identifier grows longer than the five-digit shape. */
  lemma NoTruncation(n: nat)
    requires n >= 100000
    ensures FormatAssetId(n) == IdPrefix + Decimal(n)
    ensures |FormatAssetId(n)| > |IdPrefix| + SuffixWidth
  {
    DecimalLength(n, 5);
  }

  /** While both numbers stay below 100000, identifier order (the order of
      `ORDER BY id`) is numeric order. */
  lemma {:induction false} IdOrderFollowsNumbers(m: nat, n: nat)
    requires m <= n < 100000
    ensures LexLe(FormatAssetId(m), FormatAssetId(n))
  {
    FiveDigitSuffix(m);
    FiveDigitSuffix(n);
    var a := FormatAssetId(m)[|IdPrefix|..];
    var b := FormatAssetId(n)[|IdPrefix|..];
    assert FormatAssetId(m) == IdPrefix + a;
    assert FormatAssetId(n) == IdPrefix + b;
    ParseFormatRoundTrip(m);
    ParseFormatRoundTrip(n);
    EqualLengthNumeralOrder(a, b);
    LexLeCommonPrefix(IdPrefix, a, b);
  }

  /** Numerals of equal length compare as their values do. */
  lemma {:induction false} EqualLengthNumeralOrder(a: string, b: string)
    requires |a| == |b| && AllDigits(a) && AllDigits(b)
    requires DecimalValue(a) <= DecimalValue(b)
    ensures LexLe(a, b)
    decreases |a|
  {
    if |a| > 0 {
      var a', b' := a[..|a| - 1], b[..|b| - 1];
      var da, db := a[|a| - 1] as int - '0' as int, b[|b| - 1] as int - '0' as int;
      assert DecimalValue(a) == DecimalValue(a') * 10 + da;
      assert DecimalValue(b) == DecimalValue(b') * 10 + db;
      if DecimalValue(a') == DecimalValue(b') {
        assert da <= db;
        ValueEqualSameNumeral(a', b');
        LexLeLastChar(a', a[|a| - 1], b[|b| - 1]);
        assert a == a' + [a[|a| - 1]] && b == b' + [b[|b| - 1]];
      } else {
        assert DecimalValue(a') < DecimalValue(b');
        EqualLengthNumeralOrder(a', b');
        LexLtExtend(a', b', [a[|a| - 1]], [b[|b| - 1]]);
        assert a == a' + [a[|a| - 1]] && b == b' + [b[|b| - 1]];
      }
    }
  }

  /** Numerals of equal length and value are the same numeral. */
  lemma {:induction false} ValueEqualSameNumeral(a: string, b: string)
    requires |a| == |b| && AllDigits(a) && AllDigits(b)
    requires DecimalValue(a) == DecimalValue(b)
    ensures a == b
    decreases |a|
  {
    if |a| > 0 {
      var a', b' := a[..|a| - 1], b[..|b| - 1];
      assert DecimalValue(a) == DecimalValue(a') * 10 + (a[|a| - 1] as int - '0' as int);
      assert DecimalValue(b) == DecimalValue(b') * 10 + (b[|b| - 1] as int - '0' as int);
      ValueEqualSameNumeral(a', b');
      assert a == a' + [a[|a| - 1]] && b == b' + [b[|b| - 1]];
    }
  }

  lemma {:induction false} LexLeLastChar(p: string, x: char, y: char)
    requires x <= y
    ensures LexLe(p + [x], p + [y])
    decreases |p|
  {
    if |p| > 0 {
      assert (p + [x])[1..] == p[1..] + [x];
      assert (p + [y])[1..] == p[1..] + [y];
      LexLeLastChar(p[1..], x, y);
    }
  }

  /** A strict difference between equal-length strings survives appending. */
  lemma {:induction false} LexLtExtend(a: string, b: string, x: string, y: string)
    requires |a| == |b| && LexLe(a, b) && a != b
    ensures LexLe(a + x, b + y)
    decreases |a|
  {
    if a[0] == b[0] {
      assert a == [a[0]] + a[1..] && b == [b[0]] + b[1..];
      assert a[1..] != b[1..];
      assert (a + x)[1..] == a[1..] + x;
      assert (b + y)[1..] == b[1..] + y;
      LexLtExtend(a[1..], b[1..], x, y);
    }
  }

  /** The ordering breaks at the five-digit boundary: number 100000 sorts
      before number 99999 under `ORDER BY id`. */
  lemma OrderBreaksPastFiveDigits()
    ensures !LexLe(FormatAssetId(99999), FormatAssetId(100000))
  {
    var a := FormatAssetId(99999);
    var b := FormatAssetId(100000);
    FiveDigitSuffix(99999);
    assert Decimal(99999) == "99999";
    assert Decimal(100000) == "100000";
    assert a == IdPrefix + "99999";
    assert b == IdPrefix + "100000";
    LexLeCommonPrefix(IdPrefix, "99999", "100000");
  }
}

=== FILE: asset_list_screen.dfy ===
/** The search on the asset list screen
    (components/screens/AssetListScreen.tsx): a case-insensitive substring
    match over name, id, model and location, and the header and empty-list
    texts around it. */
module AssetListScreen {
  import opened Wrappers
  import opened Text
  import opened Sequences
  import opened Types

  /** Some searched field of `a` contains `term`, both lower-cased. */
  predicate Matches(a: Asset, term: string) {
    var t := ToLower(term);
    || Includes(ToLower(a.nome), t)
    || Includes(ToLower(a.id), t)
    || Includes(ToLower(a.modelo), t)
    || Includes(ToLower(a.localizacao), t)
  }

  /** `filteredAssets`: the list itself for an empty term, otherwise the
      matching assets in list order. */
  function FilterAssets(assets: seq<Asset>, term: string): (r: seq<Asset>)
    ensures term == "" ==> r == assets
    ensures forall a :: a in r <==> a in assets && (term == "" || Matches(a, term))
    ensures forall a :: multiset(r)[a] == if term == "" || Matches(a, term) then multiset(assets)[a] else 0
    ensures SubsequenceOf(r, assets)
  {
    if term == "" then
      SubsequenceOfSelf(assets);
      assets
    else
      var r := Filter(assets, (a: Asset) => Matches(a, term));
      assert forall a :: a in r <==> a in multiset(r);
      assert forall a :: a in assets <==> a in multiset(assets);
      r
  }

  /** The shortcut for the empty term agrees with the filter itself: the
      empty string occurs in every field, so nothing would be dropped. */
  lemma EmptyTermShortcutAgrees(assets: seq<Asset>)
    ensures Filter(assets, (a: Asset) => Matches(a, "")) == assets
  {
    var p := (a: Asset) => Matches(a, "");
    forall i | 0 <= i < |assets| ensures p(assets[i]) {
      IncludesEmpty(ToLower(assets[i].nome));
    }
    FilterAll(assets, p);
  }

  /** The search ignores the case of the term. */
  lemma SearchIgnoresCase(assets: seq<Asset>, term: string)
    ensures FilterAssets(assets, ToLower(term)) == FilterAssets(assets, term)
  {
    ToLowerIdempotent(term);
    if term != "" {
      assert ToLower(term) != "";
      FilterCongruent(assets, (a: Asset) => Matches(a, ToLower(term)), (a: Asset) => Matches(a, term));
    }
  }

  /** What the screen shows: the total of all loaded assets, the rows, and the
      empty-list text when there are no rows. */
  datatype ListView = ListView(totalLabel: string, rows: seq<Asset>, emptyMessage: Option<string>)

  const MsgNoMatch: string := "Nenhuma máquina encontrada com os critérios de busca."
  const MsgNoAssets: string := "Nenhuma máquina cadastrada."

  function View(assets: seq<Asset>, term: string): (v: ListView)
    ensures v.totalLabel == "Total de máquinas: " + Decimal(|assets|)
    ensures v.rows == FilterAssets(assets, term)
    ensures v.emptyMessage.Some? <==> |v.rows| == 0
    ensures v.emptyMessage.Some? ==> v.emptyMessage.value == if term != "" then MsgNoMatch else MsgNoAssets
  {
    var rows := FilterAssets(assets, term);
    ListView("Total de máquinas: " + Decimal(|assets|), rows,
             if |rows| > 0 then None else Some(if term != "" then MsgNoMatch else MsgNoAssets))
  }

  /** The "no assets registered" text only appears when there really are no
      assets, and the total never depends on the search. */
  lemma ViewMessagesAreTruthful(assets: seq<Asset>, term: string, other: string)
    ensures View(assets, term).emptyMessage == Some(MsgNoAssets) ==> |assets| == 0
    ensures View(assets, term).totalLabel == View(assets, other).totalLabel
  {
  }
}

=== FILE: asset_routes.dfy ===
/** The six handlers of backend/routes/assets.js as transitions of one store:
    the `asset_id_seq` counter, the `assets` table, the `history_entries`
    table and the database clock. Each handler returns the HTTP status and
    body it sends together with the store it leaves behind. The router attaches
    no authentication, so none of these routes is gated. */
module AssetRoutes {
  import opened Wrappers
  import opened Sequences
  import opened AssetIds
  import opened Http

  /** A row of `assets`, with the columns the handlers name. Columns the
      handlers may leave NULL are optional; `status` is whatever string the
      client sent. */
  datatype AssetRow = AssetRow(
    id: string,
    nome: string,
    descricao: Option<string>,
    numero_serie: Option<string>,
    modelo: string,
    localizacao: Option<string>,
    status: string,
    data_aquisicao: string,
    info_garantia: Option<string>,
    ultima_atualizacao: nat,
    atualizado_por: Option<string>,
    utilizador: Option<string>)

  /** A row of `history_entries`; `id` and `timestamp` are column defaults
      (a serial and the insertion time). */
  datatype HistoryRow = HistoryRow(
    id: nat,
    asset_id: string,
    tipo_evento: string,
    descricao: string,
    responsavel: Option<string>,
    timestamp: nat)

  /** `counter` is the last value `asset_id_seq` handed out (0 before the
      first draw), `historySeq` the same for the history serial. */
  datatype Store = Store(
    counter: nat,
    assets: seq<AssetRow>,
    history: seq<HistoryRow>,
    historySeq: nat,
    clock: nat)

  datatype Step<T> = Step(reply: Reply<T>, store: Store)

  /** The request bodies, one optional string per destructured key. */
  datatype CreateBody = CreateBody(
    nome: Option<string>,
    descricao: Option<string>,
    numero_serie: Option<string>,
    modelo: Option<string>,
    localizacao: Option<string>,
    status: Option<string>,
    data_aquisicao: Option<string>,
    info_garantia: Option<string>,
    utilizador: Option<string>)

  datatype UpdateBody = UpdateBody(
    nome: Option<string>,
    descricao: Option<string>,
    localizacao: Option<string>,
    status: Option<string>,
    utilizador: Option<string>)

  datatype HistoryBody = HistoryBody(
    tipo_evento: Option<string>,
    descricao: Option<string>,
    responsavel: Option<string>)

  /** The asset and its history, as GET /:id sends it. */
  datatype AssetView = AssetView(asset: AssetRow, historico: seq<HistoryRow>)

  /** The body DELETE /:id sends. */
  datatype Deleted = Deleted(message: string, deletedAsset: AssetRow)

  /** Store errors: each names the statement of a handler that raises. The
      handler passes the error to `next`, and the server's error handler
      (backend/server.js:25-28) answers 500; the raising statement itself
      changes nothing. */
  datatype GetFault = GetOk | AssetSelectFails | HistorySelectFails

  datatype CreateFault = CreateOk | DrawFails | AssetInsertFails

  /** The three statements of a history append run outside any transaction,
      so an entry inserted before a failing touch stays. */
  datatype AppendFault = NoFault | CheckFails | InsertFails | TouchFails

  const MsgNotFound: string := "Ativo não encontrado"
  const MsgCreateRequired: string := "Nome, Modelo, Localização, Status e Data de Aquisição são obrigatórios para criar um ativo."
  const MsgUpdateRequired: string := "Nome e Status são obrigatórios."
  const MsgUpdateNotFound: string := "Ativo não encontrado para atualização"
  const MsgHistoryRequired: string := "Tipo e Descrição são obrigatórios para o histórico."
  const MsgHistoryNotFound: string := "Ativo não encontrado para adicionar histórico."
  const MsgDeleteNotFound: string := "Ativo não encontrado para apagar"
  const MsgDeleted: string := "Ativo apagado com sucesso"

  /** The store of a fresh database. */
  const Empty: Store := Store(0, [], [], 0, 0)

  // ---------------------------------------------------------------------
  // Table helpers

  predicate HasId(rows: seq<AssetRow>, id: string) {
    exists i | 0 <= i < |rows| :: rows[i].id == id
  }

  /** The first row with this id (`rows[0]` of a `WHERE id = $1` query). */
  function Lookup(rows: seq<AssetRow>, id: string): (r: Option<AssetRow>)
    ensures r.None? <==> !HasId(rows, id)
    ensures r.Some? ==> r.value in rows && r.value.id == id
    decreases |rows|
  {
    if |rows| == 0 then None
    else if rows[0].id == id then Some(rows[0])
    else
      assert forall i :: 1 <= i < |rows| ==> rows[1..][i - 1] == rows[i];
      Lookup(rows[1..], id)
  }

  /** `ORDER BY id ASC`. */
  const IdAscending: (AssetRow, AssetRow) -> bool := (a: AssetRow, b: AssetRow) => LexLe(a.id, b.id)

  /** `ORDER BY "timestamp" DESC`. */
  const NewestFirst: (HistoryRow, HistoryRow) -> bool := (a: HistoryRow, b: HistoryRow) => a.timestamp >= b.timestamp

  lemma IdAscendingIsTotalPreorder()
    ensures Total(IdAscending) && Transitive(IdAscending)
  {
    forall a: AssetRow, b: AssetRow ensures IdAscending(a, b) || IdAscending(b, a) {
      LexLeTotal(a.id, b.id);
    }
    forall a: AssetRow, b: AssetRow, c: AssetRow | IdAscending(a, b) && IdAscending(b, c)
      ensures IdAscending(a, c)
    {
      LexLeTransitive(a.id, b.id, c.id);
    }
  }

  lemma NewestFirstIsTotalPreorder()
    ensures Total(NewestFirst) && Transitive(NewestFirst)
  {
  }

  /** The history rows of one asset (`WHERE asset_id = $1`), in table order. */
  function EntriesOf(history: seq<HistoryRow>, id: string): seq<HistoryRow> {
    Filter(history, (e: HistoryRow) => e.asset_id == id)
  }

  /** The two id-and-frozen columns no handler but create writes. */
  predicate SameFixedColumns(a: AssetRow, b: AssetRow) {
    && a.id == b.id
    && a.numero_serie == b.numero_serie
    && a.modelo == b.modelo
    && a.data_aquisicao == b.data_aquisicao
    && a.info_garantia == b.info_garantia
    && a.atualizado_por == b.atualizado_por
  }

  // ---------------------------------------------------------------------
  // GET / and GET /:id

  /** GET /: every asset, ordered by id; a failing SELECT is a 500. */
  function ListAll(st: Store, selectFails: bool): (r: Reply<seq<AssetRow>>)
    ensures selectFails <==> r.Failure?
    ensures r.Failure? ==> r == Failure(500, MsgInternal)
    ensures r.Success? ==> && r.status == 200
                           && multiset(r.value) == multiset(st.assets)
                           && SortedBy(r.value, IdAscending)
  {
    if selectFails then Failure(500, MsgInternal)
    else
      IdAscendingIsTotalPreorder();
      Success(200, SortBy(st.assets, IdAscending))
  }

  /** GET /:id: a failing asset SELECT is a 500; then 404 for an unknown id;
      then a failing history SELECT is a 500; otherwise the row with its
      history, newest first. */
  function GetOne(st: Store, id: string, fault: GetFault): (r: Reply<AssetView>)
    ensures fault.AssetSelectFails? ==> r == Failure(500, MsgInternal)
    ensures !fault.AssetSelectFails? && !HasId(st.assets, id) ==> r == Failure(404, MsgNotFound)
    ensures fault.HistorySelectFails? && HasId(st.assets, id) ==> r == Failure(500, MsgInternal)
    ensures r.Success? <==> fault.GetOk? && HasId(st.assets, id)
    ensures r.Success? ==> && r.status == 200
                           && r.value.asset.id == id
                           && r.value.asset in st.assets
                           && multiset(r.value.historico) == multiset(EntriesOf(st.history, id))
                           && SortedBy(r.value.historico, NewestFirst)
  {
    if fault.AssetSelectFails? then Failure(500, MsgInternal)
    else
      match Lookup(st.assets, id)
      case None => Failure(404, MsgNotFound)
      case Some(a) =>
        if fault.HistorySelectFails? then Failure(500, MsgInternal)
        else
          NewestFirstIsTotalPreorder();
          Success(200, AssetView(a, SortBy(EntriesOf(st.history, id), NewestFirst)))
  }

  // ---------------------------------------------------------------------
  // POST /

  predicate CreateBodyValid(b: CreateBody) {
    Truthy(b.nome) && Truthy(b.modelo) && Truthy(b.localizacao) && Truthy(b.status) && Truthy(b.data_aquisicao)
  }

  /** POST /: validate, draw the next sequence value, format the id, insert.
      A failing draw consumes nothing; a failing INSERT, including the
      primary-key violation a duplicate id raises, keeps the drawn value
      consumed. */
  function Create(st: Store, body: CreateBody, fault: CreateFault): (r: Step<AssetRow>)
    ensures !CreateBodyValid(body) ==> r == Step(Failure(400, MsgCreateRequired), st)
    ensures CreateBodyValid(body) && fault.DrawFails? ==> r == Step(Failure(500, MsgInternal), st)
    ensures CreateBodyValid(body) && !fault.DrawFails? ==> r.store.counter == st.counter + 1
    ensures CreateBodyValid(body) && fault.AssetInsertFails? ==> r.reply == Failure(500, MsgInternal)
    ensures r.reply.Success? ==> && r.reply.status == 201
                                 && r.reply.value.id == FormatAssetId(st.counter + 1)
                                 && r.store.assets == st.assets + [r.reply.value]
                                 && !HasId(st.assets, r.reply.value.id)
    ensures r.reply.Failure? ==> r.store.assets == st.assets
    ensures r.store.history == st.history && r.store.clock == st.clock
  {
    if !CreateBodyValid(body) then
      Step(Failure(400, MsgCreateRequired), st)
    else if fault.DrawFails? then
      Step(Failure(500, MsgInternal), st)
    else
      var n := st.counter + 1;
      var id := FormatAssetId(n);
      var drawn := st.(counter := n);
      if fault.AssetInsertFails? || HasId(st.assets, id) then
        Step(Failure(500, MsgInternal), drawn)
      else
        var row := AssetRow(
          id, body.nome.value, body.descricao, body.numero_serie, body.modelo.value,
          body.localizacao, body.status.value, body.data_aquisicao.value,
          body.info_garantia, st.clock, None, body.utilizador);
        Step(Success(201, row), drawn.(assets := st.assets + [row]))
  }

  // ---------------------------------------------------------------------
  // PUT /:id

  predicate UpdateBodyValid(b: UpdateBody) {
    Truthy(b.nome) && Truthy(b.status)
  }

  /** The SET list of the UPDATE statement. */
  function ApplyUpdate(row: AssetRow, body: UpdateBody, now: nat): AssetRow
    requires UpdateBodyValid(body)
  {
    row.(nome := body.nome.value, descricao := body.descricao, localizacao := body.localizacao,
         status := body.status.value, utilizador := body.utilizador, ultima_atualizacao := now)
  }

  /** The effect of the UPDATE on every row: those with the id are rewritten,
      the others kept. */
  function UpdateRows(rows: seq<AssetRow>, id: string, body: UpdateBody, now: nat): (r: seq<AssetRow>)
    requires UpdateBodyValid(body)
    ensures |r| == |rows|
    ensures forall i :: 0 <= i < |rows| && rows[i].id != id ==> r[i] == rows[i]
    ensures forall i :: 0 <= i < |rows| && rows[i].id == id ==> r[i] == ApplyUpdate(rows[i], body, now)
  {
    seq(|rows|, i requires 0 <= i < |rows| =>
      if rows[i].id == id then ApplyUpdate(rows[i], body, now) else rows[i])
  }

  /** PUT /:id: 400 without nome or status; a failing UPDATE is a 500 that
      changes nothing; 404 when it touched no row; otherwise the six
      updatable columns of that asset change and nothing else. */
  function Update(st: Store, id: string, body: UpdateBody, fault: bool): (r: Step<AssetRow>)
    ensures !UpdateBodyValid(body) ==> r == Step(Failure(400, MsgUpdateRequired), st)
    ensures UpdateBodyValid(body) && fault ==> r == Step(Failure(500, MsgInternal), st)
    ensures UpdateBodyValid(body) && !fault && !HasId(st.assets, id) ==> r == Step(Failure(404, MsgUpdateNotFound), st)
    ensures r.reply.Success? <==> UpdateBodyValid(body) && !fault && HasId(st.assets, id)
    ensures r.reply.Failure? ==> r.store == st
    ensures r.reply.Success? ==> && r.reply.status == 200
                                 && UpdateBodyValid(body) && HasId(st.assets, id)
                                 && r.reply.value.id == id
                                 && r.reply.value.nome == body.nome.value
                                 && r.reply.value.status == body.status.value
                                 && r.reply.value.ultima_atualizacao == st.clock
    ensures r.reply.Success? ==> UpdatedOnly(st.assets, r.store.assets, id, body, st.clock)
    ensures r.store.counter == st.counter && r.store.history == st.history && r.store.clock == st.clock
  {
    if !UpdateBodyValid(body) then
      Step(Failure(400, MsgUpdateRequired), st)
    else if fault then
      Step(Failure(500, MsgInternal), st)
    else
      match Lookup(st.assets, id)
      case None => Step(Failure(404, MsgUpdateNotFound), st)
      case Some(row) =>
        var rows := UpdateRows(st.assets, id, body, st.clock);
        Step(Success(200, ApplyUpdate(row, body, st.clock)), st.(assets := rows))
  }

  /** `after` is `before` with the rows of `id` given the update's six columns
      and every other row and column unchanged. */
  ghost predicate UpdatedOnly(before: seq<AssetRow>, after: seq<AssetRow>, id: string, body: UpdateBody, now: nat) {
    && UpdateBodyValid(body)
    && |after| == |before|
    && (forall i :: 0 <= i < |before| && before[i].id != id ==> after[i] == before[i])
    && (forall i :: 0 <= i < |before| && before[i].id == id ==>
          && SameFixedColumns(before[i], after[i])
          && after[i].nome == body.nome.value
          && after[i].descricao == body.descricao
          && after[i].localizacao == body.localizacao
          && after[i].status == body.status.value
          && after[i].utilizador == body.utilizador
          && after[i].ultima_atualizacao == now)
  }

  // ---------------------------------------------------------------------
  // POST /:assetId/history

  predicate HistoryBodyValid(b: HistoryBody) {
    Truthy(b.tipo_evento) && Truthy(b.descricao)
  }

  /** `ultima_atualizacao = now` on the rows of `id`. */
  function Touch(rows: seq<AssetRow>, id: string, now: nat): (r: seq<AssetRow>)
    ensures |r| == |rows|
    ensures forall i :: 0 <= i < |rows| && rows[i].id != id ==> r[i] == rows[i]
    ensures forall i :: 0 <= i < |rows| && rows[i].id == id ==> r[i] == rows[i].(ultima_atualizacao := now)
  {
    seq(|rows|, i requires 0 <= i < |rows| =>
      if rows[i].id == id then rows[i].(ultima_atualizacao := now) else rows[i])
  }

  /** POST /:assetId/history: the body is checked (400) before the asset's
      existence (404, or 500 when that SELECT fails); then the entry is
      inserted and the asset stamped, either of which can fail with 500. */
  function AppendHistory(st: Store, assetId: string, body: HistoryBody, fault: AppendFault): (r: Step<HistoryRow>)
    ensures !HistoryBodyValid(body) ==> r == Step(Failure(400, MsgHistoryRequired), st)
    ensures HistoryBodyValid(body) && fault.CheckFails? ==> r == Step(Failure(500, MsgInternal), st)
    ensures HistoryBodyValid(body) && !fault.CheckFails? && !HasId(st.assets, assetId) ==>
              r == Step(Failure(404, MsgHistoryNotFound), st)
    ensures r.reply.Success? <==> HistoryBodyValid(body) && HasId(st.assets, assetId) && fault.NoFault?
    ensures HistoryBodyValid(body) && HasId(st.assets, assetId) && (fault.InsertFails? || fault.TouchFails?) ==>
              && r.reply == Failure(500, MsgInternal)
              && r.store.assets == st.assets
              && (fault.InsertFails? ==> r.store.history == st.history)
    ensures HistoryBodyValid(body) && HasId(st.assets, assetId) && fault.TouchFails? ==>
              && |r.store.history| == |st.history| + 1
              && r.store.history[..|st.history|] == st.history
              && r.store.history[|st.history|].asset_id == assetId
              && r.store.history[|st.history|].timestamp == st.clock
    ensures r.reply.Success? ==> && r.reply.status == 201
                                 && r.reply.value.asset_id == assetId
                                 && r.reply.value.timestamp == st.clock
                                 && r.store.history == st.history + [r.reply.value]
                                 && r.store.assets == Touch(st.assets, assetId, st.clock)
    ensures r.store.counter == st.counter && r.store.clock == st.clock
  {
    if !HistoryBodyValid(body) then
      Step(Failure(400, MsgHistoryRequired), st)
    else if fault.CheckFails? then
      Step(Failure(500, MsgInternal), st)
    else if !HasId(st.assets, assetId) then
      Step(Failure(404, MsgHistoryNotFound), st)
    else
      var entryId := st.historySeq + 1;
      if fault == InsertFails then
        Step(Failure(500, MsgInternal), st.(historySeq := entryId))
      else
        var entry := HistoryRow(entryId, assetId, body.tipo_evento.value, body.descricao.value, body.responsavel, st.clock);
        var inserted := st.(history := st.history + [entry], historySeq := entryId);
        if fault == TouchFails then
          Step(Failure(500, MsgInternal), inserted)
        else
          Step(Success(201, entry), inserted.(assets := Touch(st.assets, assetId, st.clock)))
  }

  // ---------------------------------------------------------------------
  // DELETE /:id

  /** DELETE /:id: a failing DELETE is a 500 that changes nothing; 404 when
      it removed no row; otherwise the asset's rows go (and with them,
      through the foreign key, its history) and the row is echoed. */
  function Delete(st: Store, id: string, fault: bool): (r: Step<Deleted>)
    ensures fault ==> r == Step(Failure(500, MsgInternal), st)
    ensures !fault && !HasId(st.assets, id) ==> r == Step(Failure(404, MsgDeleteNotFound), st)
    ensures r.reply.Success? <==> !fault && HasId(st.assets, id)
    ensures r.reply.Failure? ==> r.store == st
    ensures r.reply.Success? ==> && r.reply.status == 200
                                 && r.reply.value.message == MsgDeleted
                                 && r.reply.value.deletedAsset.id == id
                                 && r.reply.value.deletedAsset in st.assets
                                 && r.store.assets == Filter(st.assets, (a: AssetRow) => a.id != id)
                                 && r.store.history == Filter(st.history, (e: HistoryRow) => e.asset_id != id)
    ensures r.store.counter == st.counter && r.store.clock == st.clock
  {
    if fault then Step(Failure(500, MsgInternal), st)
    else
      match Lookup(st.assets, id)
      case None => Step(Failure(404, MsgDeleteNotFound), st)
      case Some(row) =>
        var rows := Filter(st.assets, (a: AssetRow) => a.id != id);
        var entries := Filter(st.history, (e: HistoryRow) => e.asset_id != id);
        Step(Success(200, Deleted(MsgDeleted, row)), st.(assets := rows, history := entries))
  }

  /** The database clock moves forward; it never runs backwards. */
  function Tick(st: Store, now: nat): (r: Store)
    ensures r.clock >= st.clock && r.clock >= now
    ensures r.(clock := st.clock) == st
  {
    st.(clock := if now > st.clock then now else st.clock)
  }
}

=== FILE: asset_store.dfy ===
/** Properties of the asset routes that span several calls: the store
    invariant every handler preserves, the identifier allocation guarantees,
    history listing after an append, and how the router treats the category
    URLs the client calls. */
module AssetStore {
  import opened Wrappers
  import opened Sequences
  import opened AssetIds
  import opened AssetRoutes
  import opened Http
  import opened Text

  predicate UniqueIds(rows: seq<AssetRow>) {
    forall i, j :: 0 <= i < j < |rows| ==> rows[i].id != rows[j].id
  }

  /** `id` is one the counter has already handed out. */
  ghost predicate Issued(id: string, counter: nat) {
    exists k :: 1 <= k <= counter && id == FormatAssetId(k)
  }

  /** Every id was drawn from the sequence. */
  ghost predicate AllIssued(rows: seq<AssetRow>, counter: nat) {
    forall i :: 0 <= i < |rows| ==> Issued(rows[i].id, counter)
  }

  /** Every history row belongs to a live asset (the foreign key). */
  predicate Attached(rows: seq<AssetRow>, history: seq<HistoryRow>) {
    forall i :: 0 <= i < |history| ==> HasId(rows, history[i].asset_id)
  }

  /** No history row carries a timestamp later than the database clock. */
  predicate Stamped(history: seq<HistoryRow>, clock: nat) {
    forall e :: e in history ==> e.timestamp <= clock
  }

  /** The store invariant: ids are unique (the primary key), every id was
      drawn from the sequence, every history row belongs to a live asset,
      and none is stamped in the future. */
  ghost predicate Wf(st: Store) {
    && UniqueIds(st.assets) && AllIssued(st.assets, st.counter) && Attached(st.assets, st.history)
    && Stamped(st.history, st.clock)
  }

  /** Two tables holding the same ids at the same positions. */
  predicate SameIds(a: seq<AssetRow>, b: seq<AssetRow>) {
    |a| == |b| && forall i :: 0 <= i < |a| ==> a[i].id == b[i].id
  }

  lemma EmptyWf()
    ensures Wf(Empty)
  {
  }

  /** Under the invariant the id a create draws is always fresh, so a valid
      create without a store error always succeeds with that id. */
  lemma CreateNeverCollides(st: Store, body: CreateBody)
    requires Wf(st) && CreateBodyValid(body)
    ensures Create(st, body, CreateOk).reply.Success?
    ensures Create(st, body, CreateOk).reply.value.id == FormatAssetId(st.counter + 1)
  {
    DrawnIdFresh(st.assets, st.counter);
  }

  /** No issued id is the one the next draw formats. */
  lemma DrawnIdFresh(rows: seq<AssetRow>, counter: nat)
    requires AllIssued(rows, counter)
    ensures !HasId(rows, FormatAssetId(counter + 1))
  {
    var id := FormatAssetId(counter + 1);
    if HasId(rows, id) {
      var i :| 0 <= i < |rows| && rows[i].id == id;
      assert Issued(rows[i].id, counter);
      var k :| 1 <= k <= counter && rows[i].id == FormatAssetId(k);
      FormatInjective(k, counter + 1);
      assert false;
    }
  }

  lemma CreatePreservesWf(st: Store, body: CreateBody, fault: CreateFault)
    requires Wf(st)
    ensures Wf(Create(st, body, fault).store)
  {
    var r := Create(st, body, fault);
    if CreateBodyValid(body) && !fault.DrawFails? {
      if r.reply.Success? {
        WfAfterInsert(st, r.reply.value, r.store);
      } else {
        WfAfterDraw(st, r.store);
      }
    }
  }

  /** Ids issued under a counter stay issued once it has advanced. */
  lemma IssuedGrows(rows: seq<AssetRow>, counter: nat, later: nat)
    requires AllIssued(rows, counter) && counter <= later
    ensures AllIssued(rows, later)
  {
    forall i | 0 <= i < |rows| ensures Issued(rows[i].id, later) {
      assert Issued(rows[i].id, counter);
      var k :| 1 <= k <= counter && rows[i].id == FormatAssetId(k);
    }
  }

  /** Drawing a value without inserting keeps the invariant. */
  lemma WfAfterDraw(st: Store, s: Store)
    requires Wf(st)
    requires s.counter == st.counter + 1 && s.assets == st.assets && s.history == st.history
    requires s.clock == st.clock
    ensures Wf(s)
  {
    IssuedGrows(st.assets, st.counter, s.counter);
  }

  /** Inserting a fresh row under the id just drawn keeps the invariant. */
  lemma WfAfterInsert(st: Store, row: AssetRow, s: Store)
    requires Wf(st)
    requires row.id == FormatAssetId(st.counter + 1) && !HasId(st.assets, row.id)
    requires s.counter == st.counter + 1 && s.assets == st.assets + [row] && s.history == st.history
    requires s.clock == st.clock
    ensures Wf(s)
  {
    IssuedGrows(st.assets, st.counter, s.counter);
    AppendIssued(st.assets, row, s.counter);
    AppendUnique(st.assets, row);
    AttachedGrows(st.assets, [row], st.history);
  }

  lemma AppendIssued(rows: seq<AssetRow>, row: AssetRow, counter: nat)
    requires AllIssued(rows, counter) && counter >= 1 && row.id == FormatAssetId(counter)
    ensures AllIssued(rows + [row], counter)
  {
    forall i | 0 <= i < |rows + [row]| ensures Issued((rows + [row])[i].id, counter) {
      if i < |rows| {
        assert (rows + [row])[i] == rows[i];
      }
    }
  }

  lemma AppendUnique(rows: seq<AssetRow>, row: AssetRow)
    requires UniqueIds(rows) && !HasId(rows, row.id)
    ensures UniqueIds(rows + [row])
  {
    var s := rows + [row];
    forall i, j | 0 <= i < j < |s| ensures s[i].id != s[j].id {
      assert s[i] == rows[i];
      if j < |rows| {
        assert s[j] == rows[j];
      }
    }
  }

  /** Adding assets detaches no history row. */
  lemma AttachedGrows(rows: seq<AssetRow>, extra: seq<AssetRow>, history: seq<HistoryRow>)
    requires Attached(rows, history)
    ensures Attached(rows + extra, history)
  {
    forall i | 0 <= i < |history| ensures HasId(rows + extra, history[i].asset_id) {
      assert HasId(rows, history[i].asset_id);
      var j :| 0 <= j < |rows| && rows[j].id == history[i].asset_id;
      assert (rows + extra)[j] == rows[j];
    }
  }

  /** A history row for a live asset keeps the history attached. */
  lemma AttachedAppend(rows: seq<AssetRow>, history: seq<HistoryRow>, e: HistoryRow)
    requires Attached(rows, history) && HasId(rows, e.asset_id)
    ensures Attached(rows, history + [e])
  {
    forall i | 0 <= i < |history + [e]| ensures HasId(rows, (history + [e])[i].asset_id) {
      if i < |history| {
        assert (history + [e])[i] == history[i];
      }
    }
  }

  /** Rewriting columns other than the id keeps all three parts of the
      invariant. */
  lemma SameIdsKeepWf(a: seq<AssetRow>, b: seq<AssetRow>, counter: nat, history: seq<HistoryRow>)
    requires SameIds(a, b)
    requires UniqueIds(a) && AllIssued(a, counter) && Attached(a, history)
    ensures UniqueIds(b) && AllIssued(b, counter) && Attached(b, history)
  {
    forall i | 0 <= i < |b| ensures Issued(b[i].id, counter) {
      assert Issued(a[i].id, counter);
    }
    forall i | 0 <= i < |history| ensures HasId(b, history[i].asset_id) {
      assert HasId(a, history[i].asset_id);
      var j :| 0 <= j < |a| && a[j].id == history[i].asset_id;
      assert b[j].id == history[i].asset_id;
    }
  }

  lemma UpdatedOnlySameIds(before: seq<AssetRow>, after: seq<AssetRow>, id: string, body: UpdateBody, now: nat)
    requires UpdatedOnly(before, after, id, body, now)
    ensures SameIds(before, after)
  {
    forall i | 0 <= i < |before| ensures before[i].id == after[i].id {
      if before[i].id == id {
        assert SameFixedColumns(before[i], after[i]);
      }
    }
  }

  lemma UpdatePreservesWf(st: Store, id: string, body: UpdateBody, fault: bool)
    requires Wf(st)
    ensures Wf(Update(st, id, body, fault).store)
  {
    var r := Update(st, id, body, fault);
    if r.reply.Success? {
      UpdatedOnlySameIds(st.assets, r.store.assets, id, body, st.clock);
      SameIdsKeepWf(st.assets, r.store.assets, st.counter, st.history);
    }
  }

  lemma TouchSameIds(rows: seq<AssetRow>, id: string, now: nat)
    ensures SameIds(rows, Touch(rows, id, now))
  {
  }

  lemma AppendHistoryPreservesWf(st: Store, assetId: string, body: HistoryBody, fault: AppendFault)
    requires Wf(st)
    ensures Wf(AppendHistory(st, assetId, body, fault).store)
  {
    var s := AppendHistory(st, assetId, body, fault).store;
    if HistoryBodyValid(body) && HasId(st.assets, assetId) && (fault.NoFault? || fault.TouchFails?) {
      var e := s.history[|st.history|];
      assert s.history == s.history[..|st.history|] + [e];
      if fault.NoFault? {
        TouchSameIds(st.assets, assetId, st.clock);
      }
      WfAfterEntry(st, e, s);
    }
  }

  /** Storing an entry for a live asset, stamped no later than the clock,
      while the table keeps its ids, keeps the invariant. */
  lemma WfAfterEntry(st: Store, e: HistoryRow, s: Store)
    requires Wf(st) && HasId(st.assets, e.asset_id) && e.timestamp <= st.clock
    requires s.history == st.history + [e] && SameIds(st.assets, s.assets)
    requires s.counter == st.counter && s.clock == st.clock
    ensures Wf(s)
  {
    AttachedAppend(st.assets, st.history, e);
    SameIdsKeepWf(st.assets, s.assets, st.counter, s.history);
  }

  lemma DeletePreservesWf(st: Store, id: string, fault: bool)
    requires Wf(st)
    ensures Wf(Delete(st, id, fault).store)
  {
    var r := Delete(st, id, fault);
    if r.reply.Success? {
      SubsequenceUnique(r.store.assets, st.assets);
      SubsequenceIssued(r.store.assets, st.assets, st.counter);
      DeleteKeepsAttached(st, id);
      FilterKeepsStamped(st.history, (e: HistoryRow) => e.asset_id != id, st.clock);
    }
  }

  /** Dropping history rows keeps the rest stamped no later than the clock. */
  lemma FilterKeepsStamped(h: seq<HistoryRow>, p: HistoryRow -> bool, clock: nat)
    requires Stamped(h, clock)
    ensures Stamped(Filter(h, p), clock)
  {
    forall e | e in Filter(h, p) ensures e.timestamp <= clock {
      FilterMember(h, p, e);
    }
  }

  /** The clock moving forward keeps the invariant. */
  lemma TickPreservesWf(st: Store, now: nat)
    requires Wf(st)
    ensures Wf(Tick(st, now))
  {
  }

  /** Under the invariant, an append made after the clock has moved forward
      is the first entry GET /:id lists for the asset. */
  lemma TickedAppendListedFirst(st: Store, now: nat, assetId: string, body: HistoryBody)
    requires Wf(st) && now > st.clock
    requires HistoryBodyValid(body) && HasId(st.assets, assetId)
    ensures var r := AppendHistory(Tick(st, now), assetId, body, NoFault);
            var view := GetOne(r.store, assetId, GetOk);
            view.Success? && |view.value.historico| > 0 && view.value.historico[0] == r.reply.value
  {
    var t := Tick(st, now);
    forall e | e in EntriesOf(t.history, assetId) ensures e.timestamp < t.clock {
      FilterMember(t.history, (x: HistoryRow) => x.asset_id == assetId, e);
    }
    AppendedEntryListedFirst(t, assetId, body);
  }

  /** Removing rows never un-issues an id. */
  lemma SubsequenceIssued(r: seq<AssetRow>, s: seq<AssetRow>, counter: nat)
    requires SubsequenceOf(r, s) && AllIssued(s, counter)
    ensures AllIssued(r, counter)
  {
    forall i | 0 <= i < |r| ensures Issued(r[i].id, counter) {
      SubsequenceMembers(r, s, i);
      var j :| 0 <= j < |s| && s[j] == r[i];
      assert Issued(s[j].id, counter);
    }
  }

  /** The cascade keeps every surviving history row attached. */
  lemma DeleteKeepsAttached(st: Store, id: string)
    requires Attached(st.assets, st.history)
    ensures Attached(Filter(st.assets, (a: AssetRow) => a.id != id),
                     Filter(st.history, (h: HistoryRow) => h.asset_id != id))
  {
    var rows := Filter(st.assets, (a: AssetRow) => a.id != id);
    var entries := Filter(st.history, (h: HistoryRow) => h.asset_id != id);
    forall i | 0 <= i < |entries| ensures HasId(rows, entries[i].asset_id) {
      DeleteKeepsOwner(st, id, entries[i]);
    }
  }

  /** A history row that survives the cascade still has its asset. */
  lemma DeleteKeepsOwner(st: Store, id: string, e: HistoryRow)
    requires Attached(st.assets, st.history)
    requires e in Filter(st.history, (h: HistoryRow) => h.asset_id != id)
    ensures HasId(Filter(st.assets, (a: AssetRow) => a.id != id), e.asset_id)
  {
    var keep := (a: AssetRow) => a.id != id;
    var rows := Filter(st.assets, keep);
    FilterMember(st.history, (h: HistoryRow) => h.asset_id != id, e);
    var i :| 0 <= i < |st.history| && st.history[i] == e;
    assert HasId(st.assets, st.history[i].asset_id);
    var j :| 0 <= j < |st.assets| && st.assets[j].id == e.asset_id;
    var row := st.assets[j];
    FilterMember(st.assets, keep, row);
    var k :| 0 <= k < |rows| && rows[k] == row;
  }

  lemma {:induction false} SubsequenceMembers<T>(r: seq<T>, s: seq<T>, i: nat)
    requires SubsequenceOf(r, s) && i < |r|
    ensures r[i] in s
    decreases |s|
  {
    if r[0] == s[0] && SubsequenceOf(r[1..], s[1..]) {
      if i > 0 {
        SubsequenceMembers(r[1..], s[1..], i - 1);
      }
    } else {
      SubsequenceMembers(r, s[1..], i);
    }
  }

  lemma {:induction false} SubsequenceUnique(r: seq<AssetRow>, s: seq<AssetRow>)
    requires SubsequenceOf(r, s) && UniqueIds(s)
    ensures UniqueIds(r)
    decreases |s|
  {
    if |r| > 0 {
      assert UniqueIds(s[1..]);
      if r[0] == s[0] && SubsequenceOf(r[1..], s[1..]) {
        SubsequenceUnique(r[1..], s[1..]);
        forall k | 1 <= k < |r| ensures r[0].id != r[k].id {
          SubsequenceMembers(r[1..], s[1..], k - 1);
          var j :| 0 <= j < |s[1..]| && s[1..][j] == r[k];
          assert s[j + 1] == r[k];
        }
        forall i, j | 0 <= i < j < |r| ensures r[i].id != r[j].id {
          if i > 0 {
            assert r[i] == r[1..][i - 1] && r[j] == r[1..][j - 1];
          }
        }
      } else {
        SubsequenceUnique(r, s[1..]);
      }
    }
  }

  // ---------------------------------------------------------------------
  // Identifier allocation

  /** A validated create draws exactly one value whatever happens next; a
      rejected one draws none. */
  lemma CreateDrawsOnce(st: Store, body: CreateBody, fault: CreateFault)
    ensures Create(st, body, fault).store.counter ==
              if CreateBodyValid(body) && !fault.DrawFails? then st.counter + 1 else st.counter
  {
  }

  /** Two creates that both succeed, one after the other, hand out distinct
      ids whose numbers increase. */
  lemma SuccessiveCreatesIncrease(st: Store, b1: CreateBody, f1: CreateFault, b2: CreateBody, f2: CreateFault)
    requires Create(st, b1, f1).reply.Success?
    requires Create(Create(st, b1, f1).store, b2, f2).reply.Success?
    ensures var id1 := Create(st, b1, f1).reply.value.id;
            var id2 := Create(Create(st, b1, f1).store, b2, f2).reply.value.id;
            && id1 != id2
            && ParseAssetId(id1).Some? && ParseAssetId(id2).Some?
            && ParseAssetId(id1).value < ParseAssetId(id2).value
  {
    var n := st.counter + 1;
    ParseFormatRoundTrip(n);
    ParseFormatRoundTrip(n + 1);
  }

  /** A create whose insert fails still consumes its number: the next create
      skips it, and no asset ever carries the skipped id. */
  lemma FailedInsertLeavesGap(st: Store, b1: CreateBody, b2: CreateBody)
    requires Wf(st) && CreateBodyValid(b1) && CreateBodyValid(b2)
    ensures var s1 := Create(st, b1, AssetInsertFails);
            var s2 := Create(s1.store, b2, CreateOk);
            && s1.reply == Failure(500, MsgInternal)
            && s2.reply.Success?
            && s2.reply.value.id == FormatAssetId(st.counter + 2)
            && !HasId(s2.store.assets, FormatAssetId(st.counter + 1))
  {
    var t := st.(counter := st.counter + 1);
    InsertFailureBurnsNumber(st, b1);
    WfAfterDraw(st, t);
    CreateNeverCollides(t, b2);
    var s2 := Create(t, b2, CreateOk);
    assert s2.store.assets == st.assets + [s2.reply.value];
    var gap := FormatAssetId(st.counter + 1);
    HasIdAppend(st.assets, s2.reply.value, gap);
    DrawnIdFresh(st.assets, st.counter);
    FormatInjective(st.counter + 2, st.counter + 1);
  }

  /** A valid create whose insert fails answers 500 having drawn its number. */
  lemma InsertFailureBurnsNumber(st: Store, body: CreateBody)
    requires CreateBodyValid(body)
    ensures Create(st, body, AssetInsertFails) == Step(Failure(500, MsgInternal), st.(counter := st.counter + 1))
  {
  }

  /** An appended row adds exactly its own id. */
  lemma HasIdAppend(rows: seq<AssetRow>, row: AssetRow, id: string)
    ensures HasId(rows + [row], id) <==> HasId(rows, id) || row.id == id
  {
    var s := rows + [row];
    if HasId(s, id) && row.id != id {
      var i :| 0 <= i < |s| && s[i].id == id;
      assert s[i] == rows[i];
    }
    if HasId(rows, id) {
      var i :| 0 <= i < |rows| && rows[i].id == id;
      assert s[i] == rows[i];
    }
    assert s[|rows|] == row;
  }

  // ---------------------------------------------------------------------
  // History

  /** A successful append adds exactly one entry for that asset, stamps that
      asset and leaves every other asset as it was. */
  lemma AppendAddsOneEntry(st: Store, assetId: string, body: HistoryBody)
    requires HistoryBodyValid(body) && HasId(st.assets, assetId)
    ensures var r := AppendHistory(st, assetId, body, NoFault);
            && r.reply.Success?
            && EntriesOf(r.store.history, assetId) == EntriesOf(st.history, assetId) + [r.reply.value]
            && (forall other :: other != assetId ==> EntriesOf(r.store.history, other) == EntriesOf(st.history, other))
            && (forall i :: 0 <= i < |st.assets| && st.assets[i].id != assetId ==> r.store.assets[i] == st.assets[i])
            && (forall i :: 0 <= i < |st.assets| && st.assets[i].id == assetId ==>
                  r.store.assets[i] == st.assets[i].(ultima_atualizacao := st.clock))
  {
    var r := AppendHistory(st, assetId, body, NoFault);
    var e := r.reply.value;
    EntriesAfterAppend(st.history, e, assetId);
    forall other | other != assetId
      ensures EntriesOf(r.store.history, other) == EntriesOf(st.history, other)
    {
      EntriesAfterAppend(st.history, e, other);
    }
  }

  /** The entries of one asset after a row is appended to the table. */
  lemma EntriesAfterAppend(history: seq<HistoryRow>, e: HistoryRow, id: string)
    ensures EntriesOf(history + [e], id) == EntriesOf(history, id) + (if e.asset_id == id then [e] else [])
  {
    FilterAppend(history, [e], (h: HistoryRow) => h.asset_id == id);
    assert Filter([e], (h: HistoryRow) => h.asset_id == id) == (if e.asset_id == id then [e] else []) by {
      assert [e][1..] == [];
    }
  }

  /** When the clock has moved past every earlier entry of the asset, the
      appended entry is the first one GET /:id lists. */
  lemma AppendedEntryListedFirst(st: Store, assetId: string, body: HistoryBody)
    requires HistoryBodyValid(body) && HasId(st.assets, assetId)
    requires forall e :: e in EntriesOf(st.history, assetId) ==> e.timestamp < st.clock
    ensures var r := AppendHistory(st, assetId, body, NoFault);
            var view := GetOne(r.store, assetId, GetOk);
            view.Success? && |view.value.historico| > 0 && view.value.historico[0] == r.reply.value
  {
    var r := AppendHistory(st, assetId, body, NoFault);
    var entry := r.reply.value;
    var before := EntriesOf(st.history, assetId);
    EntriesAfterAppend(st.history, entry, assetId);
    TouchSameIds(st.assets, assetId, st.clock);
    assert HasId(r.store.assets, assetId) by {
      var j :| 0 <= j < |st.assets| && st.assets[j].id == assetId;
      assert r.store.assets[j].id == assetId;
    }
    var h := GetOne(r.store, assetId, GetOk).value.historico;
    assert multiset(h) == multiset(before + [entry]);
    forall x | x in h && x != entry ensures x.timestamp < entry.timestamp {
      assert x in multiset(before + [entry]);
      assert x in before + [entry];
      assert x in before;
    }
    assert entry in multiset(h);
    NewestHeadIsStrictMax(h, entry);
  }

  /** In a newest-first listing, an entry strictly newer than all the others
      comes first. */
  lemma NewestHeadIsStrictMax(h: seq<HistoryRow>, x: HistoryRow)
    requires x in h && SortedBy(h, NewestFirst)
    requires forall e :: e in h && e != x ==> e.timestamp < x.timestamp
    ensures h[0] == x
  {
    var k :| 0 <= k < |h| && h[k] == x;
    if k != 0 {
      assert NewestFirst(h[0], h[k]);
    }
  }

  // ---------------------------------------------------------------------
  // Routing

  datatype Method = GET | POST | PUT | DELETE

  /** The handler Express picks for a path below /api/assets, given as its
      non-empty segments; `NoRoute` is Express's own 404. */
  datatype Route =
    | ListAllRoute
    | GetOneRoute(id: string)
    | CreateRoute
    | UpdateRoute(id: string)
    | AppendHistoryRoute(assetId: string)
    | DeleteRoute(id: string)
    | NoRoute

  function Dispatch(m: Method, path: seq<string>): (r: Route)
    requires forall i :: 0 <= i < |path| ==> path[i] != ""
    ensures r.ListAllRoute? <==> m == GET && path == []
    ensures r.GetOneRoute? <==> m == GET && |path| == 1
    ensures r.CreateRoute? <==> m == POST && path == []
    ensures r.AppendHistoryRoute? <==> m == POST && |path| == 2 && ToLower(path[1]) == "history"
    ensures r.UpdateRoute? <==> m == PUT && |path| == 1
    ensures r.DeleteRoute? <==> m == DELETE && |path| == 1
    ensures r.GetOneRoute? || r.UpdateRoute? || r.DeleteRoute? ==> path == [r.id]
    ensures r.AppendHistoryRoute? ==> path[0] == r.assetId
    ensures r.ListAllRoute? || r.CreateRoute? ==> path == []
  {
    match m
    case GET => if |path| == 0 then ListAllRoute else if |path| == 1 then GetOneRoute(path[0]) else NoRoute
    case POST =>
      if |path| == 0 then CreateRoute
      else if |path| == 2 && ToLower(path[1]) == "history" then AppendHistoryRoute(path[0])
      else NoRoute
    case PUT => if |path| == 1 then UpdateRoute(path[0]) else NoRoute
    case DELETE => if |path| == 1 then DeleteRoute(path[0]) else NoRoute
  }

  /** The router ignores case in the literal part of a path, so a history
      POST reaches its handler in any spelling of "history". */
  lemma HistoryPathIgnoresCase(id: string)
    requires id != ""
    ensures Dispatch(POST, [id, "history"]) == AppendHistoryRoute(id)
    ensures Dispatch(POST, [id, "HISTORY"]) == AppendHistoryRoute(id)
  {
    ToLowerOfLowerCase("history");
    assert ToLower("HISTORY") == "history" by {
      var l := ToLower("HISTORY");
      assert l[0] == 'h' && l[1] == 'i' && l[2] == 's' && l[3] == 't' && l[4] == 'o' && l[5] == 'r' && l[6] == 'y';
    }
  }

  /** The client's category calls reach no category handler: GET
      /api/assets/categories is read as the asset "categories", which no
      issued id can be, so it is a 404; the other calls match no route. */
  lemma CategoryCallsFail(st: Store, catId: string, fault: GetFault)
    requires Wf(st) && catId != ""
    ensures Dispatch(GET, ["categories"]) == GetOneRoute("categories")
    ensures GetOne(st, "categories", fault) ==
              if fault.AssetSelectFails? then Failure(500, MsgInternal) else Failure(404, MsgNotFound)
    ensures Dispatch(POST, ["categories"]) == NoRoute
    ensures Dispatch(PUT, ["categories", catId]) == NoRoute
    ensures Dispatch(DELETE, ["categories", catId]) == NoRoute
  {
  }
}

=== FILE: auth_routes.dfy ===
/** backend/routes/auth.js: the token middleware, the admin check, login and
    the admin-only user creation. Token signing and verification and password
    hashing and comparison are library calls whose insides are not modelled:
    they enter as function parameters. */
module AuthRoutes {
  import opened Wrappers
  import opened Text
  import opened Http

  /** What a token carries and what `req.user` becomes once it verifies. */
  datatype Claims = Claims(id: nat, username: string, role: string)

  /** A row of `users`. */
  datatype UserRow = UserRow(id: nat, username: string, password_hash: string, role: string)

  /** The `users` table and the last value its id serial handed out. */
  datatype Users = Users(rows: seq<UserRow>, serial: nat)

  /** Where a middleware leaves a request: passed on with the caller's claims,
      or answered with an error status. */
  datatype Gate = Pass(user: Claims) | Deny(status: nat, message: string)

  datatype LoginBody = LoginBody(username: Option<string>, password: Option<string>)
  datatype LoginReply = LoginReply(accessToken: string, user: Claims)

  datatype NewUserBody = NewUserBody(username: Option<string>, password: Option<string>, role: Option<string>)
  datatype Created = Created(message: string, user: Claims)

  /** A reply together with the table it leaves behind. */
  datatype UserStep = UserStep(reply: Reply<Created>, users: Users)

  const MsgTokenMissing: string := "Token de autenticação ausente."
  const MsgTokenInvalid: string := "Token de autenticação inválido ou expirado."
  const MsgAdminOnly: string := "Acesso negado. Requer privilégios de administrador."
  const MsgBadLogin: string := "Nome de usuário ou senha inválidos."
  const MsgUserFieldsRequired: string := "Nome de usuário, senha e papel (role) são obrigatórios."
  const MsgUserExists: string := "Nome de usuário já existe."
  const MsgUserCreated: string := "Usuário criado com sucesso!"

  /** `expiresIn: '1h'`, in seconds. */
  const TokenLifetime: nat := 3600

  const AdminRole: string := "admin"

  // ---------------------------------------------------------------------
  // authenticateToken

  /** `authHeader && authHeader.split(' ')[1]`: nothing without a header; the
      empty header itself when it is the empty string (`&&` stops on a falsy
      operand); otherwise the text between the first and the second space,
      which exists only when the header holds a space. The first word is never
      looked at. */
  function BearerToken(header: Option<string>): (r: Option<string>)
    ensures header.None? ==> r.None?
    ensures header == Some("") ==> r == Some("")
    ensures header.Some? && header.value != "" ==> (r.Some? <==> ' ' in header.value)
    ensures header.Some? && header.value != "" && r.Some? ==>
              var h := header.value;
              r.value == BeforeFirst(h[IndexOf(h, ' ') + 1..], ' ')
  {
    match header
    case None => None
    case Some(h) =>
      if h == "" then Some("")
      else
        var fields := Split(h, ' ');
        if |fields| >= 2 then
          var a := IndexOf(h, ' ');
          assert fields[1..] == Split(h[a + 1..], ' ');
          BeforeFirstIsFirstField(h[a + 1..], ' ');
          Some(fields[1])
        else
          None
  }

  /** Any first word followed by a space and a space-free token yields that
      token: the scheme word is not checked. */
  lemma BearerRoundTrip(scheme: string, token: string)
    requires ' ' !in scheme && ' ' !in token
    ensures BearerToken(Some(scheme + " " + token)) == Some(token)
  {
    SplitUnique([scheme, token], ' ');
    assert Join([scheme, token], ' ') == scheme + " " + token;
  }

  /** The middleware: 401 when there is no token at all, 403 when the
      verifier rejects it (bad signature and expiry are not told apart), and
      otherwise the request goes on with the decoded claims. */
  function Authenticate(header: Option<string>, verify: string -> Option<Claims>): (r: Gate)
    ensures BearerToken(header).None? <==> r == Deny(401, MsgTokenMissing)
    ensures BearerToken(header).Some? ==>
              var t := BearerToken(header).value;
              && (r.Pass? <==> verify(t).Some?)
              && (r.Pass? ==> r.user == verify(t).value)
              && (r.Deny? ==> r == Deny(403, MsgTokenInvalid))
  {
    match BearerToken(header)
    case None => Deny(401, MsgTokenMissing)
    case Some(t) =>
      match verify(t)
      case None => Deny(403, MsgTokenInvalid)
      case Some(c) => Pass(c)
  }

  /** Without a token the verifier is never consulted: the answer is the same
      whatever it would have said. */
  lemma MissingTokenSkipsVerify(header: Option<string>, v1: string -> Option<Claims>, v2: string -> Option<Claims>)
    requires header.None? || (header.value != "" && ' ' !in header.value)
    ensures Authenticate(header, v1) == Authenticate(header, v2) == Deny(401, MsgTokenMissing)
  {
  }

  /** An empty header is not "missing": it reaches the verifier as the empty
      token. */
  lemma EmptyHeaderReachesVerify(verify: string -> Option<Claims>)
    ensures verify("").None? ==> Authenticate(Some(""), verify) == Deny(403, MsgTokenInvalid)
    ensures verify("").Some? ==> Authenticate(Some(""), verify) == Pass(verify("").value)
  {
  }

  // ---------------------------------------------------------------------
  // authorizeAdmin

  /** Passes exactly when there is a user and their role is `admin`. */
  function AuthorizeAdmin(user: Option<Claims>): (r: Gate)
    ensures r.Pass? <==> user.Some? && user.value.role == AdminRole
    ensures r.Pass? ==> r.user == user.value
    ensures r.Deny? ==> r == Deny(403, MsgAdminOnly)
  {
    if user.None? || user.value.role != AdminRole then Deny(403, MsgAdminOnly)
    else Pass(user.value)
  }

  // ---------------------------------------------------------------------
  // POST /login

  /** `SELECT * FROM users WHERE username = $1` then `rows[0]`; an absent
      username is bound as NULL, which equals nothing. */
  function FindUser(rows: seq<UserRow>, username: Option<string>): (r: Option<UserRow>)
    ensures r.Some? <==> username.Some? && exists i :: 0 <= i < |rows| && rows[i].username == username.value
    ensures r.Some? ==> r.value in rows && r.value.username == username.value
  {
    if username.None? || |rows| == 0 then None
    else if rows[0].username == username.value then Some(rows[0])
    else FindUser(rows[1..], username)
  }

  /** The login reply carries the signed claims and the same three fields,
      never the password hash. `selectFails` stands for a store error on the
      SELECT, which the handler passes on and the error handler turns into a
      500; a missing password makes the comparison throw, with the same
      outcome. */
  function Login(users: Users, body: LoginBody, compare: (string, string) -> bool, sign: (Claims, nat) -> string,
                 selectFails: bool): (r: Reply<LoginReply>)
    ensures selectFails ==> r == Failure(500, MsgInternal)
    ensures !selectFails && FindUser(users.rows, body.username).None? ==> r == Failure(400, MsgBadLogin)
    ensures !selectFails && FindUser(users.rows, body.username).Some? && body.password.None? ==>
              r == Failure(500, MsgInternal)
    ensures !selectFails && FindUser(users.rows, body.username).Some? && body.password.Some?
            && !compare(body.password.value, FindUser(users.rows, body.username).value.password_hash) ==>
              r == Failure(400, MsgBadLogin)
    ensures r.Failure? ==> r == Failure(400, MsgBadLogin) || r == Failure(500, MsgInternal)
    ensures r.Success? <==> var u := FindUser(users.rows, body.username);
                            !selectFails && u.Some? && body.password.Some? && compare(body.password.value, u.value.password_hash)
    ensures r.Success? ==> var u := FindUser(users.rows, body.username).value;
                           && r.status == 200
                           && r.value.user == Claims(u.id, u.username, u.role)
                           && r.value.accessToken == sign(r.value.user, TokenLifetime)
  {
    if selectFails then Failure(500, MsgInternal)
    else
    match FindUser(users.rows, body.username)
    case None => Failure(400, MsgBadLogin)
    case Some(u) =>
      if body.password.None? then Failure(500, MsgInternal)
      else if !compare(body.password.value, u.password_hash) then Failure(400, MsgBadLogin)
      else
        var claims := Claims(u.id, u.username, u.role);
        Success(200, LoginReply(sign(claims, TokenLifetime), claims))
  }

  /** An unknown username and a wrong password are indistinguishable to the
      caller: both produce exactly the same reply. */
  lemma LoginFailuresAlike(users: Users, unknown: string, known: string, password: string,
                           compare: (string, string) -> bool, sign: (Claims, nat) -> string)
    requires FindUser(users.rows, Some(unknown)).None?
    requires FindUser(users.rows, Some(known)).Some?
    requires !compare(password, FindUser(users.rows, Some(known)).value.password_hash)
    ensures Login(users, LoginBody(Some(unknown), Some(password)), compare, sign, false)
         == Login(users, LoginBody(Some(known), Some(password)), compare, sign, false)
         == Failure(400, MsgBadLogin)
  {
  }

  predicate UniqueUsernames(rows: seq<UserRow>) {
    forall i, j :: 0 <= i < j < |rows| ==> rows[i].username != rows[j].username
  }

  /** With unique usernames, login succeeds exactly for a stored user whose
      hash the password matches, and the token names that user. */
  lemma LoginSucceedsIffCredentialsMatch(users: Users, name: string, password: string,
                                         compare: (string, string) -> bool, sign: (Claims, nat) -> string)
    requires UniqueUsernames(users.rows)
    ensures var r := Login(users, LoginBody(Some(name), Some(password)), compare, sign, false);
            r.Success? <==> exists i :: 0 <= i < |users.rows| && users.rows[i].username == name
                                        && compare(password, users.rows[i].password_hash)
    ensures var r := Login(users, LoginBody(Some(name), Some(password)), compare, sign, false);
            forall i :: 0 <= i < |users.rows| && users.rows[i].username == name ==>
              (r.Success? ==> r.value.user == Claims(users.rows[i].id, name, users.rows[i].role))
  {
    var u := FindUser(users.rows, Some(name));
    if u.Some? {
      forall i | 0 <= i < |users.rows| && users.rows[i].username == name
        ensures users.rows[i] == u.value
      {
        var j :| 0 <= j < |users.rows| && users.rows[j] == u.value;
        assert users.rows[i].username == users.rows[j].username;
      }
    }
  }

  // ---------------------------------------------------------------------
  // POST /users

  predicate NewUserBodyValid(b: NewUserBody) {
    Truthy(b.username) && Truthy(b.password) && Truthy(b.role)
  }

  function UsernameTaken(rows: seq<UserRow>, name: string): (r: bool)
    ensures r <==> exists i :: 0 <= i < |rows| && rows[i].username == name
  {
    exists i | 0 <= i < |rows| :: rows[i].username == name
  }

  /** Store and hashing errors inside the POST /users handler, each named
      after the statement that raises; the handler passes the error on and
      the error handler answers 500. */
  datatype UserFault = UserOk | NameCheckFails | HashFails | UserInsertFails

  /** `authenticateToken`, then `authorizeAdmin`, then the handler: 400 for a
      missing field, 409 for a taken username, otherwise an insert whose reply
      carries the id, the username and the role, whatever that role is. A
      fault in the username SELECT answers 500 before the 409 test; one in the
      hashing answers 500 and stores nothing; a failing INSERT answers 500
      and stores no row, but the id serial has already handed out its next
      value, which no later user gets. */
  function CreateUser(users: Users, header: Option<string>, verify: string -> Option<Claims>,
                      body: NewUserBody, hash: string -> string, fault: UserFault): (r: UserStep)
    ensures r.reply.Failure? ==> r.users == users || (fault.UserInsertFails? && r.users == users.(serial := users.serial + 1))
    ensures BearerToken(header).None? ==> r.reply == Failure(401, MsgTokenMissing)
    ensures Authenticate(header, verify).Deny? ==> r.reply.status == Authenticate(header, verify).status
    ensures Authenticate(header, verify).Pass? && Authenticate(header, verify).user.role != AdminRole ==>
              r.reply == Failure(403, MsgAdminOnly)
    ensures r.reply.Success? ==> && Authenticate(header, verify).Pass?
                                 && Authenticate(header, verify).user.role == AdminRole
                                 && NewUserBodyValid(body)
                                 && !UsernameTaken(users.rows, body.username.value)
    ensures r.reply.Success? ==> var id := users.serial + 1;
                                 && r.reply.status == 201
                                 && r.reply.value == Created(MsgUserCreated, Claims(id, body.username.value, body.role.value))
                                 && r.users == Users(users.rows + [UserRow(id, body.username.value, hash(body.password.value), body.role.value)], id)
    ensures Authenticate(header, verify).Pass? && Authenticate(header, verify).user.role == AdminRole ==>
              && (!NewUserBodyValid(body) ==> r.reply == Failure(400, MsgUserFieldsRequired))
              && (NewUserBodyValid(body) && fault.NameCheckFails? ==> r.reply == Failure(500, MsgInternal))
              && (NewUserBodyValid(body) && !fault.NameCheckFails? && UsernameTaken(users.rows, body.username.value) ==>
                    r.reply == Failure(409, MsgUserExists))
              && (NewUserBodyValid(body) && !UsernameTaken(users.rows, body.username.value) ==>
                    (r.reply.Success? <==> fault.UserOk?) && (!fault.UserOk? ==> r.reply == Failure(500, MsgInternal)))
              && (NewUserBodyValid(body) && !fault.NameCheckFails? && !fault.UserInsertFails? && !r.reply.Success? ==> r.users == users)
              && (NewUserBodyValid(body) && !UsernameTaken(users.rows, body.username.value) && fault.UserInsertFails? ==>
                    r.users == users.(serial := users.serial + 1))
  {
    match Authenticate(header, verify)
    case Deny(status, message) => UserStep(Failure(status, message), users)
    case Pass(caller) =>
      match AuthorizeAdmin(Some(caller))
      case Deny(status, message) => UserStep(Failure(status, message), users)
      case Pass(_) =>
        if !NewUserBodyValid(body) then UserStep(Failure(400, MsgUserFieldsRequired), users)
        else if fault.NameCheckFails? then UserStep(Failure(500, MsgInternal), users)
        else if UsernameTaken(users.rows, body.username.value) then UserStep(Failure(409, MsgUserExists), users)
        else if fault.HashFails? then UserStep(Failure(500, MsgInternal), users)
        else if fault.UserInsertFails? then UserStep(Failure(500, MsgInternal), users.(serial := users.serial + 1))
        else
          var id := users.serial + 1;
          var row := UserRow(id, body.username.value, hash(body.password.value), body.role.value);
          UserStep(Success(201, Created(MsgUserCreated, Claims(id, row.username, row.role))), Users(users.rows + [row], id))
  }

  /** The invariant of `users`: unique usernames (what the 409 check keeps)
      and ids below the serial, hence unique too. */
  predicate UsersWf(users: Users) {
    && UniqueUsernames(users.rows)
    && (forall i :: 0 <= i < |users.rows| ==> 1 <= users.rows[i].id <= users.serial)
    && (forall i, j :: 0 <= i < j < |users.rows| ==> users.rows[i].id < users.rows[j].id)
  }

  lemma CreateUserPreservesWf(users: Users, header: Option<string>, verify: string -> Option<Claims>,
                              body: NewUserBody, hash: string -> string, fault: UserFault)
    requires UsersWf(users)
    ensures UsersWf(CreateUser(users, header, verify, body, hash, fault).users)
  {
    var r := CreateUser(users, header, verify, body, hash, fault);
    if r.reply.Success? {
      InsertUserKeepsWf(users, r.users.rows[|users.rows|]);
    }
  }

  /** Inserting a row under a free name and the next serial keeps the
      invariant. */
  lemma InsertUserKeepsWf(users: Users, row: UserRow)
    requires UsersWf(users)
    requires !UsernameTaken(users.rows, row.username) && row.id == users.serial + 1
    ensures UsersWf(Users(users.rows + [row], row.id))
  {
    var rows := users.rows + [row];
    forall i, j | 0 <= i < j < |rows| ensures rows[i].username != rows[j].username {
      assert rows[i] == users.rows[i];
      if j < |users.rows| {
        assert rows[j] == users.rows[j];
      }
    }
  }

  /** A failed user INSERT burns its id: the next successful create is
      numbered two past the serial it started from, so no user ever gets
      the number the failed row drew. */
  lemma FailedUserInsertLeavesGap(users: Users, header: Option<string>, verify: string -> Option<Claims>,
                                  body: NewUserBody, hash: string -> string, next: NewUserBody)
    requires Authenticate(header, verify).Pass? && Authenticate(header, verify).user.role == AdminRole
    requires NewUserBodyValid(body) && !UsernameTaken(users.rows, body.username.value)
    ensures var failed := CreateUser(users, header, verify, body, hash, UserInsertFails);
            var r := CreateUser(failed.users, header, verify, next, hash, UserOk);
            && failed.users.rows == users.rows
            && (r.reply.Success? ==> r.reply.value.user.id == users.serial + 2)
  {
  }

  /** The role is stored as sent: an admin can create a user with any
      non-empty role, not only `admin` or `user`. */
  lemma AnyRoleAccepted(users: Users, header: Option<string>, verify: string -> Option<Claims>,
                        name: string, password: string, role: string, hash: string -> string)
    requires Authenticate(header, verify).Pass? && Authenticate(header, verify).user.role == AdminRole
    requires name != "" && password != "" && role != ""
    requires !UsernameTaken(users.rows, name)
    ensures var r := CreateUser(users, header, verify, NewUserBody(Some(name), Some(password), Some(role)), hash, UserOk);
            r.reply.Success? && r.reply.value.user.role == role
  {
  }

  // ---------------------------------------------------------------------
  // Routing

  datatype Method = GET | POST | PUT | DELETE

  datatype Route = LoginRoute | CreateUserRoute | NoRoute

  /** The handler Express picks below /api/auth for the non-empty path
      segments given. */
  function Dispatch(m: Method, path: seq<string>): (r: Route)
    ensures r == LoginRoute <==> m == POST && |path| == 1 && ToLower(path[0]) == "login"
    ensures r == CreateUserRoute <==> m == POST && |path| == 1 && ToLower(path[0]) == "users"
  {
    if m == POST && |path| == 1 && ToLower(path[0]) == "login" then LoginRoute
    else if m == POST && |path| == 1 && ToLower(path[0]) == "users" then CreateUserRoute
    else NoRoute
  }

  /** The router ignores case, so the two paths reach their handlers in any
      spelling: the client's lower-case ones and, say, all capitals. */
  lemma RoutesIgnoreCase()
    ensures Dispatch(POST, ["login"]) == LoginRoute && Dispatch(POST, ["LOGIN"]) == LoginRoute
    ensures Dispatch(POST, ["users"]) == CreateUserRoute && Dispatch(POST, ["Users"]) == CreateUserRoute
  {
    ToLowerOfLowerCase("login");
    ToLowerOfLowerCase("users");
    assert ToLower("LOGIN") == "login" by {
      var l := ToLower("LOGIN");
      assert l[0] == 'l' && l[1] == 'o' && l[2] == 'g' && l[3] == 'i' && l[4] == 'n';
    }
    assert ToLower("Users") == "users" by {
      var l := ToLower("Users");
      assert l[0] == 'u' && l[1] == 's' && l[2] == 'e' && l[3] == 'r' && l[4] == 's';
    }
  }

  /** The user list, edit, password and delete calls of the administration
      screen reach no handler. */
  lemma UserAdminCallsUnrouted(id: string)
    ensures Dispatch(GET, ["users"]) == NoRoute
    ensures Dispatch(PUT, ["users", id]) == NoRoute
    ensures Dispatch(PUT, ["users", id, "password"]) == NoRoute
    ensures Dispatch(DELETE, ["users", id]) == NoRoute
  {
  }
}

=== FILE: category_management.dfy ===
/** The category administration panel
    (components/features/CategoryManagement.tsx): the prefix normalisation
    applied on every keystroke and again on submit, the three modals and the
    state they reset, the requests each form sends, and how the loaded list
    reacts to the server's answer. The requests are related to the routes
    below /api/assets that backend/routes/assets.js actually declares. */
module CategoryManagement {
  import opened Wrappers
  import opened Text
  import opened Types
  import AssetRoutes
  import AssetStore
  import Http

  // ---------------------------------------------------------------------
  // The prefix field

  /** The `maxLength` of the prefix input. */
  const PrefixMaxLength: nat := 4

  /** No ASCII lower-case letter occurs in `s`. */
  predicate NoLowerCase(s: string) {
    forall i :: 0 <= i < |s| ==> !('a' <= s[i] <= 'z')
  }

  /** `toUpperCase().trim()`: an upper-cased infix of the input with no
      white space at either end and no lower-case letter left. */
  function NormalizePrefix(raw: string): (r: string)
    ensures |r| <= |raw|
    ensures NoLowerCase(r)
    ensures |r| > 0 ==> !IsSpace(r[0]) && !IsSpace(r[|r| - 1])
    ensures AllSpace(raw) ==> r == ""
  {
    UpperTrimFacts(raw);
    Trim(ToUpper(raw))
  }

  /** Trimming keeps an infix, so nothing lower-case survives upper-casing. */
  lemma UpperTrimFacts(raw: string)
    ensures NoLowerCase(Trim(ToUpper(raw)))
    ensures AllSpace(raw) ==> Trim(ToUpper(raw)) == ""
  {
    var u := ToUpper(raw);
    UpperLeavesNoLowerCase(raw);
    TrimKeepsNoLowerCase(u);
    if AllSpace(raw) {
      UpperKeepsSpace(raw);
      TrimEmptyIffAllSpace(u);
    }
  }

  /** Upper-casing leaves no lower-case letter. */
  lemma UpperLeavesNoLowerCase(raw: string)
    ensures NoLowerCase(ToUpper(raw))
  {
    var u := ToUpper(raw);
    forall i | 0 <= i < |u| ensures !('a' <= u[i] <= 'z') {
      assert u[i] == UpperChar(raw[i]);
    }
  }

  /** Trimming keeps an infix, so it adds no lower-case letter. */
  lemma TrimKeepsNoLowerCase(u: string)
    requires NoLowerCase(u)
    ensures NoLowerCase(Trim(u))
  {
    var r := Trim(u);
    var a := |u| - |TrimStart(u)|;
    assert TrimmedAt(u, r, a);
    forall i | 0 <= i < |r| ensures !('a' <= r[i] <= 'z') {
      assert r[i] == u[a + i];
    }
  }

  /** White space has no case. */
  lemma UpperKeepsSpace(raw: string)
    requires AllSpace(raw)
    ensures ToUpper(raw) == raw
  {
    forall i | 0 <= i < |raw| ensures !('a' <= raw[i] <= 'z') {
      assert IsSpace(raw[i]);
    }
    UpperCaseFixed(raw);
  }

  /** Upper-casing a string with no lower-case letter changes nothing. */
  lemma UpperCaseFixed(s: string)
    requires NoLowerCase(s)
    ensures ToUpper(s) == s
  {
  }

  /** Normalising a normalised prefix changes nothing. */
  lemma NormalizePrefixIdempotent(raw: string)
    ensures NormalizePrefix(NormalizePrefix(raw)) == NormalizePrefix(raw)
  {
    var r := NormalizePrefix(raw);
    UpperCaseFixed(r);
    TrimIdempotent(ToUpper(raw));
  }

  /** The value the prefix state takes after a keystroke: the browser caps
      the typed text at `maxLength` characters, then `onChange` normalises
      it. */
  function TypedPrefix(raw: string): (r: string)
    ensures |r| <= PrefixMaxLength
    ensures NoLowerCase(r)
    ensures NormalizePrefix(r) == r
  {
    var capped := if |raw| <= PrefixMaxLength then raw else raw[..PrefixMaxLength];
    NormalizePrefixIdempotent(capped);
    NormalizePrefix(capped)
  }

  // ---------------------------------------------------------------------
  // Screen state

  datatype Screen = Screen(
    categories: seq<Category>,
    error: Option<string>,
    addOpen: bool,
    editOpen: bool,
    deleteOpen: bool,
    selected: Option<Category>,
    name: string,
    prefix: string)

  /** The state on mount, before the first fetch completes. */
  const Mounted: Screen := Screen([], None, false, false, false, None, "", "")

  /** `closeModal`: every modal closed, the selection and the error cleared;
      the typed name and prefix and the list stay. */
  function CloseModal(s: Screen): (r: Screen)
    ensures !r.addOpen && !r.editOpen && !r.deleteOpen
    ensures r.selected.None? && r.error.None?
    ensures r.categories == s.categories && r.name == s.name && r.prefix == s.prefix
  {
    s.(addOpen := false, editOpen := false, deleteOpen := false, selected := None, error := None)
  }

  /** `openAddModal`: empty fields and the add modal open; the selection
      and the error are left as they were. */
  function OpenAddModal(s: Screen): (r: Screen)
    ensures r.addOpen && r.name == "" && r.prefix == ""
    ensures r.(addOpen := s.addOpen, name := s.name, prefix := s.prefix) == s
  {
    s.(name := "", prefix := "", addOpen := true)
  }

  /** `openEditModal`: the category selected, its name loaded, the edit
      modal open. */
  function OpenEditModal(s: Screen, c: Category): (r: Screen)
    ensures r.editOpen && r.selected == Some(c) && r.name == c.name
    ensures r.(editOpen := s.editOpen, selected := s.selected, name := s.name) == s
  {
    s.(selected := Some(c), name := c.name, editOpen := true)
  }

  /** `openDeleteModal`: the category selected and the delete modal open. */
  function OpenDeleteModal(s: Screen, c: Category): (r: Screen)
    ensures r.deleteOpen && r.selected == Some(c)
    ensures r.(deleteOpen := s.deleteOpen, selected := s.selected) == s
  {
    s.(selected := Some(c), deleteOpen := true)
  }

  function TypeName(s: Screen, v: string): (r: Screen)
    ensures r.name == v && r.(name := s.name) == s
  {
    s.(name := v)
  }

  function TypePrefix(s: Screen, raw: string): (r: Screen)
    ensures r.prefix == TypedPrefix(raw) && r.(prefix := s.prefix) == s
  {
    s.(prefix := TypedPrefix(raw))
  }

  // ---------------------------------------------------------------------
  // Requests

  /** A request body: the edit form sends a name only. */
  datatype CategoryBody = CategoryBody(name: string, prefix: Option<string>)

  /** A request below /api/assets, its path given as segments. */
  datatype Request = Request(verb: AssetStore.Method, path: seq<string>, body: Option<CategoryBody>)

  /** `fetchCategories`: GET /api/assets/categories. */
  const FetchRequest: Request := Request(AssetStore.GET, ["categories"], None)

  /** `handleAddCategory`: the typed name and the prefix normalised once more. */
  function AddRequest(s: Screen): (r: Request)
    ensures r.verb == AssetStore.POST && r.path == ["categories"]
    ensures r.body == Some(CategoryBody(s.name, Some(NormalizePrefix(s.prefix))))
  {
    Request(AssetStore.POST, ["categories"], Some(CategoryBody(s.name, Some(NormalizePrefix(s.prefix)))))
  }

  /** `handleEditCategory`: nothing without a selection, otherwise a PUT of
      the name alone to the selected category. */
  function EditRequest(s: Screen): (r: Option<Request>)
    ensures r.None? <==> s.selected.None?
    ensures r.Some? ==> r.value == Request(AssetStore.PUT, ["categories", IntText(s.selected.value.id)],
                                           Some(CategoryBody(s.name, None)))
  {
    match s.selected
    case None => None
    case Some(c) => Some(Request(AssetStore.PUT, ["categories", IntText(c.id)], Some(CategoryBody(s.name, None))))
  }

  /** `handleDeleteCategory`: nothing without a selection, otherwise a
      DELETE of the selected category, without a body. */
  function DeleteRequest(s: Screen): (r: Option<Request>)
    ensures r.None? <==> s.selected.None?
    ensures r.Some? ==> r.value == Request(AssetStore.DELETE, ["categories", IntText(s.selected.value.id)], None)
  {
    match s.selected
    case None => None
    case Some(c) => Some(Request(AssetStore.DELETE, ["categories", IntText(c.id)], None))
  }

  /** The prefix the add form submits is the one shown in the field: the
      second normalisation on submit is a no-op on a typed value. */
  lemma AddSendsTypedPrefix(s: Screen, raw: string)
    ensures var t := TypePrefix(s, raw);
            AddRequest(t).body.value.prefix == Some(t.prefix)
    ensures |AddRequest(TypePrefix(s, raw)).body.value.prefix.value| <= PrefixMaxLength
  {
  }

  /** Editing renames only: whatever was typed, the prefix is never sent,
      and the request goes to the category the modal was opened on. */
  lemma EditNeverSendsPrefix(s: Screen, c: Category, typed: string)
    ensures var r := EditRequest(TypeName(OpenEditModal(s, c), typed));
            && r.Some?
            && r.value.path == ["categories", IntText(c.id)]
            && r.value.body == Some(CategoryBody(typed, None))
  {
  }

  /** After a modal is closed no edit or delete can be submitted: the
      selection is gone. */
  lemma ClosedModalSubmitsNothing(s: Screen)
    ensures EditRequest(CloseModal(s)).None? && DeleteRequest(CloseModal(s)).None?
  {
  }

  // ---------------------------------------------------------------------
  // The answers to the three forms

  /** How the screen sees the answer to a form's request: success, or a
      failure whose JSON body may carry a `message`. */
  datatype Answer = Ok | NotOk(message: Option<string>)

  /** The requests a handler sent and the screen afterwards. */
  datatype Submitted = Submitted(sent: seq<Request>, screen: Screen)

  const MsgAddFailed: string := "Falha ao adicionar categoria."
  const MsgEditFailed: string := "Falha ao editar categoria."
  const MsgDeleteFailed: string := "Falha ao excluir categoria."

  /** Success closes every modal (a refetch follows); a failure leaves the
      modals as they are and shows the server's message, or the handler's
      fallback when there is none. */
  function Settle(s: Screen, answer: Answer, fallback: string): Screen {
    if answer.Ok? then CloseModal(s) else s.(error := Some(OrElse(answer.message, fallback)))
  }

  /** `handleAddCategory`: always one POST. */
  function HandleAdd(s: Screen, answer: Answer): (r: Submitted)
    ensures r.sent == [AddRequest(s)]
    ensures answer.Ok? ==> r.screen == CloseModal(s)
    ensures answer.NotOk? ==> r.screen.(error := s.error) == s && Truthy(r.screen.error)
  {
    Submitted([AddRequest(s)], Settle(s, answer, MsgAddFailed))
  }

  /** `handleEditCategory`: nothing at all without a selection. */
  function HandleEdit(s: Screen, answer: Answer): (r: Submitted)
    ensures s.selected.None? ==> r == Submitted([], s)
    ensures s.selected.Some? ==> r.sent == [EditRequest(s).value]
    ensures s.selected.Some? && answer.Ok? ==> r.screen == CloseModal(s)
    ensures s.selected.Some? && answer.NotOk? ==> r.screen.(error := s.error) == s && Truthy(r.screen.error)
  {
    match EditRequest(s)
    case None => Submitted([], s)
    case Some(req) => Submitted([req], Settle(s, answer, MsgEditFailed))
  }

  /** Pressing "Adicionar": the name and prefix inputs are `required`, so the
      browser sends nothing while either is empty; otherwise
      `handleAddCategory` runs with a non-empty name. */
  function SubmitAdd(s: Screen, answer: Answer): (r: Submitted)
    ensures s.name == "" || s.prefix == "" ==> r == Submitted([], s)
    ensures s.name != "" && s.prefix != "" ==> r == HandleAdd(s, answer)
    ensures |r.sent| > 0 ==> r.sent[0].body.Some? && r.sent[0].body.value.name != ""
  {
    if s.name != "" && s.prefix != "" then HandleAdd(s, answer) else Submitted([], s)
  }

  /** Pressing "Salvar" in the edit modal: the name input is `required`, so
      nothing is sent while it is empty; otherwise `handleEditCategory`
      runs, and any rename it sends is to a non-empty name. */
  function SubmitEdit(s: Screen, answer: Answer): (r: Submitted)
    ensures s.name == "" ==> r == Submitted([], s)
    ensures s.name != "" ==> r == HandleEdit(s, answer)
    ensures |r.sent| > 0 ==> r.sent[0].body.Some? && r.sent[0].body.value.name != ""
  {
    if s.name != "" then HandleEdit(s, answer) else Submitted([], s)
  }

  /** `handleDeleteCategory`: nothing at all without a selection. */
  function HandleDelete(s: Screen, answer: Answer): (r: Submitted)
    ensures s.selected.None? ==> r == Submitted([], s)
    ensures s.selected.Some? ==> r.sent == [DeleteRequest(s).value]
    ensures s.selected.Some? && answer.Ok? ==> r.screen == CloseModal(s)
    ensures s.selected.Some? && answer.NotOk? ==> r.screen.(error := s.error) == s && Truthy(r.screen.error)
  {
    match DeleteRequest(s)
    case None => Submitted([], s)
    case Some(req) => Submitted([req], Settle(s, answer, MsgDeleteFailed))
  }

  /** The error banner above the table, hidden behind every modal. */
  predicate BannerShown(s: Screen) {
    Truthy(s.error) && !s.addOpen && !s.editOpen && !s.deleteOpen
  }

  /** A failed form keeps its modal open and its error inside it: the banner
      stays hidden until the modal is closed, and closing clears the error,
      so the banner never shows a form's failure. The add modal is opened
      with no selection (`openAddModal` leaves it alone and every close
      clears it), so the add clause asks for none; the edit and delete
      handlers send nothing without one. */
  lemma FormFailureNeverReachesBanner(s: Screen, answer: Answer)
    requires s.addOpen || s.editOpen || s.deleteOpen
    requires answer.NotOk?
    ensures s.selected.Some? ==>
              var r := HandleEdit(s, answer).screen;
              Truthy(r.error) && !BannerShown(r) && !BannerShown(CloseModal(r))
    ensures s.selected.Some? ==>
              var r := HandleDelete(s, answer).screen;
              Truthy(r.error) && !BannerShown(r) && !BannerShown(CloseModal(r))
    ensures var r := HandleAdd(s, answer).screen;
            Truthy(r.error) && !BannerShown(r) && !BannerShown(CloseModal(r))
  {
  }

  /** The add modal as the panel reaches it: after any close, the add
      button opens it with nothing selected, and a failed POST then leaves
      its error inside the open modal and out of the banner. */
  lemma AddFailureFromClosedPanelStaysInModal(s: Screen, message: Option<string>)
    ensures var modal := OpenAddModal(CloseModal(s));
            && modal.selected.None? && modal.addOpen
            && var r := HandleAdd(modal, NotOk(message)).screen;
               r.addOpen && r.error == Some(OrElse(message, MsgAddFailed)) && !BannerShown(r)
  {
  }

  // ---------------------------------------------------------------------
  // The answer to the fetch

  /** The reply to GET /api/assets/categories as the screen sees it: a list,
      or a non-2xx status with its status text. */
  datatype FetchReply = Listed(data: seq<Category>) | Refused(status: nat, statusText: string)

  datatype Fetched = Fetched(screen: Screen, logsOut: bool)

  const MsgFetchPrefix: string := "Erro ao buscar categorias: "

  /** A list replaces the categories and clears the error; a refusal keeps
      the old list, shows the status text, and logs out on 401 or 403. */
  function OnFetch(s: Screen, reply: FetchReply): (r: Fetched)
    ensures reply.Listed? ==> r.screen == s.(categories := reply.data, error := None) && !r.logsOut
    ensures reply.Refused? ==> && r.screen == s.(error := Some(MsgFetchPrefix + reply.statusText))
                               && (r.logsOut <==> reply.status == 401 || reply.status == 403)
  {
    match reply
    case Listed(data) => Fetched(s.(categories := data, error := None), false)
    case Refused(status, text) =>
      Fetched(s.(error := Some(MsgFetchPrefix + text)), status == 401 || status == 403)
  }

  /** The Express router of assets.js declares no category route: the list
      request reaches the single-asset handler, which answers 404 because no
      sequence id is "categories", so the panel shows an error and an empty
      list without logging out; add, edit and delete reach no handler. */
  lemma PanelFindsNoBackend(st: AssetRoutes.Store, s: Screen, statusText: string)
    requires AssetStore.Wf(st)
    ensures AssetStore.Dispatch(FetchRequest.verb, FetchRequest.path) == AssetStore.GetOneRoute("categories")
    ensures AssetRoutes.GetOne(st, "categories", AssetRoutes.GetOk) == Http.Failure(404, AssetRoutes.MsgNotFound)
    ensures var f := OnFetch(Mounted, Refused(404, statusText));
            f.screen.categories == [] && f.screen.error == Some(MsgFetchPrefix + statusText) && !f.logsOut
    ensures AssetStore.Dispatch(AddRequest(s).verb, AddRequest(s).path) == AssetStore.NoRoute
    ensures EditRequest(s).Some? ==>
              AssetStore.Dispatch(EditRequest(s).value.verb, EditRequest(s).value.path) == AssetStore.NoRoute
    ensures DeleteRequest(s).Some? ==>
              AssetStore.Dispatch(DeleteRequest(s).value.verb, DeleteRequest(s).value.path) == AssetStore.NoRoute
  {
    AssetStore.CategoryCallsFail(st, "x", AssetRoutes.GetOk);
    if s.selected.Some? {
      AssetStore.CategoryCallsFail(st, IntText(s.selected.value.id), AssetRoutes.GetOk);
    }
  }
}

=== FILE: constants.dfy ===
/** The option lists and the three seed assets of constants.ts, with the
    facts the screens rely on: the lists offer every enum value once, the
    seed ids are ids the server would issue, and every seed history is kept
    oldest first. Seed dates are taken at midnight UTC; timestamps use the
    order-preserving encoding YYYYMMDDhhmm (calendar month, not the
    zero-based month the Date constructor takes). */
module Constants {
  import opened Wrappers
  import opened Sequences
  import opened Types
  import Text
  import AssetIds
  import AssetDetailScreen
  import App
  import ScanScreen

  // ---------------------------------------------------------------------
  // Option lists

  /** `Object.values(AssetStatus)`: the members in declaration order. */
  const AssetStatusOptions: seq<AssetStatus> := [EmOperacao, EmManutencao, ForaDeUso, AguardandoPecas]

  /** `Object.values(HistoryEventType)`. */
  const HistoryEventTypeOptions: seq<HistoryEventType> :=
    [ManutencaoCorretiva, ManutencaoPreventiva, MudancaStatus, MudancaLocalizacao, Observacao]

  /** Each list offers every member exactly once, and the option values the
      select shows are pairwise distinct strings that read back as the
      member they came from. */
  lemma OptionsListEveryValue()
    ensures forall s: AssetStatus :: s in AssetStatusOptions
    ensures forall i, j :: 0 <= i < j < |AssetStatusOptions| ==>
              AssetStatusOptions[i].Value() != AssetStatusOptions[j].Value()
    ensures forall i :: 0 <= i < |AssetStatusOptions| ==>
              StatusFromValue(AssetStatusOptions[i].Value()) == Some(AssetStatusOptions[i])
    ensures forall e: HistoryEventType :: e in HistoryEventTypeOptions
    ensures forall i, j :: 0 <= i < j < |HistoryEventTypeOptions| ==>
              HistoryEventTypeOptions[i].Value() != HistoryEventTypeOptions[j].Value()
    ensures forall i :: 0 <= i < |HistoryEventTypeOptions| ==>
              EventTypeFromValue(HistoryEventTypeOptions[i].Value()) == Some(HistoryEventTypeOptions[i])
  {
    forall s: AssetStatus ensures s in AssetStatusOptions {
      assert s == AssetStatusOptions[0] || s == AssetStatusOptions[1]
          || s == AssetStatusOptions[2] || s == AssetStatusOptions[3];
    }
    forall e: HistoryEventType ensures e in HistoryEventTypeOptions {
      assert e == HistoryEventTypeOptions[0] || e == HistoryEventTypeOptions[1] || e == HistoryEventTypeOptions[2]
          || e == HistoryEventTypeOptions[3] || e == HistoryEventTypeOptions[4];
    }
    forall i | 0 <= i < |AssetStatusOptions| {
      StatusValueRoundTrip(AssetStatusOptions[i]);
    }
    forall i | 0 <= i < |HistoryEventTypeOptions| {
      EventTypeValueRoundTrip(HistoryEventTypeOptions[i]);
    }
  }

  // ---------------------------------------------------------------------
  // INITIAL_ASSETS

  /** A seed record: `id_interno` repeats the id; the optional fields the
      seed leaves out are absent. */
  function Seed(id: string, nome: string, numeroSerie: string, modelo: string, localizacao: string,
                status: AssetStatus, dataAquisicao: string, infoGarantia: string, ultimaAtualizacao: nat,
                historico: seq<HistoryEntry>): Asset
  {
    Asset(id, Some(id), nome, None, numeroSerie, modelo, localizacao, status, dataAquisicao, infoGarantia,
          ultimaAtualizacao, None, historico, None, None, None, None)
  }

  function Entry(id: string, timestamp: nat, tipo: HistoryEventType, descricao: string): HistoryEntry {
    HistoryEntry(id, timestamp, tipo, descricao, None)
  }

  const SeedIds: seq<string> := ["MAKEDIST-MAQ-00123", "MAKEDIST-MAQ-00456", "MAKEDIST-MAQ-00789"]

  const InitialAssets: seq<Asset> := [Seed1, Seed2, Seed3]

  const Seed1: Asset :=
    Seed(SeedIds[0], "Empacotadora Automática XPTO", "SN-XPTO-12345", "XPTO-2023", "Setor A, Linha 1",
         EmOperacao, "2023-01-15T00:00:00.000Z", "Expira em 2025-01-15", 202405010000,
         [Entry("hist1-1", 202302201000, ManutencaoPreventiva, "Lubrificação geral e verificação de sensores."),
          Entry("hist1-2", 202306101430, MudancaLocalizacao, "Movida para Setor A, Linha 1."),
          Entry("hist1-3", 202401050900, Observacao, "Operando normalmente. Nível de ruído ligeiramente elevado.")])

  const Seed2: Asset :=
    Seed(SeedIds[1], "Prensa Hidráulica YZ", "SN-YZ-67890", "YZ-HEAVY-2022", "Setor B, Oficina",
         EmManutencao, "2022-07-01T00:00:00.000Z", "Expirada", 202404200000,
         [Entry("hist2-1", 202309050900, ManutencaoCorretiva, "Falha no cilindro principal. Iniciada desmontagem."),
          Entry("hist2-2", 202309151600, MudancaStatus, "Status alterado para Em Manutenção. Peça solicitada."),
          Entry("hist2-3", 202404201100, Observacao, "Peça recebida. Agendada instalação para próxima semana.")])

  const Seed3: Asset :=
    Seed(SeedIds[2], "Esteira Transportadora ZW", "SN-ZW-11223", "ZW-FAST-2024", "Setor C, Expedição",
         ForaDeUso, "2024-03-10T00:00:00.000Z", "Expira em 2026-03-10", 202405100000,
         [Entry("hist3-1", 202404011100, Observacao, "Detectado ruído estranho no motor. Necessita avaliação."),
          Entry("hist3-2", 202404021100, MudancaStatus, "Status alterado para Fora de Uso para inspeção detalhada."),
          Entry("hist3-3", 202405101500, ManutencaoCorretiva, "Inspeção revelou desalinhamento do eixo. Peças de reposição encomendadas.")])

  /** Every seed id is the id the server formats from the seed's number. */
  lemma SeedIdsAreServerIds()
    ensures InitialAssets[0].id == AssetIds.FormatAssetId(123)
    ensures InitialAssets[1].id == AssetIds.FormatAssetId(456)
    ensures InitialAssets[2].id == AssetIds.FormatAssetId(789)
  {
    FirstSeedId();
    SecondSeedId();
    ThirdSeedId();
  }

  /** The seed ids have the five-digit shape and are pairwise distinct. */
  lemma SeedIdsDistinct()
    ensures forall k :: 0 <= k < |InitialAssets| ==>
              |InitialAssets[k].id| == |AssetIds.IdPrefix| + AssetIds.SuffixWidth
    ensures forall k, l :: 0 <= k < l < |InitialAssets| ==> InitialAssets[k].id != InitialAssets[l].id
  {
  }

  /** Each seed's internal id repeats its id. */
  lemma SeedInternalIds()
    ensures forall k :: 0 <= k < |InitialAssets| ==> InitialAssets[k].id_interno == Some(InitialAssets[k].id)
  {
  }

  lemma FirstSeedId()
    ensures InitialAssets[0].id == AssetIds.FormatAssetId(123)
  {
    assert Text.Decimal(123) == "123" by {
      assert Text.Decimal(1) == "1";
      assert Text.Decimal(12) == "12";
    }
    AssetIds.FormatThreeDigits(123);
    assert InitialAssets[0].id == Seed1.id == SeedIds[0];
  }

  lemma SecondSeedId()
    ensures InitialAssets[1].id == AssetIds.FormatAssetId(456)
  {
    assert Text.Decimal(456) == "456" by {
      assert Text.Decimal(4) == "4";
      assert Text.Decimal(45) == "45";
    }
    AssetIds.FormatThreeDigits(456);
    assert InitialAssets[1].id == Seed2.id == SeedIds[1];
  }

  lemma ThirdSeedId()
    ensures InitialAssets[2].id == AssetIds.FormatAssetId(789)
  {
    assert Text.Decimal(789) == "789" by {
      assert Text.Decimal(7) == "7";
      assert Text.Decimal(78) == "78";
    }
    AssetIds.FormatThreeDigits(789);
    assert InitialAssets[2].id == Seed3.id == SeedIds[2];
  }

  /** Every seed history is listed oldest first, so the detail screen shows
      it back to front. */
  lemma SeedHistoriesShownReversed()
    ensures forall k :: 0 <= k < |InitialAssets| ==>
              AssetDetailScreen.SortedHistory(InitialAssets[k].historico) == Reverse(InitialAssets[k].historico)
  {
    forall k | 0 <= k < |InitialAssets| {
      AssetDetailScreen.OldestFirstShownReversed(InitialAssets[k].historico);
    }
  }

  /** A seed id typed in lower case, with any white space around it, opens
      the seed's page under its own spelling. */
  lemma TypedSeedIdOpensAsset(input: string)
    requires Text.Trim(input) == "makedist-maq-00456"
    ensures ScanScreen.SubmitManual(input) == Some("makedist-maq-00456")
    ensures App.HandleScan(InitialAssets, "makedist-maq-00456") == App.OpenAsset("/asset/" + SeedIds[1])
  {
    SeedIdMatchesTyped();
    var typed := "makedist-maq-00456";
    assert App.FindIgnoringCase(InitialAssets[1..], typed) == Some(0);
    assert App.FindIgnoringCase(InitialAssets, typed) == Some(1);
  }

  lemma SeedIdMatchesTyped()
    ensures Text.ToLower(InitialAssets[0].id) != Text.ToLower("makedist-maq-00456")
    ensures Text.ToLower(InitialAssets[1].id) == Text.ToLower("makedist-maq-00456")
  {
    assert Text.ToLower(SeedIds[0])[15] == '1';
    assert Text.ToLower(SeedIds[1]) == "makedist-maq-00456";
  }
}

=== FILE: http.dfy ===
/** What both routers send back (backend/server.js mounts them and installs
    the error handler every `next(err)` reaches). */
module Http {
  /** An HTTP reply: a status with a JSON body, or a status with `{message}`. */
  datatype Reply<T> = Success(status: nat, value: T) | Failure(status: nat, message: string)

  /** The error handler's fallback text; any store or library error becomes a
      500 carrying a message. */
  const MsgInternal: string := "Ocorreu um erro interno no servidor!"
}

=== FILE: scan_screen.dfy ===
/** The scan screen (components/screens/ScanScreen.tsx): what reaches the
    `onScan` callback from the manual form and from the camera, and the text
    shown when the camera cannot be opened. */
module ScanScreen {
  import opened Wrappers
  import opened Text

  /** The id handed to `onScan` by the manual form, if any: the trimmed input,
      and nothing at all for a blank input. */
  function SubmitManual(input: string): (r: Option<string>)
    ensures r.None? <==> AllSpace(input)
    ensures r.Some? ==> r.value == Trim(input) && r.value != ""
    ensures r.Some? ==> !IsSpace(r.value[0]) && !IsSpace(r.value[|r.value| - 1])
  {
    TrimEmptyIffAllSpace(input);
    var t := Trim(input);
    if t != "" then Some(t) else None
  }

  /** Submitting what was submitted again hands over the same id. */
  lemma SubmitManualStable(input: string)
    requires SubmitManual(input).Some?
    ensures SubmitManual(SubmitManual(input).value) == SubmitManual(input)
  {
    TrimIdempotent(input);
  }

  /** The two sources of a scan. */
  datatype ScanSource = Manual(text: string) | Camera(decoded: string)

  /** The camera's decoded text goes to `onScan` as it is, blank or padded;
      only the manual form trims. */
  function ScanRequest(src: ScanSource): (r: Option<string>)
    ensures src.Camera? ==> r == Some(src.decoded)
    ensures src.Manual? ==> r == SubmitManual(src.text)
  {
    match src
    case Manual(t) => SubmitManual(t)
    case Camera(d) => Some(d)
  }

  /** A padded id from the camera stays padded, the same text typed in does
      not. */
  lemma CameraDoesNotTrim()
    ensures ScanRequest(Camera(" X")) == Some(" X")
    ensures ScanRequest(Manual(" X")) == Some("X")
  {
    var padded := " X";
    assert IsSpace(padded[0]) && padded[1..] == "X";
    assert TrimStart("X") == "X";
    assert TrimStart(padded) == "X";
    assert TrimEnd("X") == "X";
    assert Trim(padded) == "X";
    assert !AllSpace(padded);
  }

  const MsgGenericCamera: string := "Ocorreu um erro ao tentar aceder à câmara."
  const MsgNotAllowed: string := "Permissão para aceder à câmara foi negada. Por favor, habilite a permissão nas configurações do seu navegador."
  const MsgNotFound: string := "Nenhuma câmara encontrada no dispositivo."
  const MsgNotReadable: string := "A câmara está a ser utilizada por outra aplicação ou o sistema operativo impediu o acesso."
  const HttpsHint: string := " Certifique-se de que está a aceder via HTTPS ou localhost."

  /** The message for the `name` of the camera error (absent when the error
      has no name), always followed by the HTTPS hint. */
  function CameraErrorMessage(name: Option<string>): (r: string)
    ensures |r| > |HttpsHint| && r[|r| - |HttpsHint|..] == HttpsHint
    ensures name == Some("NotAllowedError") ==> r == MsgNotAllowed + HttpsHint
    ensures name == Some("NotFoundError") ==> r == MsgNotFound + HttpsHint
    ensures name == Some("NotReadableError") ==> r == MsgNotReadable + HttpsHint
    ensures name !in {Some("NotAllowedError"), Some("NotFoundError"), Some("NotReadableError")} ==>
              r == MsgGenericCamera + HttpsHint
  {
    var message :=
      if name == Some("NotAllowedError") then MsgNotAllowed
      else if name == Some("NotFoundError") then MsgNotFound
      else if name == Some("NotReadableError") then MsgNotReadable
      else MsgGenericCamera;
    message + HttpsHint
  }

  /** The four messages differ, so the text tells which case occurred. */
  lemma CameraMessagesDistinct(a: Option<string>, b: Option<string>)
    requires CameraErrorMessage(a) == CameraErrorMessage(b)
    requires a in {Some("NotAllowedError"), Some("NotFoundError"), Some("NotReadableError")}
    ensures a == b
  {
    var r := CameraErrorMessage(a);
    assert r[..|r| - |HttpsHint|] == CameraErrorMessage(b)[..|r| - |HttpsHint|];
  }
}

=== FILE: sequences.dfy ===
/** Sequence helpers: an order-preserving filter (`Array.prototype.filter`,
    SQL `WHERE`), a stable insertion sort under any comparison (the shape of
    both `Array.prototype.sort` with a comparator and SQL `ORDER BY`), and the
    code-point lexicographic order on strings. */
module Sequences {

  // ---------------------------------------------------------------------
  // Filtering

  /** `r` can be obtained from `s` by deleting elements, keeping the order. */
  ghost predicate SubsequenceOf<T>(r: seq<T>, s: seq<T>)
    decreases |s|
  {
    if |r| == 0 then true
    else if |s| == 0 then false
    else (r[0] == s[0] && SubsequenceOf(r[1..], s[1..])) || SubsequenceOf(r, s[1..])
  }

  /** The elements of `s` satisfying `p`, in their order in `s`, each kept as
      many times as it occurs. */
  function Filter<T(!new)>(s: seq<T>, p: T -> bool): (r: seq<T>)
    ensures |r| <= |s|
    ensures forall i :: 0 <= i < |r| ==> p(r[i])
    ensures forall x :: multiset(r)[x] == if p(x) then multiset(s)[x] else 0
    ensures SubsequenceOf(r, s)
    decreases |s|
  {
    if |s| == 0 then []
    else
      assert s == [s[0]] + s[1..];
      var rest := Filter(s[1..], p);
      if p(s[0]) then
        assert ([s[0]] + rest)[1..] == rest;
        [s[0]] + rest
      else
        rest
  }

  /** An element is in the filtered sequence exactly when it is in the
      original and satisfies the predicate. */
  lemma FilterMember<T(!new)>(s: seq<T>, p: T -> bool, x: T)
    ensures x in Filter(s, p) <==> x in s && p(x)
  {
    var r := Filter(s, p);
    assert x in r <==> multiset(r)[x] > 0;
    assert x in s <==> multiset(s)[x] > 0;
  }

  /** Filtering distributes over concatenation. */
  lemma {:induction false} FilterAppend<T(!new)>(s: seq<T>, t: seq<T>, p: T -> bool)
    ensures Filter(s + t, p) == Filter(s, p) + Filter(t, p)
    decreases |s|
  {
    if |s| == 0 {
      assert s + t == t;
    } else {
      assert (s + t)[1..] == s[1..] + t;
      FilterAppend(s[1..], t, p);
    }
  }

  /** A filter that keeps every element keeps the sequence. */
  lemma {:induction false} FilterAll<T(!new)>(s: seq<T>, p: T -> bool)
    requires forall i :: 0 <= i < |s| ==> p(s[i])
    ensures Filter(s, p) == s
    decreases |s|
  {
    if |s| > 0 {
      FilterAll(s[1..], p);
      assert s == [s[0]] + s[1..];
    }
  }

  /** Filters that agree on the elements of `s` select the same elements. */
  lemma {:induction false} FilterCongruent<T(!new)>(s: seq<T>, p: T -> bool, q: T -> bool)
    requires forall i :: 0 <= i < |s| ==> p(s[i]) == q(s[i])
    ensures Filter(s, p) == Filter(s, q)
    decreases |s|
  {
    if |s| > 0 {
      FilterCongruent(s[1..], p, q);
    }
  }

  lemma {:induction false} SubsequenceOfSelf<T>(s: seq<T>)
    ensures SubsequenceOf(s, s)
    decreases |s|
  {
    if |s| > 0 {
      SubsequenceOfSelf(s[1..]);
    }
  }

  /** `le` relates every two elements one way or the other. */
  ghost predicate Total<T(!new)>(le: (T, T) -> bool) {
    forall x, y :: le(x, y) || le(y, x)
  }

  ghost predicate Transitive<T(!new)>(le: (T, T) -> bool) {
    forall x, y, z :: le(x, y) && le(y, z) ==> le(x, z)
  }

  /** Every element is `le` every later element. */
  ghost predicate SortedBy<T>(s: seq<T>, le: (T, T) -> bool) {
    forall i, j :: 0 <= i < j < |s| ==> le(s[i], s[j])
  }

  /** Inserts `x` in front of the first element it is `le`. */
  function Insert<T(!new)>(x: T, s: seq<T>, le: (T, T) -> bool): (r: seq<T>)
    ensures multiset(r) == multiset(s) + multiset{x}
    ensures |r| == |s| + 1
    decreases |s|
  {
    if |s| == 0 then [x]
    else if le(x, s[0]) then [x] + s
    else
      assert s == [s[0]] + s[1..];
      [s[0]] + Insert(x, s[1..], le)
  }

  /** Inserting into a sorted sequence under a total preorder keeps it sorted. */
  lemma {:induction false} InsertSorted<T(!new)>(x: T, s: seq<T>, le: (T, T) -> bool)
    requires Total(le) && Transitive(le) && SortedBy(s, le)
    ensures SortedBy(Insert(x, s, le), le)
    decreases |s|
  {
    if |s| > 0 && !le(x, s[0]) {
      var rest := Insert(x, s[1..], le);
      InsertSorted(x, s[1..], le);
      assert le(s[0], x);
      forall k | 0 <= k < |rest| ensures le(s[0], rest[k]) {
        assert rest[k] in multiset(rest);
        if rest[k] != x {
          assert rest[k] in multiset(s[1..]);
          var j :| 0 <= j < |s[1..]| && s[1..][j] == rest[k];
          assert s[j + 1] == rest[k];
        }
      }
      var r := [s[0]] + rest;
      forall i, j | 0 <= i < j < |r| ensures le(r[i], r[j]) {
        if i > 0 {
          assert r[i] == rest[i - 1] && r[j] == rest[j - 1];
        }
      }
    } else if |s| > 0 {
      forall j | 0 <= j < |s| ensures le(x, s[j]) {
        if j > 0 {
          assert le(s[0], s[j]);
        }
      }
    }
  }

  /** Insertion sort: the result is a permutation of `s`, sorted whenever
      `le` is a total preorder. */
  function SortBy<T(!new)>(s: seq<T>, le: (T, T) -> bool): (r: seq<T>)
    ensures multiset(r) == multiset(s)
    ensures |r| == |s|
    ensures Total(le) && Transitive(le) ==> SortedBy(r, le)
    decreases |s|
  {
    if |s| == 0 then []
    else
      assert s == [s[0]] + s[1..];
      var rest := SortBy(s[1..], le);
      InsertSortedWhenOrdered(s[0], rest, le);
      Insert(s[0], rest, le)
  }

  lemma InsertSortedWhenOrdered<T(!new)>(x: T, s: seq<T>, le: (T, T) -> bool)
    requires Total(le) && Transitive(le) ==> SortedBy(s, le)
    ensures Total(le) && Transitive(le) ==> SortedBy(Insert(x, s, le), le)
  {
    if Total(le) && Transitive(le) {
      InsertSorted(x, s, le);
    }
  }

  /** `s` back to front. */
  function Reverse<T>(s: seq<T>): (r: seq<T>)
    ensures |r| == |s|
    ensures forall i :: 0 <= i < |s| ==> r[i] == s[|s| - 1 - i]
  {
    seq(|s|, i requires 0 <= i < |s| => s[|s| - 1 - i])
  }

  /** An element that is `le` no element of `s` is inserted at the end. */
  lemma {:induction false} InsertLast<T(!new)>(x: T, s: seq<T>, le: (T, T) -> bool)
    requires forall i :: 0 <= i < |s| ==> !le(x, s[i])
    ensures Insert(x, s, le) == s + [x]
    decreases |s|
  {
    if |s| > 0 {
      InsertLast(x, s[1..], le);
      assert s == [s[0]] + s[1..];
    }
  }

  /** Sorting a sequence in which no element is `le` a later one reverses it. */
  lemma {:induction false} SortByReversesAntiSorted<T(!new)>(s: seq<T>, le: (T, T) -> bool)
    requires forall i, j :: 0 <= i < j < |s| ==> !le(s[i], s[j])
    ensures SortBy(s, le) == Reverse(s)
    decreases |s|
  {
    if |s| > 0 {
      var tail := s[1..];
      forall i, j | 0 <= i < j < |tail| ensures !le(tail[i], tail[j]) {
        assert tail[i] == s[i + 1] && tail[j] == s[j + 1];
      }
      SortByReversesAntiSorted(tail, le);
      FirstAfterReversedTail(s, le);
    }
  }

  /** The step of the proof above: the head goes behind the reversed tail. */
  lemma FirstAfterReversedTail<T(!new)>(s: seq<T>, le: (T, T) -> bool)
    requires |s| > 0
    requires forall j :: 0 < j < |s| ==> !le(s[0], s[j])
    ensures Insert(s[0], Reverse(s[1..]), le) == Reverse(s)
  {
    var rest := Reverse(s[1..]);
    forall i | 0 <= i < |rest| ensures !le(s[0], rest[i]) {
      assert rest[i] == s[|s| - 1 - i];
    }
    InsertLast(s[0], rest, le);
    assert rest + [s[0]] == Reverse(s);
  }

  // ---------------------------------------------------------------------
  // Lexicographic order on strings by code point. `ORDER BY id` follows the
  // database's collation; every collation agrees with this order on ids that
  // share a prefix and have digit suffixes of equal length, which is what the
  // generated ids are.

  /** `a` sorts before or equal to `b`, comparing code points left to right,
      a proper prefix sorting first. */
  predicate LexLe(a: string, b: string)
    decreases |a|
  {
    |a| == 0 || (|b| > 0 && (a[0] < b[0] || (a[0] == b[0] && LexLe(a[1..], b[1..]))))
  }

  lemma {:induction false} LexLeTotal(a: string, b: string)
    ensures LexLe(a, b) || LexLe(b, a)
    decreases |a|
  {
    if |a| > 0 && |b| > 0 && a[0] == b[0] {
      LexLeTotal(a[1..], b[1..]);
    }
  }

  lemma {:induction false} LexLeTransitive(a: string, b: string, c: string)
    requires LexLe(a, b) && LexLe(b, c)
    ensures LexLe(a, c)
    decreases |a|
  {
    if |a| > 0 && a[0] == b[0] && b[0] == c[0] {
      LexLeTransitive(a[1..], b[1..], c[1..]);
    }
  }

  lemma {:induction false} LexLeAntisymmetric(a: string, b: string)
    requires LexLe(a, b) && LexLe(b, a)
    ensures a == b
    decreases |a|
  {
    if |a| > 0 {
      LexLeAntisymmetric(a[1..], b[1..]);
      assert a == [a[0]] + a[1..];
      assert b == [b[0]] + b[1..];
    }
  }

  /** Two strings that share a prefix compare as their remainders do. */
  lemma {:induction false} LexLeCommonPrefix(p: string, a: string, b: string)
    ensures LexLe(p + a, p + b) <==> LexLe(a, b)
    decreases |p|
  {
    if |p| > 0 {
      assert (p + a)[1..] == p[1..] + a;
      assert (p + b)[1..] == p[1..] + b;
      LexLeCommonPrefix(p[1..], a, b);
    } else {
      assert p + a == a && p + b == b;
    }
  }
}

=== FILE: text.dfy ===
/** String helpers with the semantics of the JavaScript built-ins the source
    calls: `toLowerCase`/`toUpperCase` (ASCII letters only), `trim`,
    `includes`, `split` on one character, `String(n)` and `padStart`. */
module Text {

  // ---------------------------------------------------------------------
  // ASCII case mapping

  function LowerChar(c: char): (r: char)
    ensures 'A' <= c <= 'Z' ==> r as int == c as int + 32
    ensures !('A' <= c <= 'Z') ==> r == c
  {
    if 'A' <= c <= 'Z' then (c as int + 32) as char else c
  }

  function UpperChar(c: char): (r: char)
    ensures 'a' <= c <= 'z' ==> r as int == c as int - 32
    ensures !('a' <= c <= 'z') ==> r == c
  {
    if 'a' <= c <= 'z' then (c as int - 32) as char else c
  }

  function ToLower(s: string): (r: string)
    ensures |r| == |s|
    ensures forall i :: 0 <= i < |s| ==> r[i] == LowerChar(s[i])
  {
    seq(|s|, i requires 0 <= i < |s| => LowerChar(s[i]))
  }

  function ToUpper(s: string): (r: string)
    ensures |r| == |s|
    ensures forall i :: 0 <= i < |s| ==> r[i] == UpperChar(s[i])
  {
    seq(|s|, i requires 0 <= i < |s| => UpperChar(s[i]))
  }

  /** Text without upper-case ASCII letters is its own lower-case form. */
  lemma ToLowerOfLowerCase(s: string)
    requires forall i :: 0 <= i < |s| ==> !('A' <= s[i] <= 'Z')
    ensures ToLower(s) == s
  {
  }

  /** Lower-casing twice is lower-casing once. */
  lemma ToLowerIdempotent(s: string)
    ensures ToLower(ToLower(s)) == ToLower(s)
  {
  }

  // ---------------------------------------------------------------------
  // Whitespace and trim (ECMAScript WhiteSpace and LineTerminator)

  predicate IsSpace(c: char) {
    || c == '\t' || c == '\n' || c == '\U{000B}' || c == '\U{000C}' || c == '\r'
    || c == ' ' || c == '\U{00A0}' || c == '\U{1680}' || ('\U{2000}' <= c <= '\U{200A}')
    || c == '\U{2028}' || c == '\U{2029}' || c == '\U{202F}' || c == '\U{205F}'
    || c == '\U{3000}' || c == '\U{FEFF}'
  }

  predicate AllSpace(s: string) {
    forall i :: 0 <= i < |s| ==> IsSpace(s[i])
  }

  /** `s` with its leading white space removed. */
  function TrimStart(s: string): (r: string)
    ensures |r| <= |s| && r == s[|s| - |r|..]
    ensures AllSpace(s[..|s| - |r|])
    ensures |r| > 0 ==> !IsSpace(r[0])
    decreases |s|
  {
    if |s| > 0 && IsSpace(s[0]) then TrimStart(s[1..]) else s
  }

  /** `s` with its trailing white space removed. */
  function TrimEnd(s: string): (r: string)
    ensures |r| <= |s| && r == s[..|r|]
    ensures AllSpace(s[|r|..])
    ensures |r| > 0 ==> !IsSpace(r[|r| - 1])
    decreases |s|
  {
    if |s| > 0 && IsSpace(s[|s| - 1]) then TrimEnd(s[..|s| - 1]) else s
  }

  /** `r` is what is left of `s` once the white space before index `a` and
      after index `a + |r|` is cut away. */
  ghost predicate TrimmedAt(s: string, r: string, a: int) {
    && 0 <= a <= |s| - |r|
    && r == s[a..a + |r|]
    && AllSpace(s[..a])
    && AllSpace(s[a + |r|..])
  }

  /** `String.prototype.trim`: the infix of `s` that neither starts nor ends
      with white space, everything cut away being white space. */
  function Trim(s: string): (r: string)
    ensures |r| > 0 ==> !IsSpace(r[0]) && !IsSpace(r[|r| - 1])
    ensures TrimmedAt(s, r, |s| - |TrimStart(s)|)
  {
    var t := TrimStart(s);
    TrimParts(s, t, TrimEnd(t));
    TrimEnd(t)
  }

  lemma TrimParts(s: string, t: string, r: string)
    requires |t| <= |s| && t == s[|s| - |t|..] && AllSpace(s[..|s| - |t|])
    requires |r| <= |t| && r == t[..|r|] && AllSpace(t[|r|..])
    ensures TrimmedAt(s, r, |s| - |t|)
  {
    var a := |s| - |t|;
    assert s[a..a + |r|] == t[..|r|];
    assert s[a + |r|..] == t[|r|..];
  }

  /** Trimming yields the empty string exactly when the input is all white space. */
  lemma TrimEmptyIffAllSpace(s: string)
    ensures Trim(s) == "" <==> AllSpace(s)
  {
    var r := Trim(s);
    var a := |s| - |TrimStart(s)|;
    assert TrimmedAt(s, r, a);
    if r == "" {
      forall i | 0 <= i < |s| ensures IsSpace(s[i]) {
        assert s[..a][i] == s[i];
      }
    } else {
      assert s[a] == r[0];
    }
  }

  /** Trimming an already trimmed string changes nothing. */
  lemma TrimIdempotent(s: string)
    ensures Trim(Trim(s)) == Trim(s)
  {
    var r := Trim(s);
    if |r| > 0 {
      assert TrimStart(r) == r;
      assert TrimEnd(r) == r;
    }
  }

  // ---------------------------------------------------------------------
  // Substring search

  /** `t` occurs in `s` starting at index `i`. */
  ghost predicate OccursAt(s: string, t: string, i: int) {
    0 <= i && i + |t| <= |s| && s[i..i + |t|] == t
  }

  /** `String.prototype.includes`. */
  function Includes(s: string, t: string): (r: bool)
    ensures r <==> exists i :: OccursAt(s, t, i)
    decreases |s|
  {
    if t <= s then
      assert OccursAt(s, t, 0);
      true
    else if |s| == 0 then
      false
    else
      IncludesShift(s, t);
      Includes(s[1..], t)
  }

  /** When `t` is not a prefix of `s`, its occurrences in `s` are those in `s[1..]`. */
  lemma IncludesShift(s: string, t: string)
    requires |s| > 0 && !(t <= s)
    ensures (exists i :: OccursAt(s, t, i)) <==> (exists i :: OccursAt(s[1..], t, i))
  {
    if i :| OccursAt(s, t, i) {
      if i > 0 {
        assert OccursAt(s[1..], t, i - 1);
      }
    }
    if i :| OccursAt(s[1..], t, i) {
      assert OccursAt(s, t, i + 1);
    }
  }

  /** Every string contains the empty string. */
  lemma IncludesEmpty(s: string)
    ensures Includes(s, "")
  {
    assert OccursAt(s, "", 0);
  }

  // ---------------------------------------------------------------------
  // Splitting on one character

  /** Index of the first `c` in `s`, or `|s|` when there is none. */
  function IndexOf(s: string, c: char): (r: nat)
    ensures r <= |s|
    ensures c !in s[..r]
    ensures r < |s| ==> s[r] == c
    ensures r == |s| <==> c !in s
    decreases |s|
  {
    if |s| == 0 then 0
    else if s[0] == c then 0
    else
      var k := IndexOf(s[1..], c);
      assert s[..k + 1] == [s[0]] + s[1..][..k];
      k + 1
  }

  /** The inverse of `Split`: the fields glued back with the separator. */
  function Join(fields: seq<string>, sep: char): string
    requires |fields| >= 1
  {
    if |fields| == 1 then fields[0] else fields[0] + [sep] + Join(fields[1..], sep)
  }

  /** `s.split(sep)` for a one-character separator: the maximal `sep`-free
      fields of `s`, which is never an empty list (`"".split(" ")` is `[""]`). */
  function Split(s: string, sep: char): (r: seq<string>)
    ensures |r| >= 1
    ensures forall i :: 0 <= i < |r| ==> sep !in r[i]
    ensures Join(r, sep) == s
    decreases |s|
  {
    var i := IndexOf(s, sep);
    if i == |s| then
      [s]
    else
      var rest := Split(s[i + 1..], sep);
      var r := [s[..i]] + rest;
      assert r[1..] == rest;
      assert s == s[..i] + [sep] + s[i + 1..];
      r
  }

  /** Splitting is determined by joining: any list of `sep`-free fields that
      joins to `s` is `Split(s, sep)`. */
  lemma {:induction false} SplitUnique(fields: seq<string>, sep: char)
    requires |fields| >= 1
    requires forall i :: 0 <= i < |fields| ==> sep !in fields[i]
    ensures Split(Join(fields, sep), sep) == fields
    decreases |fields|
  {
    var s := Join(fields, sep);
    if |fields| == 1 {
      assert IndexOf(s, sep) == |s|;
    } else {
      var tail := Join(fields[1..], sep);
      assert s == fields[0] + [sep] + tail;
      var k := |fields[0]|;
      assert s[..k] == fields[0];
      assert s[k] == sep;
      assert IndexOf(s, sep) == k;
      assert s[k + 1..] == tail;
      SplitUnique(fields[1..], sep);
      assert Split(s, sep) == [fields[0]] + fields[1..];
    }
  }

  /** `s.split(c)[0]`: the part of `s` before the first `c`. */
  function BeforeFirst(s: string, c: char): (r: string)
    ensures |r| <= |s| && r == s[..|r|]
    ensures c !in r
    ensures |r| < |s| ==> s[|r|] == c
    ensures c !in s ==> r == s
  {
    s[..IndexOf(s, c)]
  }

  lemma BeforeFirstIsFirstField(s: string, c: char)
    ensures BeforeFirst(s, c) == Split(s, c)[0]
  {
    var r := Split(s, c);
    if |r| > 1 {
      assert Join(r, c) == r[0] + [c] + Join(r[1..], c);
      assert s[..|r[0]|] == r[0];
      assert IndexOf(s, c) == |r[0]|;
    } else {
      assert s == r[0];
    }
  }

  // ---------------------------------------------------------------------
  // Decimal numerals and padding

  predicate IsDigit(c: char) {
    '0' <= c <= '9'
  }

  predicate AllDigits(s: string) {
    forall i :: 0 <= i < |s| ==> IsDigit(s[i])
  }

  function DigitChar(d: nat): (c: char)
    requires d < 10
    ensures IsDigit(c)
  {
    ('0' as int + d) as char
  }

  /** The value of a string of decimal digits, leading zeros allowed. */
  function DecimalValue(s: string): nat
    requires AllDigits(s)
    decreases |s|
  {
    if |s| == 0 then 0
    else DecimalValue(s[..|s| - 1]) * 10 + (s[|s| - 1] as int - '0' as int)
  }

  /** `String(n)`: the decimal numeral of `n`, without leading zeros. */
  function Decimal(n: nat): (s: string)
    ensures |s| >= 1 && AllDigits(s)
    ensures DecimalValue(s) == n
    ensures |s| > 1 ==> s[0] != '0'
  {
    if n < 10 then [DigitChar(n)]
    else
      var s := Decimal(n / 10) + [DigitChar(n % 10)];
      assert s[..|s| - 1] == Decimal(n / 10);
      s
  }

  /** `String(n)` for any integer: a minus sign before the numeral of a
      negative number. */
  function IntText(n: int): (r: string)
    ensures r != ""
    ensures n >= 0 ==> r == Decimal(n)
    ensures n < 0 ==> r == "-" + Decimal(-n)
  {
    if n >= 0 then Decimal(n) else "-" + Decimal(-n)
  }

  /** The numeral has at most `k` digits exactly when `n < 10^k`. */
  lemma {:induction false} DecimalLength(n: nat, k: nat)
    requires k >= 1
    ensures |Decimal(n)| <= k <==> n < Pow10(k)
    decreases k
  {
    if n < 10 {
      Pow10AtLeastTen(k);
    } else if k == 1 {
      assert |Decimal(n)| == |Decimal(n / 10)| + 1;
    } else {
      DecimalLength(n / 10, k - 1);
    }
  }

  lemma {:induction false} Pow10AtLeastTen(k: nat)
    requires k >= 1
    ensures Pow10(k) >= 10
    decreases k
  {
    if k > 1 {
      Pow10AtLeastTen(k - 1);
    }
  }

  function Pow10(k: nat): (r: nat)
    ensures r >= 1
  {
    if k == 0 then 1 else 10 * Pow10(k - 1)
  }

  function Repeat(c: char, k: nat): (r: string)
    ensures |r| == k
    ensures forall i :: 0 <= i < k ==> r[i] == c
  {
    seq(k, i => c)
  }

  /** `s.padStart(width, c)`: `s` preceded by as many `c` as are needed to reach
      `width` characters; a longer `s` is returned whole, never truncated. */
  function PadStart(s: string, width: nat, c: char): (r: string)
    ensures |r| == if |s| >= width then |s| else width
    ensures r[|r| - |s|..] == s
    ensures forall i :: 0 <= i < |r| - |s| ==> r[i] == c
  {
    if |s| >= width then s else Repeat(c, width - |s|) + s
  }

  /** Leading zeros do not change a numeral's value. */
  lemma {:induction false} LeadingZeros(z: string, s: string)
    requires forall i :: 0 <= i < |z| ==> z[i] == '0'
    requires AllDigits(s)
    ensures AllDigits(z + s)
    ensures DecimalValue(z + s) == DecimalValue(s)
    decreases |s|
  {
    if |s| == 0 {
      ZerosAreZero(z);
      assert z + s == z;
    } else {
      var zs := z + s;
      assert zs[..|zs| - 1] == z + s[..|s| - 1];
      LeadingZeros(z, s[..|s| - 1]);
    }
  }

  lemma {:induction false} ZerosAreZero(z: string)
    requires forall i :: 0 <= i < |z| ==> z[i] == '0'
    ensures AllDigits(z)
    ensures DecimalValue(z) == 0
    decreases |z|
  {
    if |z| > 0 {
      ZerosAreZero(z[..|z| - 1]);
    }
  }
}

=== FILE: types.dfy ===
/** The enums and records shared by the screens (types.ts). Timestamps are
    modelled as naturals (milliseconds or any order-preserving encoding); the
    acquisition date stays a string because the form cuts it at 'T'. */
module Types {
  import opened Wrappers

  /** `AssetStatus`: a string enum with four members. */
  datatype AssetStatus = EmOperacao | EmManutencao | ForaDeUso | AguardandoPecas {

    /** The string the enum member stands for at run time. */
    function Value(): (v: string)
      ensures v != ""
    {
      match this
      case EmOperacao => "Em Operação"
      case EmManutencao => "Em Manutencao"
      case ForaDeUso => "Fora de Uso"
      case AguardandoPecas => "Aguardando Pecas"
    }
  }

  /** The member whose value is `v`, if any (the inverse of `Value`). */
  function StatusFromValue(v: string): (r: Option<AssetStatus>)
    ensures r.Some? ==> r.value.Value() == v
  {
    if v == "Em Operação" then Some(EmOperacao)
    else if v == "Em Manutencao" then Some(EmManutencao)
    else if v == "Fora de Uso" then Some(ForaDeUso)
    else if v == "Aguardando Pecas" then Some(AguardandoPecas)
    else None
  }

  /** Reading a status back from its value gives the status: values are
      pairwise distinct, so the enum and its strings are in bijection. */
  lemma StatusValueRoundTrip(s: AssetStatus)
    ensures StatusFromValue(s.Value()) == Some(s)
  {
  }

  lemma StatusValueInjective(s: AssetStatus, t: AssetStatus)
    ensures s.Value() == t.Value() ==> s == t
  {
    StatusValueRoundTrip(s);
    StatusValueRoundTrip(t);
  }

  /** `HistoryEventType`: a string enum with five members. */
  datatype HistoryEventType =
    | ManutencaoCorretiva
    | ManutencaoPreventiva
    | MudancaStatus
    | MudancaLocalizacao
    | Observacao
  {
    function Value(): (v: string)
      ensures v != ""
    {
      match this
      case ManutencaoCorretiva => "Manutencao Corretiva"
      case ManutencaoPreventiva => "Manutencao Preventiva"
      case MudancaStatus => "Mudanca Status"
      case MudancaLocalizacao => "Mudanca Localizacao"
      case Observacao => "Observacao"
    }
  }

  function EventTypeFromValue(v: string): (r: Option<HistoryEventType>)
    ensures r.Some? ==> r.value.Value() == v
  {
    if v == "Manutencao Corretiva" then Some(ManutencaoCorretiva)
    else if v == "Manutencao Preventiva" then Some(ManutencaoPreventiva)
    else if v == "Mudanca Status" then Some(MudancaStatus)
    else if v == "Mudanca Localizacao" then Some(MudancaLocalizacao)
    else if v == "Observacao" then Some(Observacao)
    else None
  }

  lemma EventTypeValueRoundTrip(e: HistoryEventType)
    ensures EventTypeFromValue(e.Value()) == Some(e)
  {
  }

  lemma EventTypeValueInjective(e: HistoryEventType, f: HistoryEventType)
    ensures e.Value() == f.Value() ==> e == f
  {
    EventTypeValueRoundTrip(e);
    EventTypeValueRoundTrip(f);
  }

  /** `Category`: a numeric id, a name and an identifier prefix. */
  datatype Category = Category(id: int, name: string, prefix: string)

  /** `HistoryEntry`: only `responsavel` is optional. */
  datatype HistoryEntry = HistoryEntry(
    id: string,
    timestamp: nat,
    tipo_evento: HistoryEventType,
    descricao: string,
    responsavel: Option<string>)

  /** `Asset`. `id_interno` is not declared by the interface but the seed data
      and the detail screen carry it, so it is kept, optional. */
  datatype Asset = Asset(
    id: string,
    id_interno: Option<string>,
    nome: string,
    descricao: Option<string>,
    numero_serie: string,
    modelo: string,
    localizacao: string,
    status: AssetStatus,
    data_aquisicao: string,
    info_garantia: string,
    ultima_atualizacao: nat,
    atualizado_por: Option<string>,
    historico: seq<HistoryEntry>,
    utilizador: Option<string>,
    category_id: Option<int>,
    category_name: Option<string>,
    category_prefix: Option<string>)

  /** The signed-in user as the client keeps it (the login reply's `user`). */
  datatype User = User(id: int, username: string, role: string)
}

=== FILE: user_management.dfy ===
/** The user administration panel
    (components/features/UserManagement.tsx): the three modals and the
    fields they reset, the guards that keep an administrator from deleting
    or demoting themselves, the requests each form sends and in which
    order, and how those requests meet the routes that
    backend/routes/auth.js declares. The answers of the server are
    parameters. */
module UserManagement {
  import opened Wrappers
  import opened Text
  import opened Types
  import AuthRoutes
  import Http

  // ---------------------------------------------------------------------
  // Panel state

  datatype Panel = Panel(
    users: seq<User>,
    error: Option<string>,
    editOpen: bool,
    deleteOpen: bool,
    addOpen: bool,
    selected: Option<User>,
    editUsername: string,
    editRole: string,
    editNewPassword: string,
    editConfirmPassword: string,
    addUsername: string,
    addPassword: string,
    addConfirmPassword: string,
    addRole: string)

  const DefaultRole: string := "user"

  /** The state on mount: both role fields start at "user". */
  const Mounted: Panel := Panel([], None, false, false, false, None, "", DefaultRole, "", "", "", "", "", DefaultRole)

  /** `openEditModal`: the user selected, its name and role loaded, both
      password fields emptied. */
  function OpenEditModal(p: Panel, u: User): (r: Panel)
    ensures r.editOpen && r.selected == Some(u)
    ensures r.editUsername == u.username && r.editRole == u.role
    ensures r.editNewPassword == "" && r.editConfirmPassword == ""
    ensures r.users == p.users && r.error == p.error && r.addOpen == p.addOpen && r.deleteOpen == p.deleteOpen
  {
    p.(selected := Some(u), editUsername := u.username, editRole := u.role,
       editNewPassword := "", editConfirmPassword := "", editOpen := true)
  }

  /** `openDeleteModal`: the user selected and the delete modal open. */
  function OpenDeleteModal(p: Panel, u: User): (r: Panel)
    ensures r.deleteOpen && r.selected == Some(u)
    ensures r.(deleteOpen := p.deleteOpen, selected := p.selected) == p
  {
    p.(selected := Some(u), deleteOpen := true)
  }

  /** `openAddModal`: the add fields emptied and the role back to "user". */
  function OpenAddModal(p: Panel): (r: Panel)
    ensures r.addOpen && r.addUsername == "" && r.addPassword == "" && r.addConfirmPassword == ""
    ensures r.addRole == DefaultRole
    ensures r.(addOpen := p.addOpen, addUsername := p.addUsername, addPassword := p.addPassword,
               addConfirmPassword := p.addConfirmPassword, addRole := p.addRole) == p
  {
    p.(addUsername := "", addPassword := "", addConfirmPassword := "", addRole := DefaultRole, addOpen := true)
  }

  /** `closeModal`: every modal closed, the selection and the error cleared. */
  function CloseModal(p: Panel): (r: Panel)
    ensures !r.editOpen && !r.deleteOpen && !r.addOpen
    ensures r.selected.None? && r.error.None?
    ensures r.(editOpen := p.editOpen, deleteOpen := p.deleteOpen, addOpen := p.addOpen,
               selected := p.selected, error := p.error) == p
  {
    p.(editOpen := false, deleteOpen := false, addOpen := false, selected := None, error := None)
  }

  /** The error banner above the table; it is hidden behind the add and edit
      modals but not behind the delete modal. */
  predicate BannerShown(p: Panel) {
    Truthy(p.error) && !p.addOpen && !p.editOpen
  }

  // ---------------------------------------------------------------------
  // Self-protection guards

  /** `currentUser?.id === user.id`: false when no one is signed in. */
  predicate IsSelf(currentUser: Option<User>, u: User) {
    currentUser.Some? && currentUser.value.id == u.id
  }

  /** The delete button of a row. */
  predicate DeleteDisabled(currentUser: Option<User>, row: User) {
    IsSelf(currentUser, row)
  }

  /** The role select of the edit modal. */
  predicate RoleSelectDisabled(currentUser: Option<User>, p: Panel) {
    p.selected.Some? && IsSelf(currentUser, p.selected.value)
  }

  /** What the user can do in the open edit modal. */
  datatype EditEvent =
    | SetUsername(v: string)
    | SetRole(v: string)
    | SetNewPassword(v: string)
    | SetConfirmPassword(v: string)

  /** One event; a disabled select ignores a role change. */
  function ApplyEdit(p: Panel, currentUser: Option<User>, e: EditEvent): (r: Panel)
    ensures r.selected == p.selected
    ensures e.SetRole? && !RoleSelectDisabled(currentUser, p) ==> r.editRole == e.v
    ensures !e.SetRole? || RoleSelectDisabled(currentUser, p) ==> r.editRole == p.editRole
  {
    match e
    case SetUsername(v) => p.(editUsername := v)
    case SetRole(v) => if RoleSelectDisabled(currentUser, p) then p else p.(editRole := v)
    case SetNewPassword(v) => p.(editNewPassword := v)
    case SetConfirmPassword(v) => p.(editConfirmPassword := v)
  }

  function ApplyEdits(p: Panel, currentUser: Option<User>, es: seq<EditEvent>): Panel
    decreases |es|
  {
    if es == [] then p else ApplyEdits(ApplyEdit(p, currentUser, es[0]), currentUser, es[1..])
  }

  /** While the selection is the signed-in user, no sequence of edits moves
      the role. */
  lemma {:induction false} SelfRoleFixed(p: Panel, currentUser: Option<User>, es: seq<EditEvent>)
    requires RoleSelectDisabled(currentUser, p)
    ensures ApplyEdits(p, currentUser, es).editRole == p.editRole
    ensures ApplyEdits(p, currentUser, es).selected == p.selected
    decreases |es|
  {
    if es != [] {
      SelfRoleFixed(ApplyEdit(p, currentUser, es[0]), currentUser, es[1..]);
    }
  }

  // ---------------------------------------------------------------------
  // Requests

  datatype UserBody =
    | NoBody
    | Profile(username: string, role: string)
    | NewPassword(password: string)
    | NewUser(username: string, password: string, role: string)

  /** A request below /api/auth, its path given as segments. */
  datatype UserRequest = UserRequest(verb: AuthRoutes.Method, path: seq<string>, body: UserBody)

  /** How the panel sees the answer to one request: success, or a failure
      whose JSON body may carry a `message`. */
  datatype Answer = Ok | NotOk(message: Option<string>)

  /** The requests a handler sent, in order, and the panel afterwards. */
  datatype Run = Run(sent: seq<UserRequest>, panel: Panel)

  const MsgMismatch: string := "As senhas não coincidem."
  const MsgUpdateFailed: string := "Falha ao atualizar usuário"
  const MsgPasswordFailed: string := "Falha ao atualizar a senha"
  const MsgDeleteFailed: string := "Falha ao excluir usuário"
  const MsgCreateFailed: string := "Falha ao criar usuário."

  /** The panel after a failed request: the server's message, or the
      handler's fallback when it has none. */
  function Failed(p: Panel, message: Option<string>, fallback: string): Panel {
    p.(error := Some(OrElse(message, fallback)))
  }

  function ProfileRequest(u: User, username: string, role: string): UserRequest {
    UserRequest(AuthRoutes.PUT, ["users", IntText(u.id)], Profile(username, role))
  }

  function PasswordRequest(u: User, password: string): UserRequest {
    UserRequest(AuthRoutes.PUT, ["users", IntText(u.id), "password"], NewPassword(password))
  }

  /** `handleUpdateUser`: the name and role are sent first; only then is a
      new password looked at — an empty one is skipped, a mismatched one is
      reported, a confirmed one is sent separately. `first` and `second`
      answer the two requests. */
  function HandleUpdate(p: Panel, first: Answer, second: Answer): (r: Run)
    ensures p.selected.None? ==> r == Run([], p)
    ensures p.selected.Some? ==>
              1 <= |r.sent| <= 2 && r.sent[0] == ProfileRequest(p.selected.value, p.editUsername, p.editRole)
    ensures |r.sent| == 2 <==> p.selected.Some? && first.Ok? && p.editNewPassword != ""
                               && p.editNewPassword == p.editConfirmPassword
    ensures |r.sent| == 2 ==> r.sent[1] == PasswordRequest(p.selected.value, p.editNewPassword)
    ensures p.selected.Some? ==>
              (r.panel == CloseModal(p) <==> first.Ok? && (p.editNewPassword == "" || (|r.sent| == 2 && second.Ok?)))
    ensures p.selected.Some? && first.NotOk? ==> r.panel == Failed(p, first.message, MsgUpdateFailed)
  {
    match p.selected
    case None => Run([], p)
    case Some(u) =>
      var put := ProfileRequest(u, p.editUsername, p.editRole);
      if first.NotOk? then Run([put], Failed(p, first.message, MsgUpdateFailed))
      else if p.editNewPassword == "" then Run([put], CloseModal(p))
      else if p.editNewPassword != p.editConfirmPassword then Run([put], p.(error := Some(MsgMismatch)))
      else
        var pw := PasswordRequest(u, p.editNewPassword);
        if second.NotOk? then Run([put, pw], Failed(p, second.message, MsgPasswordFailed))
        else Run([put, pw], CloseModal(p))
  }

  /** The edit form's one `required` input is the username; the browser
      fires `submit` only when it is filled. */
  predicate EditFormFilled(p: Panel) {
    p.editUsername != ""
  }

  /** Pressing "Salvar" in the edit modal: nothing is sent while the name is
      empty, otherwise `handleUpdateUser` runs, so every profile request
      carries a name. */
  function SubmitEdit(p: Panel, first: Answer, second: Answer): (r: Run)
    ensures !EditFormFilled(p) ==> r == Run([], p)
    ensures EditFormFilled(p) ==> r == HandleUpdate(p, first, second)
    ensures |r.sent| > 0 ==> r.sent[0].body.Profile? && r.sent[0].body.username != ""
  {
    if EditFormFilled(p) then HandleUpdate(p, first, second) else Run([], p)
  }

  /** A mismatched new password is reported only after the new name and
      role were already sent, and the modal stays open with the error. */
  lemma MismatchReportedAfterProfileSent(p: Panel, second: Answer)
    requires p.selected.Some? && p.editNewPassword != "" && p.editNewPassword != p.editConfirmPassword
    ensures var r := HandleUpdate(p, Ok, second);
            && r.sent == [ProfileRequest(p.selected.value, p.editUsername, p.editRole)]
            && r.panel.error == Some(MsgMismatch) && r.panel.editOpen == p.editOpen
  {
  }

  /** Whatever an administrator does in the edit modal opened on their own
      row, the profile request carries their current role. */
  lemma SelfEditCannotChangeRole(p: Panel, me: User, es: seq<EditEvent>, first: Answer, second: Answer)
    ensures var q := ApplyEdits(OpenEditModal(p, me), Some(me), es);
            var r := HandleUpdate(q, first, second);
            |r.sent| >= 1 && r.sent[0] == ProfileRequest(me, q.editUsername, me.role)
  {
    var q := ApplyEdits(OpenEditModal(p, me), Some(me), es);
    SelfRoleFixed(OpenEditModal(p, me), Some(me), es);
    assert q.selected == Some(me);
  }

  /** `handleDeleteUser`: nothing without a selection. */
  function HandleDelete(p: Panel, answer: Answer): (r: Run)
    ensures p.selected.None? ==> r == Run([], p)
    ensures p.selected.Some? ==> r.sent == [UserRequest(AuthRoutes.DELETE, ["users", IntText(p.selected.value.id)], NoBody)]
    ensures p.selected.Some? ==> r.panel == if answer.Ok? then CloseModal(p) else Failed(p, answer.message, MsgDeleteFailed)
  {
    match p.selected
    case None => Run([], p)
    case Some(u) =>
      var del := UserRequest(AuthRoutes.DELETE, ["users", IntText(u.id)], NoBody);
      Run([del], if answer.Ok? then CloseModal(p) else Failed(p, answer.message, MsgDeleteFailed))
  }

  /** The "Excluir" button of a row: a disabled button ignores the click,
      otherwise it opens the delete modal on that row. Whatever it selects
      is never the signed-in user. */
  function ClickDelete(p: Panel, currentUser: Option<User>, row: User): (r: Panel)
    ensures DeleteDisabled(currentUser, row) ==> r == p
    ensures !DeleteDisabled(currentUser, row) ==> r == OpenDeleteModal(p, row)
    ensures r.selected != p.selected ==> r.selected == Some(row) && !IsSelf(currentUser, row)
  {
    if DeleteDisabled(currentUser, row) then p else OpenDeleteModal(p, row)
  }

  /** An administrator never sends a DELETE for themselves through the row
      buttons: from a panel whose selection is empty or someone else, a
      click and the confirmation send nothing or the DELETE of a user other
      than the signed-in one; with nothing selected, clicking one's own row
      sends nothing at all. */
  lemma SelfDeleteNeverSent(p: Panel, currentUser: Option<User>, row: User, answer: Answer)
    requires p.selected.None? || !IsSelf(currentUser, p.selected.value)
    ensures var q := ClickDelete(p, currentUser, row);
            var r := HandleDelete(q, answer);
            && (q.selected.None? ==> r.sent == [])
            && (q.selected.Some? ==> && !IsSelf(currentUser, q.selected.value)
                                     && r.sent == [UserRequest(AuthRoutes.DELETE, ["users", IntText(q.selected.value.id)], NoBody)])
    ensures p.selected.None? && DeleteDisabled(currentUser, row) ==>
              HandleDelete(ClickDelete(p, currentUser, row), answer).sent == []
  {
  }

  /** Unlike the category panel, a failed delete shows its error twice:
      inside the still open delete modal and in the banner behind it. */
  lemma DeleteFailureReachesBanner(p: Panel, message: Option<string>)
    requires p.selected.Some? && p.deleteOpen && !p.addOpen && !p.editOpen
    ensures var r := HandleDelete(p, NotOk(message)).panel;
            r.deleteOpen && BannerShown(r) && r.error == Some(OrElse(message, MsgDeleteFailed))
  {
  }

  /** `handleAddNewUser`: the passwords are compared before anything is
      sent; otherwise one POST with name, password and role. */
  function HandleAdd(p: Panel, answer: Answer): (r: Run)
    ensures p.addPassword != p.addConfirmPassword ==> r == Run([], p.(error := Some(MsgMismatch)))
    ensures p.addPassword == p.addConfirmPassword ==>
              && r.sent == [UserRequest(AuthRoutes.POST, ["users"], NewUser(p.addUsername, p.addPassword, p.addRole))]
              && r.panel == if answer.Ok? then CloseModal(p) else Failed(p.(error := None), answer.message, MsgCreateFailed)
  {
    if p.addPassword != p.addConfirmPassword then Run([], p.(error := Some(MsgMismatch)))
    else
      var post := UserRequest(AuthRoutes.POST, ["users"], NewUser(p.addUsername, p.addPassword, p.addRole));
      Run([post], if answer.Ok? then CloseModal(p) else Failed(p.(error := None), answer.message, MsgCreateFailed))
  }

  /** The add form's `required` inputs: the username, both password fields
      and the role select. The browser fires `submit` only when all hold a
      value. */
  predicate AddFormFilled(p: Panel) {
    p.addUsername != "" && p.addPassword != "" && p.addConfirmPassword != "" && p.addRole != ""
  }

  /** Pressing "Criar Usuário": nothing is sent while a required field is
      empty, otherwise `handleAddNewUser` runs. */
  function SubmitAdd(p: Panel, answer: Answer): (r: Run)
    ensures !AddFormFilled(p) ==> r == Run([], p)
    ensures AddFormFilled(p) ==> r == HandleAdd(p, answer)
    ensures |r.sent| > 0 ==> |r.sent| == 1 && r.sent[0].body.NewUser?
    ensures |r.sent| > 0 ==> var b := r.sent[0].body; b.username != "" && b.password != "" && b.role != ""
  {
    if AddFormFilled(p) then HandleAdd(p, answer) else Run([], p)
  }

  /** The JSON body POST /api/auth/users reads. */
  function ToNewUserBody(b: UserBody): (r: AuthRoutes.NewUserBody)
    requires b.NewUser?
    ensures r.username == Some(b.username) && r.password == Some(b.password) && r.role == Some(b.role)
  {
    AuthRoutes.NewUserBody(Some(b.username), Some(b.password), Some(b.role))
  }

  /** The add form is the one form the server answers. It sends a request
      exactly when its required fields are filled and the passwords agree;
      the request reaches the create-user handler, never meets its 400, and
      for an administrator and a free name stores exactly the name and role
      typed. */
  lemma AddFormReachesCreateUser(p: Panel, answer: Answer, users: AuthRoutes.Users, header: Option<string>,
                                 verify: string -> Option<AuthRoutes.Claims>, hash: string -> string)
    requires AuthRoutes.Authenticate(header, verify).Pass?
    requires AuthRoutes.Authenticate(header, verify).user.role == AuthRoutes.AdminRole
    ensures var run := SubmitAdd(p, answer);
            && (|run.sent| > 0 <==> AddFormFilled(p) && p.addPassword == p.addConfirmPassword)
            && (|run.sent| > 0 ==>
                  var req := run.sent[0];
                  var r := AuthRoutes.CreateUser(users, header, verify, ToNewUserBody(req.body), hash, AuthRoutes.UserOk);
                  && AuthRoutes.Dispatch(req.verb, req.path) == AuthRoutes.CreateUserRoute
                  && r.reply != Http.Failure(400, AuthRoutes.MsgUserFieldsRequired)
                  && (!AuthRoutes.UsernameTaken(users.rows, p.addUsername) ==>
                        r.reply.Success? && r.reply.value.user.username == p.addUsername
                        && r.reply.value.user.role == p.addRole))
  {
  }

  /** Listing, editing, changing a password and deleting reach no handler
      of auth.js: every request those handlers send is unrouted. */
  lemma OnlyAddIsRouted(p: Panel, a1: Answer, a2: Answer)
    ensures AuthRoutes.Dispatch(AuthRoutes.GET, ["users"]) == AuthRoutes.NoRoute
    ensures forall req :: req in HandleUpdate(p, a1, a2).sent ==> AuthRoutes.Dispatch(req.verb, req.path) == AuthRoutes.NoRoute
    ensures forall req :: req in HandleDelete(p, a1).sent ==> AuthRoutes.Dispatch(req.verb, req.path) == AuthRoutes.NoRoute
  {
  }

  // ---------------------------------------------------------------------
  // The answer to the list fetch

  datatype FetchReply = Listed(data: seq<User>) | Refused(status: nat, statusText: string)

  datatype Fetched = Fetched(panel: Panel, logsOut: bool)

  const MsgFetchPrefix: string := "Erro ao buscar usuários: "

  /** A list replaces the users and clears the error; a refusal keeps the
      old list, shows the status text, and logs out on 401 or 403. */
  function OnFetch(p: Panel, reply: FetchReply): (r: Fetched)
    ensures reply.Listed? ==> r.panel == p.(users := reply.data, error := None) && !r.logsOut
    ensures reply.Refused? ==> && r.panel == p.(error := Some(MsgFetchPrefix + reply.statusText))
                               && (r.logsOut <==> reply.status == 401 || reply.status == 403)
  {
    match reply
    case Listed(data) => Fetched(p.(users := data, error := None), false)
    case Refused(status, text) =>
      Fetched(p.(error := Some(MsgFetchPrefix + text)), status == 401 || status == 403)
  }

  /** With the list unrouted, the mounted panel shows the fetch error in its
      banner over an empty table, and stays signed in. */
  lemma MountedPanelShowsFetchError(statusText: string)
    ensures var f := OnFetch(Mounted, Refused(404, statusText));
            && f.panel.users == [] && !f.logsOut && BannerShown(f.panel)
            && f.panel.error == Some(MsgFetchPrefix + statusText)
  {
  }
}

=== FILE: wrappers.dfy ===
/** The optional value used wherever the source has a nullable or possibly
    missing field (`undefined` / `null` in JavaScript, a NULL column in SQL). */
module Wrappers {

  datatype Option<+T> = None | Some(value: T) {

    /** Returns the held value, or `default` when there is none. */
    function GetOr(default: T): T {
      match this
      case Some(v) => v
      case None => default
    }
  }

  /** JavaScript truthiness of an optional string: absent and empty are falsy. */
  predicate Truthy(v: Option<string>) {
    v.Some? && v.value != ""
  }

  /** `v || fallback` on an optional string. */
  function OrElse(v: Option<string>, fallback: string): (r: string)
    ensures Truthy(v) ==> r == v.value
    ensures !Truthy(v) ==> r == fallback
  {
    if Truthy(v) then v.value else fallback
  }
}
